=== FILE: README.md ===
# polyfactory agent bridge and helpers, modelled in Dafny

This project models the part of polyfactory that lets an AI agent drive a
Houdini session, together with a set of small pure helpers from the asset
library, the widget toolkit and the LDraw importer.

**The agent bridge.** A client sends MessagePack envelopes. The
`MessageHandler` decodes each one and routes it by its `type`:

- `ping` is answered with a pong.
- `command` and `batch` go through the `ApprovalManager`. In `preview` mode
  every command needs the operator's approval. In `auto` and `destructive` mode
  only scene-changing commands do. A batch first shows one dialog with Execute
  All / Review Each / Cancel All.
- `set_approval_mode` switches the approval mode.

The `CommandExecutor` routes a command by its type tag to one of twelve
handlers. It turns any `Exception` into a failure reply and keeps a key/value
session store.

**The helpers modelled:**

- the primitive group string and the file-name sanitising of the asset exporter;
- the export dialog's path preview, input validation and tag field;
- the tag-chip widget's tag list;
- the asset browser's filter, grid and thumbnail frame;
- `chunk_array`;
- the expression and colour helpers for parameters;
- the LDraw importer's winding rules, `INVERTNEXT` handling, library keys and brick IDs and names.

**Conventions.**

- Python values that cross the bridge are `Values.Value`: `None`, `bool`, `int`, `str`, `list` and insertion-ordered `dict`. Dict keys follow Python's equality (`True == 1`).
- An `Exception` is an `Err` carrying the message `str(e)` would give.
- Everything the code asks of the outside world is a parameter:
  - the host handlers, the host's presence and the traceback text are fields of `Commands.Runtime`;
  - the operator's button presses are a sequence of answers, where an exhausted sequence means the dialog was closed;
  - the MessagePack codec is a pair of functions;
  - the host's view of a parameter is a record of results;
  - numeric parsing in the LDraw importer is a record of functions;
  - file existence is a predicate.

Modules:

| file | module | models |
|---|---|---|
| common.dfy | Common | `Option`, `Result` |
| values.dfy | Values | Python values, dict get/set, `str()` |
| text.dfy | Text | `str.strip`, `split`, `join`, `lower`, `str(int)`, substring test |
| paths.dfy | Paths | `os.path.join`, `os.path.basename` (POSIX) |
| approval.dfy | Approval | `houdini_bridge/approval.py` |
| commands.dfy | Commands | `houdini_bridge/commands.py` |
| dispatcher.dfy | Dispatcher | `houdini_bridge/message_handler.py` |
| exporter.dfy | Exporter | `asset_library/exporter.py` helpers |
| export_ui.dfy | ExportForm | `asset_library/export_ui.py` helpers |
| tag_input.dfy | TagInput | `widgets/tag_input.py` tag list |
| browser_ui.dfy | Browser | `asset_library/browser_ui.py` helpers |
| utils.dfy | Utils | `utils.py` `chunk_array` |
| parm_utils.dfy | ParmUtils | `widgets/parm_utils.py` |
| ldraw.dfy | LDraw | `pfbricks/ldraw.py` |

## Model

| member | source | states |
|---|---|---|
| Approval.ParseMode | polyfactory/scripts/python/polyfactory/houdini_bridge/approval.py:19-23 | `ApprovalMode(v)` yields a mode only for that mode's own wire value; anything else is the `ValueError` case |
| Approval.ParseModeValue | polyfactory/scripts/python/polyfactory/houdini_bridge/approval.py:19-23 | each of `auto`, `preview`, `destructive` parses back to its mode, so exactly three values are accepted |
| Approval.NewManager | polyfactory/scripts/python/polyfactory/houdini_bridge/approval.py:29-31 | a fresh manager is in `auto` mode |
| Approval.SetMode | polyfactory/scripts/python/polyfactory/houdini_bridge/approval.py:33-35 | the mode afterwards is exactly the mode given |
| Approval.RequiresApproval | polyfactory/scripts/python/polyfactory/houdini_bridge/approval.py:37-45 | approval is needed iff the mode is `preview` or the command is destructive; outside `preview` the answer is the destructiveness flag |
| Approval.NextAnswer | polyfactory/scripts/python/polyfactory/houdini_bridge/approval.py:70-78 | a dialog reads the operator's next answer; with none left it reads the close action |
| Approval.RequestApproval | polyfactory/scripts/python/polyfactory/houdini_bridge/approval.py:47-80 | an ungated command, or any command without a host UI, is approved with no dialog and no answer read; a gated one shows exactly one dialog, reads one answer and is approved iff that answer is 0 (Execute) |
| Approval.ReviewEach | polyfactory/scripts/python/polyfactory/houdini_bridge/approval.py:112-125 | the Review Each loop gives one decision per item |
| Approval.ReviewEachIsRun | polyfactory/scripts/python/polyfactory/houdini_bridge/approval.py:113-125 | Review Each approvals are a run of trues followed by falses: nothing is approved after the first denial |
| Approval.ReviewPromptCount | polyfactory/scripts/python/polyfactory/houdini_bridge/approval.py:114-124 | the dialogs shown are exactly one per gated item among the items reviewed (up to and including the first denial); later items are never shown |
| Approval.ReviewDenied | polyfactory/scripts/python/polyfactory/houdini_bridge/approval.py:120-124 | a denial of the first item reviews that item only and shows only its dialogs |
| Approval.ReviewApproved | polyfactory/scripts/python/polyfactory/houdini_bridge/approval.py:114-120 | an approved first item is followed by reviewing the rest with the remaining answers |
| Approval.ReviewConsumesAnswers | polyfactory/scripts/python/polyfactory/houdini_bridge/approval.py:114-124 | Review Each reads exactly one operator answer per dialog it shows |
| Approval.RequestConsumesAnswers | polyfactory/scripts/python/polyfactory/houdini_bridge/approval.py:59-80 | one approval request shows at most one dialog and reads one answer per dialog shown |
| Approval.ReviewDenialIsAnswered | polyfactory/scripts/python/polyfactory/houdini_bridge/approval.py:59-60 | the first denied item under Review Each is always one the mode gates: an ungated item is never denied |
| Approval.ApprovalPrompt | polyfactory/scripts/python/polyfactory/houdini_bridge/approval.py:66-78 | the approval dialog has the buttons Execute and Cancel, defaults and closes to Cancel, is a warning iff the command is destructive, and its message shows the command and then the preview |
| Approval.PromptMessageParts | polyfactory/scripts/python/polyfactory/houdini_bridge/approval.py:67 | the command sits right after `AI Agent Request:` and two newlines, and the preview after the command and two newlines |
| Approval.ApprovedIffExecutePressed | polyfactory/scripts/python/polyfactory/houdini_bridge/approval.py:66-80 | a gated command is approved iff the operator's answer selects the `Execute` button of the dialog shown; closing it selects `Cancel` |
| Approval.BatchPrompt | polyfactory/scripts/python/polyfactory/houdini_bridge/approval.py:91-105 | the batch dialog has the buttons Execute All, Review Each and Cancel All, defaults to Review Each, closes to Cancel All, is a plain message and opens with the number of operations |
| Approval.BatchListing | polyfactory/scripts/python/polyfactory/houdini_bridge/approval.py:91-95 | the listing has one line per command, line `i` reads `i+1. ` and the description, and, with newline-free descriptions, splits back into those lines |
| Approval.ApproveBatch | polyfactory/scripts/python/polyfactory/houdini_bridge/approval.py:82-125 | one decision per command, always a run; without a host UI all approved with no dialog; otherwise the batch dialog comes first, Execute All approves all and Cancel All (or closing) denies all, each with that single dialog, and any other answer continues with Review Each on the remaining answers |
| Approval.ReviewPromptsBounded | polyfactory/scripts/python/polyfactory/houdini_bridge/approval.py:113-125 | Review Each shows no more dialogs than items reviewed, and never more than there are items |
| Approval.ReviewReadOnlyApprovesAll | polyfactory/scripts/python/polyfactory/houdini_bridge/approval.py:115-119 | in `auto` or `destructive` mode a batch of read-only commands is approved in full under Review Each without any per-item dialog |
| Commands.ParseTag | polyfactory/scripts/python/polyfactory/houdini_bridge/commands.py:37-64 | the router selects a handler only for that handler's own type string |
| Commands.ParseTagName | polyfactory/scripts/python/polyfactory/houdini_bridge/commands.py:41-64 | each of the twelve type strings reaches its handler |
| Commands.NewSession | polyfactory/scripts/python/polyfactory/houdini_bridge/commands.py:23-24 | the session store starts empty |
| Commands.GetSession | polyfactory/scripts/python/polyfactory/houdini_bridge/commands.py:330-344 | with a falsy or missing key the reply is the whole store; with a truthy key it is `{key, value}` with the stored value or `None` when absent; it raises `TypeError` exactly when the truthy key is unhashable |
| Commands.SetSession | polyfactory/scripts/python/polyfactory/houdini_bridge/commands.py:346-356 | it raises `TypeError` exactly for an unhashable key; otherwise the reply echoes key and value, the key then maps to the value, and every other key keeps its value |
| Commands.Execute | polyfactory/scripts/python/polyfactory/houdini_bridge/commands.py:27-76 | an unknown type is a failure naming it and changes nothing; only `set_session_state` and `execute_python` can change the session store; the session handlers never touch the host; without the host every host handler fails with `Houdini not available` |
| Commands.HostRaiseIsCaught | polyfactory/scripts/python/polyfactory/houdini_bridge/commands.py:71-76 | an `Exception` in a host handler becomes a failure carrying its message and the traceback text |
| Commands.SetThenGet | polyfactory/scripts/python/polyfactory/houdini_bridge/commands.py:330-356 | after setting `k` to `v`, getting `k` replies `{key: k, value: v}` and both replies echo the pair, with or without the host |
| Commands.SetLeavesOtherKeys | polyfactory/scripts/python/polyfactory/houdini_bridge/commands.py:346-351 | setting one key leaves every other key's value as it was |
| Commands.MissingKeyStoredUnderNone | polyfactory/scripts/python/polyfactory/houdini_bridge/commands.py:348-351 | a set command without a key stores its value under `None` |
| Commands.FalsyKeyGetsWholeState | polyfactory/scripts/python/polyfactory/houdini_bridge/commands.py:332-344 | a get with a falsy or missing key replies with the whole store |
| Commands.MissingKeyGetsNone | polyfactory/scripts/python/polyfactory/houdini_bridge/commands.py:332-340 | a truthy key the store lacks is answered with value `None` and changes nothing |
| Commands.UnhashableKeyIsCaught | polyfactory/scripts/python/polyfactory/houdini_bridge/commands.py:71-76 | an unhashable truthy key turns into a failure carrying the `TypeError` and its traceback, and changes nothing |
| Commands.ExecuteKeepsUniqueKeys | polyfactory/scripts/python/polyfactory/houdini_bridge/commands.py:346-351 | the store keeps one entry per key across every command that does not run Python |
| Values.Lookup | polyfactory/scripts/python/polyfactory/houdini_bridge/commands.py:335 | `d.get(k)` finds a value iff some entry's key equals `k` under Python's key equality |
| Values.LookupPutSame | polyfactory/scripts/python/polyfactory/houdini_bridge/commands.py:351 | after `d[k] = v`, `d.get(k)` is `v` |
| Values.LookupPutOther | polyfactory/scripts/python/polyfactory/houdini_bridge/commands.py:351 | `d[k] = v` leaves every other key's value unchanged |
| Values.PutKeys | polyfactory/scripts/python/polyfactory/houdini_bridge/commands.py:351 | `d[k] = v` adds an entry only for a new key, and the keys afterwards are the old ones and `k` |
| Values.PutKeepsUniqueKeys | polyfactory/scripts/python/polyfactory/houdini_bridge/commands.py:351 | `d[k] = v` never creates two equal keys |
| Values.GetField | polyfactory/scripts/python/polyfactory/houdini_bridge/message_handler.py:100 | `.get` fails with `AttributeError` exactly on a non-dict |
| Values.Iterate | polyfactory/scripts/python/polyfactory/houdini_bridge/message_handler.py:110 | iterating fails exactly on `None`, a bool or an int |
| Dispatcher.NewHandler | polyfactory/scripts/python/polyfactory/houdini_bridge/message_handler.py:20-22 | a new handler has an `auto` manager and an empty session store |
| Dispatcher.AsDict | polyfactory/scripts/python/polyfactory/houdini_bridge/message_handler.py:55 | a message can be read as a dict exactly when it is one |
| Dispatcher.IsDestructive | polyfactory/scripts/python/polyfactory/houdini_bridge/message_handler.py:149-158 | a command is destructive iff its type is one of the five scene-changing tags; an unhashable type raises |
| Dispatcher.DestructiveTypesAreHostCommands | polyfactory/scripts/python/polyfactory/houdini_bridge/message_handler.py:151-157 | every destructive tag is routed by the executor to a host handler |
| Dispatcher.Description | polyfactory/scripts/python/polyfactory/houdini_bridge/message_handler.py:160-173 | a command of any type other than the four worded ones is described by its type value itself; `execute_python` is always `Execute Python code` |
| Dispatcher.Preview | polyfactory/scripts/python/polyfactory/houdini_bridge/message_handler.py:175-203 | the preview raises exactly for `execute_python` whose `code` is not a string; every other preview starts with `Will `; string code previews as `Will execute:` and a newline followed by its code preview |
| Dispatcher.CodePreview | polyfactory/scripts/python/polyfactory/houdini_bridge/message_handler.py:194-200 | code of at most five lines is previewed in full; longer code previews as exactly its first five lines and one line `... (n-5 more lines)` |
| Dispatcher.LinesPreview | polyfactory/scripts/python/polyfactory/houdini_bridge/message_handler.py:197-199 | up to five newline-free lines are joined unchanged; more are cut to the first five and a marker line counting the rest |
| Dispatcher.LongCodeLines | polyfactory/scripts/python/polyfactory/houdini_bridge/message_handler.py:196-199 | five newline-free lines joined and followed by the marker line split back into those six lines |
| Dispatcher.CreatePreviewDefaults | polyfactory/scripts/python/polyfactory/houdini_bridge/message_handler.py:179-183 | a `create_node` preview without parent or name reads `Will create: /obj/new_node (<type>)` |
| Dispatcher.HandleCommand | polyfactory/scripts/python/polyfactory/houdini_bridge/message_handler.py:71-96 | a non-dict `data` raises; the approval mode never changes and at most one command runs; with none run the reply is the cancellation and handler and host are unchanged; otherwise the reply, store and host are the executor's for exactly the `data` dict |
| Dispatcher.BatchItems | polyfactory/scripts/python/polyfactory/houdini_bridge/message_handler.py:103-111 | the approval entries are built one per command, and every command is a dict |
| Dispatcher.RunBatch | polyfactory/scripts/python/polyfactory/houdini_bridge/message_handler.py:113-123 | one result per command; a denied command's result is the cancellation reply; exactly the approved commands are executed, in order |
| Dispatcher.RunBatchInOrder | polyfactory/scripts/python/polyfactory/houdini_bridge/message_handler.py:113-123 | an approved entry's result is the executor's reply in the store and host left by the entries before it |
| Dispatcher.HandleBatch | polyfactory/scripts/python/polyfactory/houdini_bridge/message_handler.py:98-128 | a non-dict `data` raises; any batch that gets through is answered with a success and leaves the approval mode alone |
| Dispatcher.PingReply | polyfactory/scripts/python/polyfactory/houdini_bridge/message_handler.py:63-64 | `ping` answers `{success: true, data: {pong: true}}` and changes nothing, prompts nothing, executes nothing |
| Dispatcher.UnknownMessageType | polyfactory/scripts/python/polyfactory/houdini_bridge/message_handler.py:55-69 | any other or missing type answers `Unknown message type: <t>` and changes nothing |
| Dispatcher.CommandOutline | polyfactory/scripts/python/polyfactory/houdini_bridge/message_handler.py:71-96 | an ungated command is executed directly; a gated one is put to the approval request with its type and preview |
| Dispatcher.CommandDenied | polyfactory/scripts/python/polyfactory/houdini_bridge/message_handler.py:78-93 | a denied command gets `Command cancelled by user`, is not executed, and leaves handler and host unchanged |
| Dispatcher.CommandRuns | polyfactory/scripts/python/polyfactory/houdini_bridge/message_handler.py:78-96 | any other command is executed once and the executor's reply is returned unchanged |
| Dispatcher.CommandPromptCount | polyfactory/scripts/python/polyfactory/houdini_bridge/message_handler.py:78-87 | with a host UI, `preview` mode shows exactly one dialog and the other modes show one iff the command is destructive |
| Dispatcher.BatchShape | polyfactory/scripts/python/polyfactory/houdini_bridge/message_handler.py:98-128 | a batch reply is a success with one result per command in input order; a denied entry is exactly the cancellation reply; an approved entry is the executor's reply in the store and host the earlier entries left, except that a whole-store reply shows the store as the batch ended; the executor sees exactly the approved commands in order; the dialogs are those of `approve_batch` |
| Dispatcher.WholeStateReplyIsLive | polyfactory/scripts/python/polyfactory/houdini_bridge/message_handler.py:113-128 | a whole-store reply of an earlier entry shows a key that a later entry of the same batch sets, because the reply holds the store itself |
| Dispatcher.Packed | polyfactory/scripts/python/polyfactory/houdini_bridge/message_handler.py:113-128 | the result list keeps one entry per command; an approved `get_session_state` whose `key` is missing or falsy shows the store as the batch ended, because its reply holds the live `session_state` dict (commands.py:343); every other entry is the reply as it was made |
| Dispatcher.PackedWithoutWholeReads | polyfactory/scripts/python/polyfactory/houdini_bridge/commands.py:343 | a batch without an approved whole-store read is answered with the replies exactly as they were made |
| Dispatcher.PackedTwice | polyfactory/scripts/python/polyfactory/houdini_bridge/commands.py:343 | re-reading the live store again changes nothing: packing is idempotent |
| Dispatcher.BatchReplyResults | polyfactory/scripts/python/polyfactory/houdini_bridge/message_handler.py:125-128 | the batch reply's result list renders the results one by one |
| Dispatcher.BatchWithoutHostExecutesAll | polyfactory/scripts/python/polyfactory/houdini_bridge/approval.py:88-89 | with everything approved, every command of the batch is executed in order |
| Dispatcher.SetModeReply | polyfactory/scripts/python/polyfactory/houdini_bridge/message_handler.py:130-145 | a valid mode is set and echoed; any other value gets `Invalid approval mode: <v>` and the mode is kept |
| Dispatcher.HandleSetMode | polyfactory/scripts/python/polyfactory/houdini_bridge/message_handler.py:130-145 | it raises exactly for a non-dict `data`; a valid mode is set and echoed, any other value is refused with the handler unchanged; store, host and operator are untouched |
| Dispatcher.HandleMessage | polyfactory/scripts/python/polyfactory/houdini_bridge/message_handler.py:45-69 | a non-dict message raises `AttributeError` on `.get`; only `set_approval_mode` can change the mode; only `command` and `batch` can execute, touch the host or change the store |
| Dispatcher.HandleBinary | polyfactory/scripts/python/polyfactory/houdini_bridge/message_handler.py:24-43 | undecodable bytes, or a message whose handling raises, leave handler and host unchanged with nothing executed or prompted; otherwise handler, host and executed commands are those of `handle_message` |
| Dispatcher.NonDictMessageIsAnswered | polyfactory/scripts/python/polyfactory/houdini_bridge/message_handler.py:34-43 | a decoded message that is not a dict is answered with the decoding-error reply for its `AttributeError`, changing nothing |
| Dispatcher.BinaryNeverRaises | polyfactory/scripts/python/polyfactory/houdini_bridge/message_handler.py:34-43 | no `Exception` escapes `handle_binary` as long as the error reply can be encoded |
| Dispatcher.UndecodableChangesNothing | polyfactory/scripts/python/polyfactory/houdini_bridge/message_handler.py:34-43 | undecodable bytes are answered with `Message decoding error: <e>` and nothing changes |
| Exporter.Sort | polyfactory/scripts/python/polyfactory/asset_library/exporter.py:237 | `sorted` returns an ascending permutation of its input |
| Exporter.Expand | polyfactory/scripts/python/polyfactory/asset_library/exporter.py:231 | a span `lo-hi` stands for the consecutive numbers from `lo` to `hi` |
| Exporter.RenderSpan | polyfactory/scripts/python/polyfactory/asset_library/exporter.py:248-251 | a rendered span consists of digits and `-` only |
| Exporter.RenderAll | polyfactory/scripts/python/polyfactory/asset_library/exporter.py:240-259 | one token per span, in order |
| Exporter.RenderSpanParses | polyfactory/scripts/python/polyfactory/asset_library/exporter.py:248-251 | reading a rendered span back gives the same span |
| Exporter.RenderTokensParse | polyfactory/scripts/python/polyfactory/asset_library/exporter.py:240-259 | reading the rendered tokens back gives the numbers of the spans, in order |
| Exporter.RenderedGroupExpands | polyfactory/scripts/python/polyfactory/asset_library/exporter.py:261 | the space-joined group string reads back as exactly the numbers of its spans |
| Exporter.PrimsToGroupString | polyfactory/scripts/python/polyfactory/asset_library/exporter.py:224-261 | no primitives give `""`; otherwise the string is the space-joined spans, which are canonical (consecutive numbers merged, single numbers alone), cover exactly the sorted input, and the string reads back as the sorted input |
| Exporter.Runs | polyfactory/scripts/python/polyfactory/asset_library/exporter.py:240-259 | the range loop over sorted numbers closes canonical runs that together spell out its input |
| Exporter.ExtendStep | polyfactory/scripts/python/polyfactory/asset_library/exporter.py:245-246 | a number one above the current run extends it and keeps the loop's bookkeeping |
| Exporter.CloseStep | polyfactory/scripts/python/polyfactory/asset_library/exporter.py:247-253 | any other number closes the run with its rendered token and starts a new one |
| Exporter.Close | polyfactory/scripts/python/polyfactory/asset_library/exporter.py:255-259 | closing the final run keeps the spans canonical and the rendered and covered numbers in step |
| Exporter.CanonicalSnoc | polyfactory/scripts/python/polyfactory/asset_library/exporter.py:244-253 | a run that starts after a gap keeps the spans canonical |
| Exporter.SanitizeFilename | polyfactory/scripts/python/polyfactory/asset_library/exporter.py:332-347 | a sanitised name holds only letters, digits, `_` and `-`, and neither starts nor ends with `_` |
| Exporter.SanitizeIdempotent | polyfactory/scripts/python/polyfactory/asset_library/exporter.py:341-347 | sanitising twice is sanitising once |
| Exporter.SanitizeKeepsPlainNames | polyfactory/scripts/python/polyfactory/asset_library/exporter.py:341-347 | a name already of that shape is kept unchanged |
| Exporter.SanitizeHasNoSlash | polyfactory/scripts/python/polyfactory/asset_library/exporter.py:342 | a sanitised name never contains a path separator |
| Exporter.AssetFile | polyfactory/scripts/python/polyfactory/asset_library/exporter.py:40-58 | export fails with the library message exactly when the variable is unset or empty; otherwise it writes `<library>/<category>/<name>.usd` with both parts sanitised |
| Exporter.AssetFileName | polyfactory/scripts/python/polyfactory/asset_library/exporter.py:46-58 | the exported file is named after the sanitised asset name |
| Paths.Join | polyfactory/scripts/python/polyfactory/asset_library/exporter.py:50 | joining keeps both parts, with an absolute second part replacing the first |
| Paths.BaseName | polyfactory/scripts/python/polyfactory/asset_library/export_ui.py:214 | a base name is a suffix of the path without `/` |
| Paths.BaseNameOfJoin | polyfactory/scripts/python/polyfactory/asset_library/exporter.py:58 | joining a name without `/` onto a directory makes it the base name |
| ExportForm.PreviewSanitize | polyfactory/scripts/python/polyfactory/asset_library/export_ui.py:208-211 | the preview's sanitising keeps only letters, digits, `_` and `-` |
| ExportForm.PreviewPath | polyfactory/scripts/python/polyfactory/asset_library/export_ui.py:198-216 | the placeholder is shown iff the stripped name or category is empty; any other preview names the file after the sanitised stripped name with `.usd` |
| ExportForm.PreviewPathLayout | polyfactory/scripts/python/polyfactory/asset_library/export_ui.py:198-216 | a filled-in form previews `<library>/<category>/<name>.usd`, with stripped and sanitised parts and `$PF_ASSET_LIBRARY` for an unset variable; the path starts with the category directory and its base name is the file name |
| ExportForm.ExportedPath | polyfactory/scripts/python/polyfactory/asset_library/export_ui.py:240-246 | the export fails exactly when the library variable is unset or empty; otherwise the file written is named after the exporter's sanitised stripped name |
| ExportForm.PreviewDisagreesWithExport | polyfactory/scripts/python/polyfactory/asset_library/export_ui.py:208-214 | for the name `_a` the preview shows `/l/c/_a.usd` but the exporter writes `/l/c/a.usd` |
| ExportForm.PreviewPathCorrected | polyfactory/scripts/python/polyfactory/asset_library/export_ui.py:198-216 | the corrected preview also shows the placeholder iff a stripped field is empty |
| ExportForm.CorrectedPreviewMatchesExport | polyfactory/scripts/python/polyfactory/asset_library/export_ui.py:198-216 | the corrected preview is exactly the path the exporter writes, named after the sanitised name |
| ExportForm.ValidateInputs | polyfactory/scripts/python/polyfactory/asset_library/export_ui.py:218-234 | the form is valid iff name, category and selection are all present; a failure is reported for the first missing one in that order |
| ExportForm.ValidFormHasPreview | polyfactory/scripts/python/polyfactory/asset_library/export_ui.py:200-214 | a valid form never shows the placeholder |
| ExportForm.ParseTags | polyfactory/scripts/python/polyfactory/asset_library/export_ui.py:246 | no parsed tag is empty |
| ExportForm.ParseTagsStripped | polyfactory/scripts/python/polyfactory/asset_library/export_ui.py:246 | every parsed tag is stripped |
| ExportForm.BlankFieldHasNoTags | polyfactory/scripts/python/polyfactory/asset_library/export_ui.py:246 | an empty or blank field gives no tags |
| ExportForm.SplitSpaced | polyfactory/scripts/python/polyfactory/asset_library/export_ui.py:246 | splitting `", ".join(tags)` at commas gives the tags, each after one space |
| ExportForm.TagsRoundTrip | polyfactory/scripts/python/polyfactory/asset_library/export_ui.py:63-246 | tags typed as in the field's placeholder, `tag1, tag2, tag3`, parse back to the same tags in order |
| Text.Split | polyfactory/scripts/python/polyfactory/houdini_bridge/message_handler.py:196 | `split` pieces contain no separator and join back to the input |
| Text.SplitJoin | polyfactory/scripts/python/polyfactory/houdini_bridge/message_handler.py:196-197 | splitting a join of separator-free parts gives the parts back |
| Text.StripIdempotent | polyfactory/scripts/python/polyfactory/asset_library/export_ui.py:200 | stripping twice is stripping once |
| Text.StrippedIff | polyfactory/scripts/python/polyfactory/asset_library/export_ui.py:246 | a string has no whitespace at either end iff stripping leaves it unchanged |
| Text.StripEachKeeps | polyfactory/scripts/python/polyfactory/asset_library/export_ui.py:246 | every piece that strips to a non-empty text contributes it |
| Text.StripEachSource | polyfactory/scripts/python/polyfactory/asset_library/export_ui.py:246 | every tag kept is the stripped form of some piece |
| Text.Lower | polyfactory/scripts/python/polyfactory/asset_library/browser_ui.py:291 | lower-casing maps each character and keeps the length |
| Text.DigitsValueOfNatToString | polyfactory/scripts/python/polyfactory/asset_library/browser_ui.py:337 | a printed count reads back as the count |
| TagInput.NewWidget | polyfactory/scripts/python/polyfactory/widgets/tag_input.py:146-180 | a new widget has no tags, an empty line and no completions |
| TagInput.AddChip | polyfactory/scripts/python/polyfactory/widgets/tag_input.py:201-221 | the tags afterwards are the old ones plus the stripped text if it is non-empty; the list only grows at the end; a change is announced with the new list; the list stays duplicate-free with only non-empty stripped tags |
| TagInput.RemoveChip | polyfactory/scripts/python/polyfactory/widgets/tag_input.py:223-244 | removing an absent tag changes and announces nothing; a present tag is dropped once and the change announced |
| TagInput.RemoveChipDeletesExactly | polyfactory/scripts/python/polyfactory/widgets/tag_input.py:229-243 | on a valid list, removing a present tag deletes exactly that tag, keeps the others in order and keeps the list valid |
| TagInput.RemoveFirstIsWithout | polyfactory/scripts/python/polyfactory/widgets/tag_input.py:243 | `list.remove` on a duplicate-free list removes every occurrence |
| TagInput.WithoutKeepsValid | polyfactory/scripts/python/polyfactory/widgets/tag_input.py:243 | dropping a tag keeps the list duplicate-free and its tags valid |
| TagInput.ClearChips | polyfactory/scripts/python/polyfactory/widgets/tag_input.py:246-255 | clearing (also `clearTags`) leaves no tags and announces the empty list |
| TagInput.AddEach | polyfactory/scripts/python/polyfactory/widgets/tag_input.py:174-176 | the `setTags` loop only appends, announces in order and keeps the list valid |
| TagInput.SetTags | polyfactory/scripts/python/polyfactory/widgets/tag_input.py:164-176 | `setTags` first announces the empty list and leaves a valid list, which is the non-empty stripped input tags, each at its first occurrence (`Dedup`) |
| TagInput.AddEachMembers | polyfactory/scripts/python/polyfactory/widgets/tag_input.py:174-176 | after the loop a tag is present iff it was before or is the stripped form of a non-empty input tag |
| TagInput.SetTagsMembers | polyfactory/scripts/python/polyfactory/widgets/tag_input.py:164-176 | after `setTags` the tags are exactly the non-empty stripped input tags, each once |
| TagInput.Dedup | polyfactory/scripts/python/polyfactory/widgets/tag_input.py:174-176 | keeping each first occurrence gives a list without repeats and with the same members |
| TagInput.DedupNoDuplicates | polyfactory/scripts/python/polyfactory/widgets/tag_input.py:174-176 | a list without repeats is unchanged by `Dedup` |
| TagInput.AddEachDedup | polyfactory/scripts/python/polyfactory/widgets/tag_input.py:174-176 | the `setTags` loop onto a list equal to `Dedup(pre)` leaves `Dedup(pre + stripped tags)` |
| TagInput.LessTotal | polyfactory/scripts/python/polyfactory/widgets/tag_input.py:152 | Python's string order compares any two different strings |
| TagInput.LessTransitive | polyfactory/scripts/python/polyfactory/widgets/tag_input.py:152 | Python's string order is transitive |
| TagInput.SortUnique | polyfactory/scripts/python/polyfactory/widgets/tag_input.py:152 | `sorted(set(tags))` is strictly ascending and holds exactly the input's tags |
| TagInput.StrictlySortedUnique | polyfactory/scripts/python/polyfactory/widgets/tag_input.py:152 | two strictly sorted lists with the same members are equal, so `sorted(set(...))` is determined by the members |
| TagInput.SetAvailableTags | polyfactory/scripts/python/polyfactory/widgets/tag_input.py:146-154 | the completions are stored strictly sorted, with exactly the given tags, and the tag list is untouched |
| TagInput.TagMenu | polyfactory/scripts/python/polyfactory/widgets/tag_input.py:182-199 | no menu without completions; otherwise one entry per completion in sorted order, enabled iff the tag is not yet added |
| TagInput.SortSorted | polyfactory/scripts/python/polyfactory/widgets/tag_input.py:190 | sorting the already sorted completions again changes nothing |
| TagInput.MenuChoiceAdds | polyfactory/scripts/python/polyfactory/widgets/tag_input.py:190-196 | choosing an enabled menu entry appends exactly that tag |
| TagInput.Pieces | polyfactory/scripts/python/polyfactory/widgets/tag_input.py:278 | the pieces after mapping `;` to `,` contain neither separator |
| TagInput.AddPiecesAddsAll | polyfactory/scripts/python/polyfactory/widgets/tag_input.py:279-282 | every piece that strips to a non-empty text becomes a tag |
| TagInput.AddPiecesDedup | polyfactory/scripts/python/polyfactory/widgets/tag_input.py:279-282 | adding the pieces onto a list equal to `Dedup(pre)` leaves `Dedup(pre + stripped pieces)` |
| TagInput.OnTextChanged | polyfactory/scripts/python/polyfactory/widgets/tag_input.py:274-284 | text without separators changes only the line; otherwise the line is the stripped last piece and, on a valid list, the tags are `Dedup` of the old tags followed by the stripped earlier pieces, so a tag is present iff it was before or is one of those pieces |
| TagInput.TextChangedAdds | polyfactory/scripts/python/polyfactory/widgets/tag_input.py:277-282 | every non-empty piece before the last becomes a tag |
| TagInput.OnReturnPressed | polyfactory/scripts/python/polyfactory/widgets/tag_input.py:257-262 | blank text changes nothing; otherwise the stripped text becomes a tag and the line is cleared |
| TagInput.DeferredAddChip | polyfactory/scripts/python/polyfactory/widgets/tag_input.py:264-272 | a chosen completion clears the line and adds exactly its stripped text |
| Browser.Select | polyfactory/scripts/python/polyfactory/asset_library/browser_ui.py:295-311 | an asset is shown iff it is in the list and its category matches (or all are allowed), the lower-cased search is empty or in its lower-cased name, and it has every selected tag; no more assets are kept than there are |
| Browser.FilterAssets | polyfactory/scripts/python/polyfactory/asset_library/browser_ui.py:289-311 | the filter loop, which skips an asset at its first failing test, keeps exactly the passing assets in order |
| Browser.SelectIsSubsequence | polyfactory/scripts/python/polyfactory/asset_library/browser_ui.py:295-311 | the kept assets are a subsequence of all assets, in original order |
| Browser.NoCriteriaKeepsAll | polyfactory/scripts/python/polyfactory/asset_library/browser_ui.py:296-311 | with all categories, an empty search and no tags every asset is kept |
| Browser.Layout | polyfactory/scripts/python/polyfactory/asset_library/browser_ui.py:324-332 | one grid cell per kept asset |
| Browser.LayoutPositions | polyfactory/scripts/python/polyfactory/asset_library/browser_ui.py:324-332 | asset `i` sits at row `i div 4` and column `i mod 4`, and no two assets share a cell |
| Browser.StatusDeterminesCounts | polyfactory/scripts/python/polyfactory/asset_library/browser_ui.py:335-337 | the status line `Showing <n> of <m> assets` determines both counts |
| Browser.UpdateGrid | polyfactory/scripts/python/polyfactory/asset_library/browser_ui.py:315-337 | one cell per filtered asset and the status line for the filtered and total counts |
| Browser.DisplayFrame | polyfactory/scripts/python/polyfactory/asset_library/browser_ui.py:122-130 | without frames the placeholder; otherwise the index clamped to the loaded frames |
| Browser.LeaveEvent | polyfactory/scripts/python/polyfactory/asset_library/browser_ui.py:142-145 | leaving resets the index to 4 and shows frame 4, or the last frame when fewer are loaded |
| Utils.ChunkArray | polyfactory/scripts/python/polyfactory/utils.py:29-50 | the chunks are appended after the accumulator, which is kept as it was |
| Utils.ChunksConcat | polyfactory/scripts/python/polyfactory/utils.py:43-48 | the chunks, read in order, are the accumulated chunks followed by the input |
| Utils.ChunksSizes | polyfactory/scripts/python/polyfactory/utils.py:43-48 | every new chunk but the last is full; the last is non-empty for non-empty input |
| Utils.ChunksOfList | polyfactory/scripts/python/polyfactory/utils.py:29-50 | the chunks concatenate to the input, all but the last hold `chunk` elements, the last holds 1 to `chunk`, and the empty list gives one empty chunk |
| ParmUtils.HasExpressionIff | polyfactory/scripts/python/polyfactory/widgets/parm_utils.py:12-26 | a parameter has an expression iff its expression text is non-blank or it has a keyframe, with a raising host call reading as no expression |
| ParmUtils.ExpressionString | polyfactory/scripts/python/polyfactory/widgets/parm_utils.py:29-35 | the expression is returned iff it can be read and is non-empty |
| ParmUtils.ExpressionLanguage | polyfactory/scripts/python/polyfactory/widgets/parm_utils.py:38-43 | the host's language name, or `hscript` when the call raises |
| ParmUtils.LanguageFor | polyfactory/scripts/python/polyfactory/widgets/parm_utils.py:49 | Hscript iff the name is exactly `hscript` |
| ParmUtils.CapitalisedNameSelectsPython | polyfactory/scripts/python/polyfactory/widgets/parm_utils.py:49 | `Hscript` and `HSCRIPT` select Python; the default name selects Hscript |
| ParmUtils.SetExpression | polyfactory/scripts/python/polyfactory/widgets/parm_utils.py:46-52 | the request carries the expression unchanged, in Hscript iff the language is `hscript` |
| ParmUtils.ParmColor | polyfactory/scripts/python/polyfactory/widgets/parm_utils.py:63-85 | grey without an expression; with one, an unreadable keyframe list raises and more than one keyframe is orange, whatever the language |
| ParmUtils.ColorOfExpression | polyfactory/scripts/python/polyfactory/widgets/parm_utils.py:75-83 | with at most one keyframe, purple for `python` in any case, green for every other or unreadable language |
| ParmUtils.PlainColorIff | polyfactory/scripts/python/polyfactory/widgets/parm_utils.py:73-85 | grey exactly when there is no expression |
| ParmUtils.DisplayValue | polyfactory/scripts/python/polyfactory/widgets/parm_utils.py:132-142 | the expression text when an expression is detected and its text is non-empty; otherwise the evaluated value or its error |
| ParmUtils.KeyframedWithoutTextShowsValue | polyfactory/scripts/python/polyfactory/widgets/parm_utils.py:138-140 | a keyframed parameter with empty expression text shows its evaluated value |
| LDraw.Reversed | polyfactory/scripts/python/pfbricks/ldraw.py:20-32 | the vertex order is reversed iff `(cw == invert)` XOR `invertnext` XOR a negative determinant |
| LDraw.WindingFlips | polyfactory/scripts/python/pfbricks/ldraw.py:20-32 | flipping any one of the four inputs flips the decision |
| LDraw.DrawOrder | polyfactory/scripts/python/pfbricks/ldraw.py:34-40 | reversed polygons add their vertices in reverse input order, others in input order |
| LDraw.DrawOrderTwice | polyfactory/scripts/python/pfbricks/ldraw.py:34-35 | reversing twice restores the order |
| LDraw.EnterAsWritten | polyfactory/scripts/python/pfbricks/ldraw.py:74-80 | entering a file clears `invertnext` and sets `invert` when either flag was set |
| LDraw.InvertNextLostWhenInverted | polyfactory/scripts/python/pfbricks/ldraw.py:77-80 | as written, `INVERTNEXT` into an already inverted sub-file leaves its winding unchanged |
| LDraw.InvertNextLostExample | polyfactory/scripts/python/pfbricks/ldraw.py:77-80 | a concrete nested case whose winding as written equals the uninverted one |
| LDraw.Enter | polyfactory/scripts/python/pfbricks/ldraw.py:74-80 | corrected: entering a file toggles `invert` by `invertnext`, clears it, and names an unnamed piece `root` |
| LDraw.InvertNextFlipsSubfile | polyfactory/scripts/python/pfbricks/ldraw.py:77-80 | with the correction, `INVERTNEXT` always flips every polygon drawn directly in the sub-file |
| LDraw.EnterAgrees | polyfactory/scripts/python/pfbricks/ldraw.py:74-80 | the correction agrees with the code whenever the state is not already inverted |
| LDraw.Tokens | polyfactory/scripts/python/pfbricks/ldraw.py:90 | `re.split(r'\s+', ...)` gives at least one piece, none with whitespace |
| LDraw.TokensOfWord | polyfactory/scripts/python/pfbricks/ldraw.py:89-90 | a line without whitespace is one token |
| LDraw.BfcMeta | polyfactory/scripts/python/pfbricks/ldraw.py:94-100 | `BFC INVERTNEXT` sets `invertnext`; otherwise a `CCW` anywhere sets `cw` false; nothing else changes |
| LDraw.AfterLine | polyfactory/scripts/python/pfbricks/ldraw.py:102-118 | after a reference or drawing line `invertnext` is cleared; a reference also renames the piece |
| LDraw.ParseLines | polyfactory/scripts/python/pfbricks/ldraw.py:84-118 | no lines draw no polygons |
| LDraw.NoRefsKeepsName | polyfactory/scripts/python/pfbricks/ldraw.py:102-118 | only a type-1 line renames the piece: a file without references stamps every polygon it draws with the name it was read with |
| LDraw.ParseDat | polyfactory/scripts/python/pfbricks/ldraw.py:62-118 | an empty file draws nothing |
| LDraw.NoRefsDatName | polyfactory/scripts/python/pfbricks/ldraw.py:74-116 | a file without references that is entered unnamed stamps every polygon `root` |
| LDraw.ImportDatPolys | polyfactory/scripts/python/pfbricks/ldraw.py:163-177 | as written: an empty file draws nothing, and a file without references names every polygon `root` |
| LDraw.ImportDatPolysCorrected | polyfactory/scripts/python/pfbricks/ldraw.py:163-177 | the same two facts hold for the import with the corrected entry rule |
| LDraw.InvertNextAppliesOnce | polyfactory/scripts/python/pfbricks/ldraw.py:96-118 | under either entry rule, the drawing line right after `BFC INVERTNEXT` is drawn with the opposite winding, and the rest of the file is drawn as without the flag |
| LDraw.FuelIrrelevantWithoutRefs | polyfactory/scripts/python/pfbricks/ldraw.py:82-118 | a file without references parses the same whatever the recursion limit and whichever rule enters sub-files |
| LDraw.InvertNextIgnoredAsWritten | polyfactory/scripts/python/pfbricks/ldraw.py:78-80 | as written, a whole file entered while already inverted is drawn identically with or without a pending `INVERTNEXT` |
| LDraw.InvertNextTogglesFile | polyfactory/scripts/python/pfbricks/ldraw.py:78-80 | with the correction, a pending `INVERTNEXT` reads the whole file with the inversion toggled, whatever the state it is entered with |
| LDraw.FileKey | polyfactory/scripts/python/pfbricks/ldraw.py:125 | the key is the lower-cased name alone without a prefix, and otherwise the prefix as given, `/`, then the lower-cased name |
| LDraw.RefKeyFindsFileKey | polyfactory/scripts/python/pfbricks/ldraw.py:104-130 | for a lower-case prefix and names without `\`, the key a type-1 line looks up for `prefix\name` (or a bare `name`) is exactly the key the file was registered under |
| LDraw.UpperPrefixMissed | polyfactory/scripts/python/pfbricks/ldraw.py:104-130 | a prefix with an upper-case letter is registered as given but looked up lower-cased, so `S\a` is not found under `S/a` |
| LDraw.RegisterFiles | polyfactory/scripts/python/pfbricks/ldraw.py:121-132 | existing keys keep their file, and the keys afterwards are the old ones plus the scanned ones |
| LDraw.RegisterFilesFirstWins | polyfactory/scripts/python/pfbricks/ldraw.py:126-127 | the first file scanned for a new key is the one registered |
| LDraw.RefName | polyfactory/scripts/python/pfbricks/ldraw.py:227 | a reference's file name has neither kind of separator |
| LDraw.RefNameInDirectory | polyfactory/scripts/python/pfbricks/ldraw.py:227 | a name in a directory normalises to the lower-cased name itself |
| LDraw.BrickID | polyfactory/scripts/python/pfbricks/ldraw.py:231 | the ID is the brand, `_`, and a text without `.` |
| LDraw.LastIndexOf | polyfactory/scripts/python/pfbricks/ldraw.py:182 | the last position of a character, and none exactly when it does not occur |
| LDraw.Stem | polyfactory/scripts/python/pfbricks/ldraw.py:182 | `Path.stem` is a prefix of the name, and when it is shorter the name continues with its last `.`, which is neither the first nor the last character |
| LDraw.StemKeepsTrailingDot | polyfactory/scripts/python/pfbricks/ldraw.py:182 | a name ending in `.` is its own stem |
| LDraw.StemKeepsLeadingDot | polyfactory/scripts/python/pfbricks/ldraw.py:182 | a name whose only `.` is its first character is its own stem |
| LDraw.DatBrickID | polyfactory/scripts/python/pfbricks/ldraw.py:182 | `import_dat`'s ID starts with the brand and `_` |
| LDraw.BrickIDsAgree | polyfactory/scripts/python/pfbricks/ldraw.py:175-182 | `import_dat` and `setup_ldr` give the same ID for a name with a single inner `.` |
| LDraw.AfterFirstSpace | polyfactory/scripts/python/pfbricks/ldraw.py:175 | `split(' ', 1)[-1]`: a line without a space is kept whole; otherwise the result is the suffix after a space with no space before it |
| LDraw.AfterWord | polyfactory/scripts/python/pfbricks/ldraw.py:175 | after a first word without spaces and one space, the rest of the line is taken unchanged |
| LDraw.BrickName | polyfactory/scripts/python/pfbricks/ldraw.py:175 | a brick name contains no space |
| LDraw.BrickNameOfTitle | polyfactory/scripts/python/pfbricks/ldraw.py:173-175 | the brick name of `<word> <title>` is the title stripped, spaces turned into `_`, lower-cased |
| LDraw.BrickNameExample | polyfactory/scripts/python/pfbricks/ldraw.py:174-175 | `0 Plate  1 x  2` becomes `plate__1_x__2` |
| LDraw.GetBrick | polyfactory/scripts/python/pfbricks/ldraw.py:186-196 | a brick is found iff its file exists under `library/` or `import/`, with `library/` preferred |
| LDraw.CollectBricks | polyfactory/scripts/python/pfbricks/ldraw.py:219-228 | the loop collects exactly the brick IDs of the type-1 lines |
| LDraw.LineError | polyfactory/scripts/python/pfbricks/ldraw.py:262-279 | a type-1 line is read without error iff its matrix can be built, it has a colour token and that token is an integer; a matrix error is reported first |
| LDraw.SetupLdr | polyfactory/scripts/python/pfbricks/ldraw.py:204-236 | the result holds exactly the referenced brick IDs that the host library lacks |
| LDraw.ImportLdr | polyfactory/scripts/python/pfbricks/ldraw.py:246-284 | the import succeeds iff every type-1 line's colour and matrix can be read, and then returns exactly the referenced brick IDs |

## Left out

- `houdini_bridge/server.py`: the websocket server, its thread and its asyncio loop are I/O and concurrency.
- MessagePack encoding and decoding are a foreign library. They are the `decode` and `encode` parameters of `Dispatcher.HandleBinary`.
- Commands.Execute: a `BaseException` that is not an `Exception`, such as `SystemExit` from `sys.exit()` in `execute_python` code or `KeyboardInterrupt`, passes every `except Exception` (commands.py:71, commands.py:288, message_handler.py:38, server.py:109) and escapes `handle_binary`, so no reply is sent. `Runtime.run` only yields replies and caught failures, so this path is not modelled.
- The twelve host handlers' bodies in `commands.py` are `Runtime.run`. This includes `exec` in `execute_python` and the file operations. `last_selection` is not modelled, because only host handlers use it.
- Modal dialogs are the operator's answer sequence. Button labels, help text and titles are kept only as far as the prompt records hold them.
- Floats, byte strings and tuples as bridge values are not modelled.
- `str.isalnum` and `str.lower` are modelled on ASCII only. Non-ASCII letters are treated as non-alphanumeric and are not case-folded.
- Paths are POSIX. Windows drive letters and separators in `os.path` are not modelled.
- Values.Repr: always quotes strings with `'` and does not escape anything, while Python's `repr` switches to `"` for strings holding `'` and escapes control characters.
- `getTags` returning a copy has no counterpart: Dafny sequences are values, so a returned list cannot alias the widget's list.
- Qt widgets, layouts, chip widgets and `deleteLater` are left out. The only outputs modelled are the widget's tag list, its line text, its completions and the `tagsChanged` emissions. `_on_completion_selected` defers through a Qt timer; only the deferred step is modelled.
- Browser: the turntable frame loading and the mouse-position-to-frame mapping use floating point and file I/O.
- Exporter: only `_prims_to_group_string`, `_sanitize_filename` and the asset path are modelled. The rest of `export_asset` (USD writing, thumbnails, the database) is host and file I/O.
- ExportForm: `_on_export` (export_ui.py:260-261) imports a module-level `export_asset` from `asset_library/exporter.py` and calls it with `debug=`. That module only defines the method `AssetExporter.export_asset(self, export_data)`, so the import raises `ImportError` and the Export button never writes a file. `ExportForm.ExportedPath` is the path `AssetExporter.export_asset` would write if it were reached.
- Dispatcher.Packed: only the whole-store reply's aliasing is modelled. Bridge values are immutable here, so a list or dict stored in the session and later changed in place by `execute_python` keeps, in earlier replies of the same batch, the value it had when the reply was made.
- TagInput.ClearChips: the layout is built as line edit, stretch, dropdown (tag_input.py:140-142), so `insertWidget(count - 2, chip)` (tag_input.py:216-217) places each chip after the line edit rather than before it, and `_clear_chips`' `takeAt(0)` loop (tag_input.py:249-252) removes and deletes the line edit first and keeps the last chip. `setTags` and `clearTags` therefore destroy the text field on a widget with chips. Widget placement is not part of the model, so `ClearChips` promises only the emptied tag list and the emitted signal.
- ParmUtils: `delete_expression`, `copy_parameter`, `paste_relative_reference` and `revert_to_default` are pure host calls and are left out.
- LDraw.ParseLines: the recursion limit is an explicit `fuel` bound. Running out of fuel is an error standing for Python's `RecursionError` on cyclic references.
- LDraw: matrices, colours, `get_vectors`, `get_matrix` and `hex_to_rgb` are floating point. A line's numbers are read through the `Numbers` oracle, and the determinant only through its sign.
- LDraw: `get_lib`'s directory globbing is file I/O. `RegisterFiles` takes the scanned files as a list.
- LDraw: `get_brick_save` reads an environment variable, and `get_colors` reads a file.
- LDraw.SetupLdr: returns a set, while the source returns a list built by iterating the set of file names. The list's order is Python's set order and is not modelled. That list can also hold an ID twice: `3001.dat` and `3001.ldr` are two file names with the same ID `lego_3001`, so both are appended. The set loses the repeat.
- LDraw.DatBrickID: takes the file name with `Paths.BaseName`, which is `os.path.basename`. For a path ending in `/` that is empty, while `Path(p).name` drops the trailing `/` and gives the last component. `import_dat` opens the path as a file before it builds the ID, so such a path does not reach the ID in practice.
- LDraw.RefKeyFindsFileKey: holds only for a lower-case sub-directory prefix. `get_files` keeps the prefix (a sub-directory's stem, ldraw.py:143) as given while `parse_dat` lowers the whole reference (ldraw.py:104), so parts in a sub-directory whose name has an upper-case letter are never found; the standard library's sub-directories are lower case.
- LDraw.ImportLdr: checks every line before collecting the IDs. The outcome is the same as the source's single loop, and the points it creates are not modelled.
- Utils.ChunkArray: requires `chunk >= 1`, because with `chunk == 0` and a non-empty list the source recurses until `RecursionError`. This also excludes `chunk == 0` with an empty list, where the source returns `[[]]`, and a negative `chunk`, where the source recurses until `RecursionError` for every list.

## Findings

| source | as written | input that shows it | evidently intended | confidence | as-written member | corrected member |
|---|---|---|---|---|---|---|
| polyfactory/scripts/python/polyfactory/asset_library/export_ui.py:208-211 | the preview sanitises names without stripping `_`, unlike the exporter (exporter.py:342-347). Also, the Export button's import at export_ui.py:260-261 names a function the exporter module does not define, so every export ends in `ImportError` before any path is written | name `_a`, category `c`, library `/l`: the preview shows `/l/c/_a.usd`, the export writes `/l/c/a.usd` | the preview shows the path the export writes, and the button calls `AssetExporter().export_asset` | not executed | ExportForm.PreviewDisagreesWithExport | ExportForm.CorrectedPreviewMatchesExport |
| polyfactory/scripts/python/pfbricks/ldraw.py:77-80 | entering a sub-file after `BFC INVERTNEXT` sets `invert = True` instead of toggling it | a sub-file referenced with `INVERTNEXT` from a file that is itself already inverted is drawn un-flipped | `INVERTNEXT` flips the sub-file's winding, since inversions accumulate under the BFC rules. `LDraw.ImportDatPolys` parses as written; `LDraw.ImportDatPolysCorrected` parses with the toggle | not executed | LDraw.InvertNextIgnoredAsWritten | LDraw.InvertNextTogglesFile |

=== FILE: approval.dfy ===
/** The approval policy: a process-wide mode, the decision table saying which
    commands need confirmation, and the confirmation dialogs, with the operator's
    button presses supplied as an input stream. */
module Approval {
  import opened Common
  import opened Text
  import opened Values

  datatype Mode = Auto | Preview | Destructive

  /** The wire spelling of each mode. */
  function ModeValue(m: Mode): string {
    match m
    case Auto => "auto"
    case Preview => "preview"
    case Destructive => "destructive"
  }

  /** `ApprovalMode(v)`: the mode whose value equals `v`, or `None` where Python raises `ValueError`. */
  function ParseMode(v: Value): (r: Option<Mode>)
    ensures r.Some? ==> v == VStr(ModeValue(r.value))
  {
    if v == VStr("auto") then Some(Auto)
    else if v == VStr("preview") then Some(Preview)
    else if v == VStr("destructive") then Some(Destructive)
    else None
  }

  /** Every mode's wire value parses back to that mode, so `ParseMode` accepts exactly the three values. */
  lemma ParseModeValue(m: Mode)
    ensures ParseMode(VStr(ModeValue(m))) == Some(m)
  {
  }

  /** The approval manager's only state is its mode. */
  datatype Manager = Manager(mode: Mode)

  function NewManager(): (m: Manager)
    ensures m.mode == Auto
  {
    Manager(Auto)
  }

  function SetMode(mgr: Manager, mode: Mode): (r: Manager)
    ensures r.mode == mode
  {
    mgr.(mode := mode)
  }

  /** `requires_approval`: preview mode gates everything, the other two modes gate
      exactly the destructive commands. */
  function RequiresApproval(mode: Mode, destructive: bool): (r: bool)
    ensures r <==> mode == Preview || destructive
    ensures mode != Preview ==> r == destructive
  {
    match mode
    case Auto => destructive
    case Preview => true
    case Destructive => destructive
  }

  datatype Severity = Message | Warning

  /** One modal dialog shown to the operator. */
  datatype Prompt = Prompt(
    title: string,
    message: string,
    buttons: seq<string>,
    defaultChoice: nat,
    closeChoice: nat,
    severity: Severity,
    help: Option<string>)

  /** The operator's next button index; an exhausted stream is a closed dialog. */
  function NextAnswer(answers: seq<int>, closeChoice: nat): (r: (int, seq<int>))
    ensures |answers| > 0 ==> r == (answers[0], answers[1..])
    ensures |answers| == 0 ==> r == (closeChoice as int, answers)
  {
    if |answers| == 0 then (closeChoice as int, answers) else (answers[0], answers[1..])
  }

  /** The single-command dialog: Execute is button 0, and both the default and the
      close action are Cancel; a destructive command is shown as a warning. The
      message shows the command and then its preview. */
  function ApprovalPrompt(command: string, preview: string, destructive: bool): (r: Prompt)
    ensures |r.buttons| == 2 && r.buttons[0] == "Execute"
    ensures r.defaultChoice < |r.buttons| && r.buttons[r.defaultChoice] == "Cancel"
    ensures r.closeChoice < |r.buttons| && r.buttons[r.closeChoice] == "Cancel"
    ensures r.severity == Warning <==> destructive
    ensures |r.message| >= 21 + |command| + |preview|
    ensures r.message[19..19 + |command|] == command
    ensures r.message[21 + |command|..21 + |command| + |preview|] == preview
  {
    PromptMessageParts(command, preview);
    Prompt(
      "Houdini Bridge - Approval Required",
      "AI Agent Request:\n\n" + command + "\n\n" + preview + "\n\nExecute this operation?",
      ["Execute", "Cancel"],
      1,
      1,
      if destructive then Warning else Message,
      Some("AI agent is requesting to perform this operation. Review carefully."))
  }

  /** Where the command and the preview sit in the single-command message. */
  lemma PromptMessageParts(command: string, preview: string)
    ensures var m := "AI Agent Request:\n\n" + command + "\n\n" + preview + "\n\nExecute this operation?";
      && |m| >= 21 + |command| + |preview|
      && m[19..19 + |command|] == command
      && m[21 + |command|..21 + |command| + |preview|] == preview
  {
    var head := "AI Agent Request:\n\n";
    assert |head| == 19;
    var m := head + command + "\n\n" + preview + "\n\nExecute this operation?";
    assert m == (head + command) + ("\n\n" + preview + "\n\nExecute this operation?");
    assert m[19..19 + |command|] == command;
    assert m == (head + command + "\n\n") + preview + "\n\nExecute this operation?";
  }

  /** A gated request is approved exactly when the operator presses the dialog's
      Execute button. */
  lemma ApprovedIffExecutePressed(mode: Mode, command: string, preview: string, destructive: bool, answers: seq<int>)
    requires RequiresApproval(mode, destructive)
    ensures var prompt := ApprovalPrompt(command, preview, destructive);
      var pressed := |answers| > 0 && 0 <= answers[0] < |prompt.buttons| && prompt.buttons[answers[0]] == "Execute";
      RequestApproval(mode, true, command, preview, destructive, answers).approved <==> pressed
  {
    var prompt := ApprovalPrompt(command, preview, destructive);
    if |answers| > 0 && answers[0] == 1 {
      assert prompt.buttons[1] == "Cancel";
    }
  }

  /** The outcome of one approval request: the verdict, the operator answers still
      unread, and the dialogs shown, in order. */
  datatype Decision = Decision(approved: bool, answers: seq<int>, prompts: seq<Prompt>)

  /** `request_approval`. Without a host UI (`hou` is `None`) everything is approved. */
  function RequestApproval(mode: Mode, hou: bool, command: string, preview: string,
                           destructive: bool, answers: seq<int>): (d: Decision)
    ensures !RequiresApproval(mode, destructive) || !hou ==>
      d.approved && d.prompts == [] && d.answers == answers
    ensures RequiresApproval(mode, destructive) && hou ==>
      && d.prompts == [ApprovalPrompt(command, preview, destructive)]
      && (d.approved <==> |answers| > 0 && answers[0] == 0)
      && d.answers == (if |answers| > 0 then answers[1..] else answers)
  {
    if !RequiresApproval(mode, destructive) then Decision(true, answers, [])
    else if !hou then Decision(true, answers, [])
    else
      var prompt := ApprovalPrompt(command, preview, destructive);
      var (choice, rest) := NextAnswer(answers, prompt.closeChoice);
      Decision(choice == 0, rest, [prompt])
  }

  /** One entry of the list the dispatcher hands to `approve_batch`. */
  datatype BatchItem = BatchItem(description: string, preview: string, destructive: bool)

  datatype BatchDecision = BatchDecision(approvals: seq<bool>, answers: seq<int>, prompts: seq<Prompt>)

  function Repeat(b: bool, n: nat): (r: seq<bool>)
    ensures |r| == n && forall i :: 0 <= i < n ==> r[i] == b
  {
    seq(n, _ => b)
  }

  /** Approvals of the form true…true false…false. */
  predicate IsRun(a: seq<bool>) {
    forall i, j :: 0 <= i < j < |a| && a[j] ==> a[i]
  }

  function CountTrue(a: seq<bool>): nat {
    if |a| == 0 then 0 else (if a[0] then 1 else 0) + CountTrue(a[1..])
  }

  /** How many items of a run were actually reviewed: all of them, or up to and
      including the first denial. */
  function Reviewed(a: seq<bool>): nat {
    if CountTrue(a) == |a| then |a| else CountTrue(a) + 1
  }

  /** How many of `items` the mode gates, that is, would show a dialog for. */
  function CountGated(mode: Mode, items: seq<BatchItem>): nat {
    if |items| == 0 then 0
    else (if RequiresApproval(mode, items[0].destructive) then 1 else 0) + CountGated(mode, items[1..])
  }

  /** The "Review Each" loop of `approve_batch`: every item goes through
      `request_approval`; the first denial turns all remaining items into denials
      without further dialogs. */
  function ReviewEach(mode: Mode, items: seq<BatchItem>, answers: seq<int>): (d: BatchDecision)
    ensures |d.approvals| == |items|
    decreases |items|
  {
    if |items| == 0 then BatchDecision([], answers, [])
    else
      var item := items[0];
      var one := RequestApproval(mode, true, item.description, item.preview, item.destructive, answers);
      if !one.approved then BatchDecision(Repeat(false, |items|), one.answers, one.prompts)
      else
        var rest := ReviewEach(mode, items[1..], one.answers);
        BatchDecision([true] + rest.approvals, rest.answers, one.prompts + rest.prompts)
  }

  /** Under "Review Each" the approvals are a run: nothing is approved after the
      first denial. */
  lemma {:induction false} ReviewEachIsRun(mode: Mode, items: seq<BatchItem>, answers: seq<int>)
    ensures IsRun(ReviewEach(mode, items, answers).approvals)
    decreases |items|
  {
    if |items| > 0 {
      var item := items[0];
      var one := RequestApproval(mode, true, item.description, item.preview, item.destructive, answers);
      if one.approved {
        var rest := ReviewEach(mode, items[1..], one.answers).approvals;
        ReviewEachIsRun(mode, items[1..], one.answers);
        ApprovedThenRun(rest);
        assert ReviewEach(mode, items, answers).approvals == [true] + rest;
      }
    }
  }

  /** An approval in front of a run is still a run. */
  lemma ApprovedThenRun(rest: seq<bool>)
    requires IsRun(rest)
    ensures IsRun([true] + rest)
  {
    var a := [true] + rest;
    forall i, j | 0 <= i < j < |a| && a[j]
      ensures a[i]
    {
      if i > 0 {
        assert a[i] == rest[i - 1] && a[j] == rest[j - 1];
      }
    }
  }

  function Min(a: nat, b: nat): nat {
    if a < b then a else b
  }

  lemma {:induction false} CountTrueBound(a: seq<bool>)
    ensures CountTrue(a) <= |a|
    ensures CountTrue(a) == |a| <==> forall i :: 0 <= i < |a| ==> a[i]
  {
    if |a| > 0 {
      CountTrueBound(a[1..]);
      assert forall i :: 1 <= i < |a| ==> a[i] == a[1..][i - 1];
    }
  }

  lemma {:induction false} ZeroTrue(n: nat)
    ensures CountTrue(Repeat(false, n)) == 0
  {
    if n > 0 {
      assert Repeat(false, n)[1..] == Repeat(false, n - 1);
      ZeroTrue(n - 1);
    }
  }

  /** Reviewing one more approved item adds one to the reviewed count. */
  lemma ReviewedCons(a: seq<bool>)
    ensures Reviewed([true] + a) == 1 + Reviewed(a)
  {
    assert ([true] + a)[1..] == a;
    CountTrueBound(a);
    CountTrueBound([true] + a);
  }

  /** Under "Review Each" the dialogs shown are exactly one per reviewed item that
      the mode gates; items after the first denial are never shown. */
  lemma {:induction false} ReviewPromptCount(mode: Mode, items: seq<BatchItem>, answers: seq<int>)
    ensures var d := ReviewEach(mode, items, answers);
      && Reviewed(d.approvals) <= |items|
      && |d.prompts| == CountGated(mode, items[..Reviewed(d.approvals)])
    decreases |items|
  {
    if |items| > 0 {
      var item := items[0];
      var one := RequestApproval(mode, true, item.description, item.preview, item.destructive, answers);
      if !one.approved {
        ReviewDenied(mode, items, answers);
      } else {
        ReviewPromptCount(mode, items[1..], one.answers);
        ReviewApproved(mode, items, answers);
      }
    }
  }

  lemma ReviewDenied(mode: Mode, items: seq<BatchItem>, answers: seq<int>)
    requires |items| > 0
    requires !RequestApproval(mode, true, items[0].description, items[0].preview, items[0].destructive, answers).approved
    ensures var d := ReviewEach(mode, items, answers);
      && Reviewed(d.approvals) == 1
      && |d.prompts| == CountGated(mode, items[..1])
  {
    var d := ReviewEach(mode, items, answers);
    ZeroTrue(|items|);
    assert items[..1][1..] == [];
  }

  lemma ReviewApproved(mode: Mode, items: seq<BatchItem>, answers: seq<int>)
    requires |items| > 0
    requires RequestApproval(mode, true, items[0].description, items[0].preview, items[0].destructive, answers).approved
    requires var one := RequestApproval(mode, true, items[0].description, items[0].preview, items[0].destructive, answers);
      var rest := ReviewEach(mode, items[1..], one.answers);
      && Reviewed(rest.approvals) <= |items| - 1
      && |rest.prompts| == CountGated(mode, items[1..][..Reviewed(rest.approvals)])
    ensures var d := ReviewEach(mode, items, answers);
      && Reviewed(d.approvals) <= |items|
      && |d.prompts| == CountGated(mode, items[..Reviewed(d.approvals)])
  {
    var one := RequestApproval(mode, true, items[0].description, items[0].preview, items[0].destructive, answers);
    var rest := ReviewEach(mode, items[1..], one.answers);
    var d := ReviewEach(mode, items, answers);
    assert d.approvals == [true] + rest.approvals;
    assert d.prompts == one.prompts + rest.prompts;
    ReviewedCons(rest.approvals);
    CountGatedPrefix(mode, items, Reviewed(rest.approvals));
  }

  /** Counting the gated items of a prefix one item at a time. */
  lemma CountGatedPrefix(mode: Mode, items: seq<BatchItem>, k: nat)
    requires k < |items|
    ensures CountGated(mode, items[..k + 1])
         == (if RequiresApproval(mode, items[0].destructive) then 1 else 0) + CountGated(mode, items[1..][..k])
  {
    var pre := items[..k + 1];
    assert pre[0] == items[0];
    assert pre[1..] == items[1..][..k];
  }

  /** Under "Review Each" the operator answers read are exactly one per dialog shown. */
  lemma {:induction false} ReviewConsumesAnswers(mode: Mode, items: seq<BatchItem>, answers: seq<int>)
    ensures var d := ReviewEach(mode, items, answers);
      d.answers == answers[Min(|d.prompts|, |answers|)..]
    decreases |items|
  {
    if |items| > 0 {
      var item := items[0];
      var one := RequestApproval(mode, true, item.description, item.preview, item.destructive, answers);
      RequestConsumesAnswers(mode, item, answers);
      var d := ReviewEach(mode, items, answers);
      if one.approved {
        var rest := ReviewEach(mode, items[1..], one.answers);
        ReviewConsumesAnswers(mode, items[1..], one.answers);
        assert d.prompts == one.prompts + rest.prompts && d.answers == rest.answers;
        DropDrop(answers, one.answers, |one.prompts|, rest.answers, |rest.prompts|);
      } else {
        assert d.prompts == one.prompts && d.answers == one.answers;
      }
    } else {
      assert answers[0..] == answers;
    }
  }

  /** Reading `p` answers and then `q` more reads `p + q`, as far as there are any. */
  lemma DropDrop(a: seq<int>, b: seq<int>, p: nat, c: seq<int>, q: nat)
    requires b == a[Min(p, |a|)..] && c == b[Min(q, |b|)..]
    ensures c == a[Min(p + q, |a|)..]
  {
  }

  /** One approval request reads one answer per dialog it shows, at most one. */
  lemma RequestConsumesAnswers(mode: Mode, item: BatchItem, answers: seq<int>)
    ensures var one := RequestApproval(mode, true, item.description, item.preview, item.destructive, answers);
      |one.prompts| <= 1 && one.answers == answers[Min(|one.prompts|, |answers|)..]
  {
  }

  /** A denial under "Review Each" always comes from a dialog: the first denied
      item is one the mode gates, so an ungated item is approved without asking. */
  lemma {:induction false} ReviewDenialIsAnswered(mode: Mode, items: seq<BatchItem>, answers: seq<int>, i: nat)
    requires i < |items|
    requires var d := ReviewEach(mode, items, answers);
      !d.approvals[i] && (i == 0 || d.approvals[i - 1])
    ensures RequiresApproval(mode, items[i].destructive)
    decreases |items|
  {
    var item := items[0];
    var one := RequestApproval(mode, true, item.description, item.preview, item.destructive, answers);
    if one.approved {
      var rest := ReviewEach(mode, items[1..], one.answers);
      assert i > 0;
      assert ReviewEach(mode, items, answers).approvals[1..] == rest.approvals;
      ReviewDenialIsAnswered(mode, items[1..], one.answers, i - 1);
    }
  }

  function BatchPreviewLines(items: seq<BatchItem>): seq<string> {
    seq(|items|, i requires 0 <= i < |items| => NatToString(i + 1) + ". " + items[i].description)
  }

  /** The batch dialog: Execute All, Review Each and Cancel All as buttons 0, 1
      and 2, Review Each as the default and Cancel All as the close action; the
      message opens with the number of operations. */
  function BatchPrompt(items: seq<BatchItem>): (r: Prompt)
    ensures |r.buttons| == 3
    ensures r.buttons[0] == "Execute All" && r.buttons[1] == "Review Each" && r.buttons[2] == "Cancel All"
    ensures r.defaultChoice < |r.buttons| && r.buttons[r.defaultChoice] == "Review Each"
    ensures r.closeChoice < |r.buttons| && r.buttons[r.closeChoice] == "Cancel All"
    ensures r.severity == Message && r.help == None
    ensures var head := "AI Agent Batch Request (" + NatToString(|items|);
      |r.message| >= |head| && r.message[..|head|] == head
  {
    Prompt(
      "Houdini Bridge - Batch Approval",
      "AI Agent Batch Request (" + NatToString(|items|) + " operations):\n\n"
        + Join("\n", BatchPreviewLines(items)) + "\n\nExecute all?",
      ["Execute All", "Review Each", "Cancel All"],
      1,
      2,
      Message,
      None)
  }

  /** The batch dialog lists one numbered line per item: read back at the line
      breaks, the listing gives `<i+1>. <description>` for each item in order,
      provided no description spans several lines. An empty batch lists nothing. */
  lemma BatchListing(items: seq<BatchItem>)
    requires forall i :: 0 <= i < |items| ==> '\n' !in items[i].description
    ensures var lines := BatchPreviewLines(items);
      && (items != [] ==> Split(Join("\n", lines), '\n') == lines)
      && (items == [] ==> Join("\n", lines) == "")
      && |lines| == |items|
      && forall i :: 0 <= i < |items| ==> lines[i] == NatToString(i + 1) + ". " + items[i].description
  {
    var lines := BatchPreviewLines(items);
    forall i | 0 <= i < |lines|
      ensures '\n' !in lines[i]
    {
      var num := NatToString(i + 1);
      assert lines[i] == num + ". " + items[i].description;
      assert forall k :: 0 <= k < |num| ==> num[k] != '\n';
    }
    if items != [] {
      SplitJoin(lines, '\n');
    }
  }

  /** `approve_batch`: one decision per item, in order. Without a host UI everything
      is approved; otherwise a batch dialog offers Execute All (0), Review Each (1)
      and Cancel All (2, also the close action). */
  function ApproveBatch(mode: Mode, hou: bool, items: seq<BatchItem>, answers: seq<int>): (d: BatchDecision)
    ensures |d.approvals| == |items|
    ensures IsRun(d.approvals)
    ensures !hou ==> d.prompts == [] && d.answers == answers && forall i :: 0 <= i < |items| ==> d.approvals[i]
    ensures hou ==> |d.prompts| >= 1 && d.prompts[0] == BatchPrompt(items)
    ensures hou && |answers| > 0 && answers[0] == 0 ==>
      |d.prompts| == 1 && forall i :: 0 <= i < |items| ==> d.approvals[i]
    ensures hou && (|answers| == 0 || answers[0] == 2) ==>
      |d.prompts| == 1 && forall i :: 0 <= i < |items| ==> !d.approvals[i]
    ensures hou && |answers| > 0 && answers[0] != 0 && answers[0] != 2 ==>
      var review := ReviewEach(mode, items, answers[1..]);
      && d.approvals == review.approvals && d.answers == review.answers
      && d.prompts == [BatchPrompt(items)] + review.prompts
  {
    if !hou then BatchDecision(Repeat(true, |items|), answers, [])
    else
      var prompt := BatchPrompt(items);
      var (choice, rest) := NextAnswer(answers, prompt.closeChoice);
      if choice == 0 then BatchDecision(Repeat(true, |items|), rest, [prompt])
      else if choice == 2 then BatchDecision(Repeat(false, |items|), rest, [prompt])
      else
        var review := ReviewEach(mode, items, rest);
        ReviewEachIsRun(mode, items, rest);
        BatchDecision(review.approvals, review.answers, [prompt] + review.prompts)
  }

  /** Under "Review Each", no more dialogs are shown than items were reviewed, and
      never more than there are items. */
  lemma ReviewPromptsBounded(mode: Mode, items: seq<BatchItem>, answers: seq<int>)
    ensures var d := ReviewEach(mode, items, answers);
      |d.prompts| <= Reviewed(d.approvals) <= |items|
  {
    var d := ReviewEach(mode, items, answers);
    ReviewPromptCount(mode, items, answers);
    CountGatedBound(mode, items[..Reviewed(d.approvals)]);
  }

  lemma {:induction false} CountGatedBound(mode: Mode, items: seq<BatchItem>)
    ensures CountGated(mode, items) <= |items|
  {
    if |items| > 0 {
      CountGatedBound(mode, items[1..]);
    }
  }

  /** In auto or destructive mode a batch of read-only commands under "Review
      Each" is approved in full with no per-item dialog. */
  lemma {:induction false} ReviewReadOnlyApprovesAll(mode: Mode, items: seq<BatchItem>, answers: seq<int>)
    requires mode != Preview
    requires forall i :: 0 <= i < |items| ==> !items[i].destructive
    ensures var d := ReviewEach(mode, items, answers);
      d.prompts == [] && forall i :: 0 <= i < |items| ==> d.approvals[i]
    decreases |items|
  {
    if |items| > 0 {
      ReviewReadOnlyApprovesAll(mode, items[1..], answers);
    }
  }
}

=== FILE: browser_ui.dfy ===
/** The pure parts of the asset browser: which assets the filters keep, where
    each kept asset goes in the four-column grid, the status line, and which
    turntable frame a thumbnail shows. */
module Browser {
  import opened Text

  /** The fields of an asset record the browser reads. A record without tags
      reads as having none. */
  datatype Asset = Asset(name: string, category: string, tags: seq<string>)

  /** The category entry that disables the category filter. */
  const AllCategories: string := "All Categories"

  /** The filter criteria: the search field's text, the chosen category and the
      tags of the tag filter. */
  datatype Criteria = Criteria(search: string, category: string, tags: seq<string>)

  /** An asset passes iff its category matches (or every category is allowed),
      the lower-cased search text is empty or occurs in its lower-cased name, and
      it carries every filter tag. */
  predicate Keep(c: Criteria, a: Asset) {
    (c.category == AllCategories || a.category == c.category)
    && (Lower(c.search) == [] || IsSubstring(Lower(c.search), Lower(a.name)))
    && forall t :: t in c.tags ==> t in a.tags
  }

  /** The assets that pass, in their original order: an asset is shown iff it
      is in the full list and passes every filter. */
  function Select(c: Criteria, assets: seq<Asset>): (r: seq<Asset>)
    ensures |r| <= |assets|
    ensures forall a :: a in r <==> a in assets && Keep(c, a)
    decreases |assets|
  {
    if assets == [] then []
    else
      assert assets == [assets[0]] + assets[1..];
      (if Keep(c, assets[0]) then [assets[0]] else []) + Select(c, assets[1..])
  }

  lemma {:induction false} SelectSnoc(c: Criteria, assets: seq<Asset>, a: Asset)
    ensures Select(c, assets + [a]) == Select(c, assets) + (if Keep(c, a) then [a] else [])
    decreases |assets|
  {
    if assets != [] {
      assert (assets + [a])[1..] == assets[1..] + [a];
      SelectSnoc(c, assets[1..], a);
    } else {
      assert [a][1..] == [];
    }
  }

  /** `_filter_assets`: each asset is skipped at the first filter it fails; the
      tag filter applies only when some tag is selected. */
  method FilterAssets(c: Criteria, assets: seq<Asset>) returns (filtered: seq<Asset>)
    ensures filtered == Select(c, assets)
  {
    var search := Lower(c.search);
    filtered := [];
    var i := 0;
    while i < |assets|
      invariant 0 <= i <= |assets|
      invariant filtered == Select(c, assets[..i])
    {
      var a := assets[i];
      assert assets[..i + 1] == assets[..i] + [a];
      SelectSnoc(c, assets[..i], a);
      i := i + 1;
      if c.category != AllCategories && a.category != c.category {
        continue;
      }
      if search != [] && !IsSubstring(search, Lower(a.name)) {
        continue;
      }
      if c.tags != [] {
        if !(forall t :: t in c.tags ==> t in a.tags) {
          continue;
        }
      }
      filtered := filtered + [a];
    }
    assert assets[..i] == assets;
  }

  /** The kept assets are the passing ones, each as often and in the same order
      as in the full list: `idx` picks out their positions. */
  lemma {:induction false} SelectIsSubsequence(c: Criteria, assets: seq<Asset>) returns (idx: seq<nat>)
    ensures |idx| == |Select(c, assets)|
    ensures forall j :: 0 <= j < |idx| ==> idx[j] < |assets| && assets[idx[j]] == Select(c, assets)[j]
    ensures forall j, k :: 0 <= j < k < |idx| ==> idx[j] < idx[k]
    decreases |assets|
  {
    if assets == [] {
      idx := [];
    } else {
      var rest := SelectIsSubsequence(c, assets[1..]);
      var shifted := seq(|rest|, j requires 0 <= j < |rest| => rest[j] + 1);
      if Keep(c, assets[0]) {
        idx := [0] + shifted;
      } else {
        idx := shifted;
      }
    }
  }

  /** With an empty search, all categories and no tags, every asset is shown. */
  lemma {:induction false} NoCriteriaKeepsAll(assets: seq<Asset>, search: string)
    requires Lower(search) == []
    ensures Select(Criteria(search, AllCategories, []), assets) == assets
    decreases |assets|
  {
    if assets != [] {
      NoCriteriaKeepsAll(assets[1..], search);
      assert assets == [assets[0]] + assets[1..];
    }
  }

  // ---------------------------------------------------------------------------
  // Grid and status line

  /** The grid always has four columns. */
  const Columns: nat := 4

  /** A grid cell: the asset and its row and column. */
  datatype Cell = Cell(asset: Asset, row: nat, col: nat)

  /** The cells `_update_grid` fills, in order. */
  function Layout(filtered: seq<Asset>): (cells: seq<Cell>)
    ensures |cells| == |filtered|
  {
    seq(|filtered|, i requires 0 <= i < |filtered| => Cell(filtered[i], i / Columns, i % Columns))
  }

  /** The grid is filled row by row: each asset sits in a column below four, and
      reading the cells row-major gives the asset's position back; so no two
      assets share a cell. */
  lemma LayoutPositions(filtered: seq<Asset>, i: nat, j: nat)
    requires i < |filtered| && j < |filtered|
    ensures Layout(filtered)[i].asset == filtered[i]
    ensures Layout(filtered)[i].col < Columns
    ensures Layout(filtered)[i].row * Columns + Layout(filtered)[i].col == i
    ensures i != j ==> (Layout(filtered)[i].row, Layout(filtered)[i].col)
                       != (Layout(filtered)[j].row, Layout(filtered)[j].col)
  {
  }

  /** The status line after a refresh. */
  function Status(shown: nat, total: nat): (r: string)
    ensures |r| > 20
  {
    "Showing " + (NatToString(shown) + (" of " + (NatToString(total) + " assets")))
  }

  lemma DropPrefix(p: string, x: string, y: string)
    requires p + x == p + y
    ensures x == y
  {
    assert x == (p + x)[|p|..];
    assert y == (p + y)[|p|..];
  }

  lemma CharAfter(a: string, ra: string, b: string, rb: string)
    requires |a| < |b| && ra != [] && a + ra == b + rb
    ensures b[|a|] == ra[0]
  {
    assert (a + ra)[|a|] == ra[0];
  }

  /** Two numbers printed in front of the same non-digit text are equal. */
  lemma DigitsPrefix(a: string, b: string, ra: string, rb: string)
    requires AllDigits(a) && AllDigits(b)
    requires ra != [] && rb != [] && !IsDigit(ra[0]) && !IsDigit(rb[0])
    requires a + ra == b + rb
    ensures a == b && ra == rb
  {
    if |a| < |b| {
      CharAfter(a, ra, b, rb);
      assert false;
    }
    if |b| < |a| {
      CharAfter(b, rb, a, ra);
      assert false;
    }
    assert a == (a + ra)[..|a|];
    assert b == (b + rb)[..|b|];
    DropPrefix(a, ra, rb);
  }

  /** The status line names the number shown and the total unambiguously. */
  lemma StatusDeterminesCounts(s1: nat, t1: nat, s2: nat, t2: nat)
    requires Status(s1, t1) == Status(s2, t2)
    ensures s1 == s2 && t1 == t2
  {
    var a, b := NatToString(s1), NatToString(s2);
    var c, d := NatToString(t1), NatToString(t2);
    DropPrefix("Showing ", a + (" of " + (c + " assets")), b + (" of " + (d + " assets")));
    DigitsPrefix(a, b, " of " + (c + " assets"), " of " + (d + " assets"));
    DropPrefix(" of ", c + " assets", d + " assets");
    DigitsPrefix(c, d, " assets", " assets");
    DigitsValueOfNatToString(s1);
    DigitsValueOfNatToString(s2);
    DigitsValueOfNatToString(t1);
    DigitsValueOfNatToString(t2);
  }

  /** `_update_grid`: the cells of the kept assets and the status line. */
  function UpdateGrid(all: seq<Asset>, filtered: seq<Asset>): (r: (seq<Cell>, string))
    ensures |r.0| == |filtered|
    ensures r.1 == Status(|filtered|, |all|)
  {
    (Layout(filtered), Status(|filtered|, |all|))
  }

  // ---------------------------------------------------------------------------
  // Thumbnail frames

  /** What the thumbnail label shows: the placeholder text or a frame. */
  datatype Display = NoPreview | Frame(index: nat)

  /** `_display_frame`: without frames the placeholder; otherwise the requested
      frame, clamped to the loaded ones. */
  function DisplayFrame(frames: nat, index: int): (d: Display)
    ensures frames == 0 <==> d == NoPreview
    ensures d.Frame? ==> d.index < frames
    ensures d.Frame? && 0 <= index < frames ==> d.index == index
    ensures d.Frame? && index < 0 ==> d.index == 0
    ensures d.Frame? && index >= frames ==> d.index == frames - 1
  {
    if frames == 0 then NoPreview
    else
      var lo := if index < frames - 1 then index else frames - 1;
      Frame(if lo < 0 then 0 else lo)
  }

  /** The thumbnail state: how many frames are loaded and the current index. */
  datatype Thumbnail = Thumbnail(frames: nat, current: int)

  /** `leaveEvent`: back to index 4, the fifth frame of a full turntable, shown
      clamped. */
  function LeaveEvent(t: Thumbnail): (r: (Thumbnail, Display))
    ensures r.0.frames == t.frames && r.0.current == 4
    ensures t.frames > 4 ==> r.1 == Frame(4)
    ensures 0 < t.frames <= 4 ==> r.1 == Frame(t.frames - 1)
    ensures t.frames == 0 ==> r.1 == NoPreview
  {
    var t' := t.(current := 4);
    (t', DisplayFrame(t'.frames, t'.current))
  }
}

=== FILE: commands.dfy ===
/** The command executor: routes a command's `type` tag to one of twelve handlers
    and owns the session key/value store. The ten host-application handlers are an
    oracle; the two session-state handlers are modelled exactly. */
module Commands {
  import opened Common
  import opened Values

  datatype Tag =
    | CreateNode | DeleteNode | SetParameter | GetParameter
    | GetSelection | SelectNodes | GetNodeInfo | ExecutePython
    | SaveScene | LoadScene | GetSessionState | SetSessionState

  function TagName(t: Tag): string {
    match t
    case CreateNode => "create_node"
    case DeleteNode => "delete_node"
    case SetParameter => "set_parameter"
    case GetParameter => "get_parameter"
    case GetSelection => "get_selection"
    case SelectNodes => "select_nodes"
    case GetNodeInfo => "get_node_info"
    case ExecutePython => "execute_python"
    case SaveScene => "save_scene"
    case LoadScene => "load_scene"
    case GetSessionState => "get_session_state"
    case SetSessionState => "set_session_state"
  }

  /** The routing test of `execute`: which handler, if any, a `type` value selects. */
  function ParseTag(v: Value): (r: Option<Tag>)
    ensures r.Some? ==> v == VStr(TagName(r.value))
  {
    if !v.VStr? then None
    else match v.s
      case "create_node" => Some(CreateNode)
      case "delete_node" => Some(DeleteNode)
      case "set_parameter" => Some(SetParameter)
      case "get_parameter" => Some(GetParameter)
      case "get_selection" => Some(GetSelection)
      case "select_nodes" => Some(SelectNodes)
      case "get_node_info" => Some(GetNodeInfo)
      case "execute_python" => Some(ExecutePython)
      case "save_scene" => Some(SaveScene)
      case "load_scene" => Some(LoadScene)
      case "get_session_state" => Some(GetSessionState)
      case "set_session_state" => Some(SetSessionState)
      case _ => None
  }

  /** Every tag's name routes back to that tag: the router recognises exactly twelve names. */
  lemma ParseTagName(t: Tag)
    ensures ParseTag(VStr(TagName(t))) == Some(t)
  {
  }

  /** The handlers that talk to the host application (all but the session-state pair). */
  predicate IsHostTag(t: Tag) {
    t != GetSessionState && t != SetSessionState
  }

  /** A reply record `{success, data?, error?, traceback?}`. */
  datatype Reply = Reply(success: bool, data: Option<Value>, error: Option<string>, traceback: Option<string>)

  function Success(data: Value): Reply {
    Reply(true, Some(data), None, None)
  }

  function Failure(error: string): Reply {
    Reply(false, None, Some(error), None)
  }

  /** The result `execute` builds from an exception a handler raised. */
  function Crash(error: string, traceback: string): Reply {
    Reply(false, None, Some(error), Some(traceback))
  }

  /** The reply as the dict that goes on the wire, keys in the source's order. */
  function ReplyValue(r: Reply): Value {
    VDict([(VStr("success"), VBool(r.success))]
      + (if r.data.Some? then [(VStr("data"), r.data.value)] else [])
      + (if r.error.Some? then [(VStr("error"), VStr(r.error.value))] else [])
      + (if r.traceback.Some? then [(VStr("traceback"), VStr(r.traceback.value))] else []))
  }

  /** What a host handler did: returned a reply, or raised an exception with this message. */
  datatype HostOutcome = Returned(reply: Reply) | Raised(error: string)

  /** One host handler call: the host document afterwards, the session map
      afterwards (only `execute_python` can see it) and the outcome. */
  datatype HostStep<H> = HostStep(host: H, session: Dict, outcome: HostOutcome)

  /** The environment the executor runs in: whether the host module is importable,
      the host handlers as an oracle over host state `H`, and the text
      `traceback.format_exc()` produces for an exception message. */
  datatype Runtime<!H> = Runtime(
    hou: bool,
    run: (H, Dict, Tag, Dict) -> HostStep<H>,
    traceback: string -> string)

  datatype Executed<H> = Executed(session: Dict, host: H, reply: Reply)

  /** The session store a new executor starts with. */
  function NewSession(): (s: Dict)
    ensures |s| == 0
  {
    []
  }

  function Field(d: Dict, key: string): Value {
    match Lookup(d, VStr(key))
    case Some(v) => v
    case None => VNone
  }

  /** The handler a command's `type` field selects. */
  function TagOf(cmd: Dict): Option<Tag> {
    ParseTag(Field(cmd, "type"))
  }

  /** The whole-store reply of `_get_session_state`. In Python it holds the store
      itself, not a copy. */
  function StateReply(session: Dict): Reply {
    Success(Record([("state", VDict(session))]))
  }

  /** `_get_session_state`: with a truthy key, that key's value (`None` if absent);
      otherwise the whole map. An unhashable key raises `TypeError`. */
  function GetSession(session: Dict, cmd: Dict): (r: Result<Reply>)
    ensures var key := Field(cmd, "key");
      && (r.Err? <==> Truthy(key) && !Hashable(key))
      && (r.Err? ==> r.error == UnhashableError(key))
      && (!Truthy(key) ==> r == Ok(StateReply(session)))
      && (Truthy(key) && Hashable(key) ==>
            r == Ok(Success(Record([("key", key),
                                    ("value", if Lookup(session, key).Some? then Lookup(session, key).value else VNone)]))))
  {
    var key := Field(cmd, "key");
    if Truthy(key) then
      if !Hashable(key) then Err(UnhashableError(key))
      else
        var value := match Lookup(session, key) case Some(v) => v case None => VNone;
        Ok(Success(Record([("key", key), ("value", value)])))
    else Ok(StateReply(session))
  }

  /** Every other key keeps its value when `k` is assigned. */
  lemma PutLookups(d: Dict, k: Value, v: Value)
    ensures Lookup(Put(d, k, v), k) == Some(v)
    ensures forall k' :: !SameKey(k, k') ==> Lookup(Put(d, k, v), k') == Lookup(d, k')
  {
    LookupPutSame(d, k, v);
    forall k' | !SameKey(k, k')
      ensures Lookup(Put(d, k, v), k') == Lookup(d, k')
    {
      LookupPutOther(d, k, v, k');
    }
  }

  /** `_set_session_state`: stores `value` (default `None`) under `key` (default
      `None`) without validation; an unhashable key raises `TypeError`. */
  function SetSession(session: Dict, cmd: Dict): (r: Result<(Dict, Reply)>)
    ensures var key := Field(cmd, "key");
      var value := Field(cmd, "value");
      && (r.Err? <==> !Hashable(key))
      && (r.Err? ==> r.error == UnhashableError(key))
      && (r.Ok? ==> r.value.1 == Success(Record([("key", key), ("value", value)])))
      && (r.Ok? ==> Lookup(r.value.0, key) == Some(value))
      && (r.Ok? ==> forall k' :: !SameKey(key, k') ==> Lookup(r.value.0, k') == Lookup(session, k'))
  {
    var key := Field(cmd, "key");
    var value := Field(cmd, "value");
    if !Hashable(key) then Err(UnhashableError(key))
    else
      PutLookups(session, key, value);
      Ok((Put(session, key, value), Success(Record([("key", key), ("value", value)]))))
  }

  /** `CommandExecutor.execute`. Only the two session handlers read the session map
      and only `set_session_state` and `execute_python` can change it; the session
      handlers never touch the host. */
  function Execute<H>(rt: Runtime<H>, session: Dict, host: H, cmd: Dict): (r: Executed<H>)
    ensures TagOf(cmd).None? ==>
      r == Executed(session, host, Failure("Unknown command type: " + Show(Field(cmd, "type"))))
    ensures TagOf(cmd) !in {Some(SetSessionState), Some(ExecutePython)} ==> r.session == session
    ensures TagOf(cmd) in {Some(GetSessionState), Some(SetSessionState)} ==> r.host == host
    ensures !rt.hou && TagOf(cmd).Some? && IsHostTag(TagOf(cmd).value) ==>
      r == Executed(session, host, Failure("Houdini not available"))
  {
    var t := Field(cmd, "type");
    match ParseTag(t)
    case None => Executed(session, host, Failure("Unknown command type: " + Show(t)))
    case Some(GetSessionState) =>
      (match GetSession(session, cmd)
       case Ok(reply) => Executed(session, host, reply)
       case Err(e) => Executed(session, host, Crash(e, rt.traceback(e))))
    case Some(SetSessionState) =>
      (match SetSession(session, cmd)
       case Ok((session', reply)) => Executed(session', host, reply)
       case Err(e) => Executed(session, host, Crash(e, rt.traceback(e))))
    case Some(tag) =>
      if !rt.hou then Executed(session, host, Failure("Houdini not available"))
      else
        var step := rt.run(host, session, tag, cmd);
        var reply := match step.outcome
          case Returned(rep) => rep
          case Raised(e) => Crash(e, rt.traceback(e));
        Executed(if tag == ExecutePython then step.session else session, step.host, reply)
  }

  /** Any `Exception` a host handler raises becomes a failed reply carrying both the
      message and the traceback text. */
  lemma HostRaiseIsCaught<H>(rt: Runtime<H>, session: Dict, host: H, cmd: Dict, tag: Tag, e: string)
    requires rt.hou && IsHostTag(tag) && ParseTag(Field(cmd, "type")) == Some(tag)
    requires rt.run(host, session, tag, cmd).outcome == Raised(e)
    ensures var r := Execute(rt, session, host, cmd).reply;
      !r.success && r.error == Some(e) && r.traceback == Some(rt.traceback(e))
  {
  }

  /** After `set_session_state` with key `k` and value `v`, `get_session_state` with
      key `k` replies `{key: k, value: v}`, whether or not the host is available. */
  lemma SetThenGet<H>(rt: Runtime<H>, session: Dict, host: H, setCmd: Dict, getCmd: Dict, k: Value, v: Value)
    requires Field(setCmd, "type") == VStr("set_session_state") && Field(getCmd, "type") == VStr("get_session_state")
    requires Field(setCmd, "key") == k && Field(setCmd, "value") == v && Field(getCmd, "key") == k
    requires Hashable(k) && Truthy(k)
    ensures var s1 := Execute(rt, session, host, setCmd);
      var s2 := Execute(rt, s1.session, s1.host, getCmd);
      && s1.reply == Success(Record([("key", k), ("value", v)]))
      && s2.reply == Success(Record([("key", k), ("value", v)]))
      && s2.session == s1.session
  {
    var s1 := Execute(rt, session, host, setCmd);
    assert s1.session == Put(session, k, v);
    LookupPutSame(session, k, v);
  }

  /** `set_session_state` on key `k` leaves the value of every other key unchanged. */
  lemma SetLeavesOtherKeys<H>(rt: Runtime<H>, session: Dict, host: H, setCmd: Dict, k': Value)
    requires Field(setCmd, "type") == VStr("set_session_state")
    requires !SameKey(Field(setCmd, "key"), k')
    ensures Lookup(Execute(rt, session, host, setCmd).session, k') == Lookup(session, k')
  {
    if Hashable(Field(setCmd, "key")) {
      LookupPutOther(session, Field(setCmd, "key"), Field(setCmd, "value"), k');
    }
  }

  /** A `set_session_state` command without a key stores its value under `None`. */
  lemma MissingKeyStoredUnderNone<H>(rt: Runtime<H>, session: Dict, host: H, setCmd: Dict)
    requires Field(setCmd, "type") == VStr("set_session_state")
    requires Lookup(setCmd, VStr("key")).None?
    ensures Lookup(Execute(rt, session, host, setCmd).session, VNone) == Some(Field(setCmd, "value"))
  {
    LookupPutSame(session, VNone, Field(setCmd, "value"));
  }

  /** `get_session_state` with a falsy or missing key replies with the whole map. */
  lemma FalsyKeyGetsWholeState<H>(rt: Runtime<H>, session: Dict, host: H, getCmd: Dict)
    requires Field(getCmd, "type") == VStr("get_session_state") && !Truthy(Field(getCmd, "key"))
    ensures Execute(rt, session, host, getCmd).reply == Success(Record([("state", VDict(session))]))
  {
  }

  /** `get_session_state` with a truthy key the store does not hold replies with
      that key and the value `None`, and changes nothing. */
  lemma MissingKeyGetsNone<H>(rt: Runtime<H>, session: Dict, host: H, getCmd: Dict)
    requires Field(getCmd, "type") == VStr("get_session_state")
    requires Truthy(Field(getCmd, "key")) && Hashable(Field(getCmd, "key"))
    requires Lookup(session, Field(getCmd, "key")).None?
    ensures Execute(rt, session, host, getCmd)
      == Executed(session, host, Success(Record([("key", Field(getCmd, "key")), ("value", VNone)])))
  {
  }

  /** A truthy key that cannot be hashed makes `get_session_state` fail with the
      `TypeError` message and its traceback; nothing changes. */
  lemma UnhashableKeyIsCaught<H>(rt: Runtime<H>, session: Dict, host: H, getCmd: Dict)
    requires Field(getCmd, "type") == VStr("get_session_state")
    requires Truthy(Field(getCmd, "key")) && !Hashable(Field(getCmd, "key"))
    ensures var e := UnhashableError(Field(getCmd, "key"));
      Execute(rt, session, host, getCmd) == Executed(session, host, Crash(e, rt.traceback(e)))
  {
  }

  /** The session store keeps at most one entry per key across any sequence of
      executed commands that do not run Python. */
  lemma ExecuteKeepsUniqueKeys<H>(rt: Runtime<H>, session: Dict, host: H, cmd: Dict)
    requires UniqueKeys(session)
    requires ParseTag(Field(cmd, "type")) != Some(ExecutePython)
    ensures UniqueKeys(Execute(rt, session, host, cmd).session)
  {
    if ParseTag(Field(cmd, "type")) == Some(SetSessionState) && Hashable(Field(cmd, "key")) {
      PutKeepsUniqueKeys(session, Field(cmd, "key"), Field(cmd, "value"));
    }
  }
}

=== FILE: common.dfy ===
/** Optional values and Python-exception-carrying results shared by every module. */
module Common {

  /** A value that may be absent (Python's `None` as a "no result" marker). */
  datatype Option<+T> = None | Some(value: T)

  /** The outcome of a computation that may raise. `Err` carries `str(e)` of the
      exception the source would raise at that point. */
  datatype Result<+T> = Ok(value: T) | Err(error: string) {
    predicate IsFailure() { Err? }

    function PropagateFailure<U>(): Result<U>
      requires Err?
    {
      Err(error)
    }

    function Extract(): T
      requires Ok?
    {
      value
    }
  }
}

=== FILE: dispatcher.dfy ===
/** The message dispatcher: classifies a decoded envelope as `ping`, `command`,
    `batch`, `set_approval_mode` or unknown, gates execution on the approval
    policy, and assembles the reply. Wire decoding and encoding are parameters. */
module Dispatcher {
  import opened Common
  import opened Text
  import opened Values
  import opened Approval
  import opened Commands

  /** The message handler's state: the approval manager and the executor's session store. */
  datatype Handler = Handler(approval: Manager, session: Dict)

  function NewHandler(): (h: Handler)
    ensures h.approval.mode == Auto && h.session == []
  {
    Handler(NewManager(), NewSession())
  }

  /** The result of handling one message: the handler and host afterwards, the
      reply, the operator answers still unread, the dialogs shown and the commands
      handed to the executor, in order. */
  datatype Step<H> = Step(
    handler: Handler,
    host: H,
    reply: Reply,
    answers: seq<int>,
    prompts: seq<Prompt>,
    executed: seq<Dict>)

  /** The command type tags that mutate the scene. */
  const DestructiveTypes: set<string> :=
    {"create_node", "delete_node", "set_parameter", "execute_python", "load_scene"}

  /** Using `v` as a dict: anything else raises `AttributeError` on `.get`. */
  function AsDict(v: Value): (r: Result<Dict>)
    ensures r.Ok? <==> v.VDict?
    ensures r.Ok? ==> r.value == v.entries
  {
    if v.VDict? then Ok(v.entries) else Err(NoAttributeError(v, "get"))
  }

  /** `_is_destructive_command`: set membership of the `type` field, which raises
      `TypeError` when the field is a list or dict. */
  function IsDestructive(cmd: Dict): (r: Result<bool>)
    ensures r.Err? <==> !Hashable(Field(cmd, "type"))
    ensures r == Ok(true) <==> exists s :: s in DestructiveTypes && Field(cmd, "type") == VStr(s)
  {
    var t := Field(cmd, "type");
    if !Hashable(t) then Err(UnhashableError(t))
    else Ok(t.VStr? && t.s in DestructiveTypes)
  }

  /** Every destructive type is a command the executor routes, and each of them is a host command. */
  lemma DestructiveTypesAreHostCommands(s: string)
    requires s in DestructiveTypes
    ensures ParseTag(VStr(s)).Some? && IsHostTag(ParseTag(VStr(s)).value)
  {
  }

  function FieldOr(d: Dict, key: string, default: Value): Value {
    match Lookup(d, VStr(key))
    case Some(v) => v
    case None => default
  }

  /** `_generate_description`: the batch dialog's line for one command. */
  function Description(cmd: Dict): (r: Value)
    ensures Field(cmd, "type") !in DescribedTypes ==> r == Field(cmd, "type")
    ensures Field(cmd, "type") in DescribedTypes ==> r.VStr?
    ensures Field(cmd, "type") == VStr("execute_python") ==> r == VStr("Execute Python code")
  {
    var t := Field(cmd, "type");
    if t == VStr("create_node") then VStr("Create " + Show(Field(cmd, "node_type")) + " node")
    else if t == VStr("delete_node") then VStr("Delete node: " + Show(Field(cmd, "node_path")))
    else if t == VStr("set_parameter") then
      VStr("Set " + Show(Field(cmd, "parameter")) + " on " + Show(Field(cmd, "node_path")))
    else if t == VStr("execute_python") then VStr("Execute Python code")
    else t
  }

  /** The types `_generate_description` words itself; any other type value is
      its own description. */
  const DescribedTypes: set<Value> :=
    {VStr("create_node"), VStr("delete_node"), VStr("set_parameter"), VStr("execute_python")}

  /** The marker line that replaces code lines beyond the fifth. */
  function MoreLines(n: nat): string {
    "... (" + NatToString(n) + " more lines)"
  }

  /** The `execute_python` preview body: code of at most five lines is shown in
      full; longer code shows exactly its first five lines followed by one marker
      line counting the lines left out. */
  function CodePreview(code: string): (r: string)
    ensures |Split(code, '\n')| <= 5 ==> r == code
    ensures |Split(code, '\n')| > 5 ==>
      Split(r, '\n') == Split(code, '\n')[..5] + [MoreLines(|Split(code, '\n')| - 5)]
  {
    LinesPreview(Split(code, '\n'))
  }

  /** The preview of code already split into newline-free lines. */
  function LinesPreview(lines: seq<string>): (r: string)
    requires forall i :: 0 <= i < |lines| ==> '\n' !in lines[i]
    ensures |lines| <= 5 ==> r == Join("\n", lines)
    ensures |lines| > 5 ==> Split(r, '\n') == lines[..5] + [MoreLines(|lines| - 5)]
  {
    var head := Join("\n", lines[..if |lines| < 5 then |lines| else 5]);
    if |lines| > 5 then
      LongCodeLines(lines);
      head + "\n" + MoreLines(|lines| - 5)
    else
      assert lines[..|lines|] == lines;
      head
  }

  /** `_generate_preview`. A non-string `code` field raises `AttributeError` on `.split`. */
  function Preview(cmd: Dict): (r: Result<string>)
    ensures r.Err? <==> Field(cmd, "type") == VStr("execute_python") && !FieldOr(cmd, "code", VStr("")).VStr?
    ensures r.Ok? ==> |r.value| >= 5 && r.value[..5] == "Will "
    ensures Field(cmd, "type") == VStr("execute_python") && FieldOr(cmd, "code", VStr("")).VStr? ==>
      r == Ok(Will("execute:\n" + CodePreview(FieldOr(cmd, "code", VStr("")).s)))
  {
    var t := Field(cmd, "type");
    if t == VStr("create_node") then
      Ok(Will("create: " + Show(FieldOr(cmd, "parent", VStr("/obj"))) + "/"
        + Show(FieldOr(cmd, "name", VStr("new_node"))) + " (" + Show(Field(cmd, "node_type")) + ")"))
    else if t == VStr("delete_node") then Ok(Will("delete: " + Show(Field(cmd, "node_path"))))
    else if t == VStr("set_parameter") then
      Ok(Will("set " + Show(Field(cmd, "node_path")) + "." + Show(Field(cmd, "parameter"))
        + " = " + Show(Field(cmd, "value"))))
    else if t == VStr("execute_python") then
      var code := FieldOr(cmd, "code", VStr(""));
      if !code.VStr? then Err(NoAttributeError(code, "split"))
      else Ok(Will("execute:\n" + CodePreview(code.s)))
    else Ok(Will("execute: " + Show(t)))
  }

  /** Every preview line opens with `Will `. */
  function Will(rest: string): (r: string)
    ensures |r| == 5 + |rest| && r[..5] == "Will " && r[5..] == rest
  {
    "Will " + rest
  }

  /** Five lines and the marker, joined, split back into those six lines. */
  lemma LongCodeLines(lines: seq<string>)
    requires |lines| > 5
    requires forall i :: 0 <= i < |lines| ==> '\n' !in lines[i]
    ensures Split(Join("\n", lines[..5]) + "\n" + MoreLines(|lines| - 5), '\n') == lines[..5] + [MoreLines(|lines| - 5)]
  {
    MarkerHasNoNewline(|lines| - 5);
    LinesThenMarker(lines[..5], MoreLines(|lines| - 5));
  }

  /** Lines and a last line, none holding a newline, joined by newlines, split back. */
  lemma LinesThenMarker(head: seq<string>, marker: string)
    requires |head| >= 1
    requires forall i :: 0 <= i < |head| ==> '\n' !in head[i]
    requires '\n' !in marker
    ensures Split(Join("\n", head) + "\n" + marker, '\n') == head + [marker]
  {
    var parts := head + [marker];
    JoinSnoc("\n", head, marker);
    assert forall i :: 0 <= i < |parts| ==> '\n' !in parts[i] by {
      forall i | 0 <= i < |parts| ensures '\n' !in parts[i] {
        if i < |head| {
          assert parts[i] == head[i];
        }
      }
    }
    SplitJoin(parts, '\n');
  }

  lemma MarkerHasNoNewline(n: nat)
    ensures '\n' !in MoreLines(n)
  {
    var digits := NatToString(n);
    assert forall i :: 0 <= i < |digits| ==> digits[i] != '\n';
    assert MoreLines(n) == "... (" + digits + " more lines)";
  }

  /** A `create_node` preview without parent or name shows `/obj/new_node`. */
  lemma CreatePreviewDefaults(cmd: Dict)
    requires Field(cmd, "type") == VStr("create_node")
    requires Lookup(cmd, VStr("parent")).None? && Lookup(cmd, VStr("name")).None?
    ensures Preview(cmd) == Ok("Will create: /obj/new_node (" + Show(Field(cmd, "node_type")) + ")")
  {
    assert FieldOr(cmd, "parent", VStr("/obj")) == VStr("/obj");
    assert FieldOr(cmd, "name", VStr("new_node")) == VStr("new_node");
    DefaultCreateLine(Show(Field(cmd, "node_type")));
  }

  /** The `create_node` line with both defaults filled in. */
  lemma DefaultCreateLine(x: string)
    ensures Will("create: " + Show(VStr("/obj")) + "/" + Show(VStr("new_node")) + " (" + x + ")")
         == "Will create: /obj/new_node (" + x + ")"
  {
    assert "Will " + ("create: " + "/obj" + "/" + "new_node" + " (" + x + ")") == "Will create: /obj/new_node (" + x + ")";
  }

  /** The reply for a command the operator denied. */
  function Cancelled(): Reply {
    Failure("Command cancelled by user")
  }

  /** Runs one command through the executor and records it. */
  function Run<H>(rt: Runtime<H>, h: Handler, host: H, cmd: Dict, answers: seq<int>, prompts: seq<Prompt>): Step<H> {
    var ex := Execute(rt, h.session, host, cmd);
    Step(h.(session := ex.session), ex.host, ex.reply, answers, prompts, [cmd])
  }

  /** `_handle_command`: a gated command is previewed and put to the operator; a
      denied one is answered with the cancellation reply and never executed. */
  function HandleCommand<H>(rt: Runtime<H>, h: Handler, host: H, msg: Dict, answers: seq<int>): (r: Result<Step<H>>)
    ensures !FieldOr(msg, "data", VDict([])).VDict? ==> r.Err?
    ensures r.Ok? ==> r.value.handler.approval == h.approval && |r.value.executed| <= 1
    ensures r.Ok? && r.value.executed == [] ==>
      r.value.reply == Cancelled() && r.value.handler == h && r.value.host == host
    ensures r.Ok? && r.value.executed != [] ==>
      var cmd := r.value.executed[0];
      && FieldOr(msg, "data", VDict([])) == VDict(cmd)
      && var ex := Execute(rt, h.session, host, cmd);
      && r.value.reply == ex.reply && r.value.handler.session == ex.session && r.value.host == ex.host
  {
    var command :- AsDict(FieldOr(msg, "data", VDict([])));
    var destructive :- IsDestructive(command);
    if RequiresApproval(h.approval.mode, destructive) then
      var preview :- Preview(command);
      var d := RequestApproval(h.approval.mode, rt.hou, Show(Field(command, "type")), preview, destructive, answers);
      if !d.approved then Ok(Step(h, host, Cancelled(), d.answers, d.prompts, []))
      else Ok(Run(rt, h, host, command, d.answers, d.prompts))
    else Ok(Run(rt, h, host, command, answers, []))
  }

  /** The entries `_handle_batch` passes to `approve_batch`, one per command;
      raises on the first command that is not a dict or whose preview or
      destructiveness test raises. */
  function BatchItems(cmds: seq<Value>): (r: Result<(seq<Dict>, seq<BatchItem>)>)
    ensures r.Ok? ==> |r.value.0| == |cmds| && |r.value.1| == |cmds|
    ensures r.Ok? ==> forall i :: 0 <= i < |cmds| ==> cmds[i] == VDict(r.value.0[i])
  {
    if |cmds| == 0 then Ok(([], []))
    else
      var cmd :- AsDict(cmds[0]);
      var description := Show(Description(cmd));
      var preview :- Preview(cmd);
      var destructive :- IsDestructive(cmd);
      var rest :- BatchItems(cmds[1..]);
      Ok(([cmd] + rest.0, [BatchItem(description, preview, destructive)] + rest.1))
  }

  /** The commands whose approval is true, in order. */
  function Approved(cmds: seq<Dict>, approvals: seq<bool>): seq<Dict>
    requires |cmds| == |approvals|
  {
    if |cmds| == 0 then []
    else (if approvals[0] then [cmds[0]] else []) + Approved(cmds[1..], approvals[1..])
  }

  datatype BatchRun<H> = BatchRun(session: Dict, host: H, results: seq<Reply>, executed: seq<Dict>)

  /** The execution loop of `_handle_batch`: one result per command, in order;
      approved commands go to the executor in order, denied ones get the
      cancellation reply. */
  function RunBatch<H>(rt: Runtime<H>, session: Dict, host: H, cmds: seq<Dict>, approvals: seq<bool>): (r: BatchRun<H>)
    requires |cmds| == |approvals|
    ensures |r.results| == |cmds|
    ensures forall i :: 0 <= i < |cmds| && !approvals[i] ==> r.results[i] == Cancelled()
    ensures r.executed == Approved(cmds, approvals)
    decreases |cmds|
  {
    if |cmds| == 0 then BatchRun(session, host, [], [])
    else if approvals[0] then
      var ex := Execute(rt, session, host, cmds[0]);
      var rest := RunBatch(rt, ex.session, ex.host, cmds[1..], approvals[1..]);
      BatchRun(rest.session, rest.host, [ex.reply] + rest.results, [cmds[0]] + rest.executed)
    else
      var rest := RunBatch(rt, session, host, cmds[1..], approvals[1..]);
      BatchRun(rest.session, rest.host, [Cancelled()] + rest.results, rest.executed)
  }

  /** Running a batch on `cmds[..i]` and then executing `cmds[i]` is what the
      loop does at entry `i`: an approved entry's reply is the executor's reply
      in the session and host the earlier entries left. */
  lemma {:induction false} RunBatchInOrder<H>(rt: Runtime<H>, session: Dict, host: H, cmds: seq<Dict>, approvals: seq<bool>, i: nat)
    requires |cmds| == |approvals| && i < |cmds| && approvals[i]
    ensures var before := RunBatch(rt, session, host, cmds[..i], approvals[..i]);
      RunBatch(rt, session, host, cmds, approvals).results[i]
        == Execute(rt, before.session, before.host, cmds[i]).reply
    decreases i
  {
    if i == 0 {
      assert cmds[..0] == [] && approvals[..0] == [];
    } else {
      var ex := Execute(rt, session, host, cmds[0]);
      var s1 := if approvals[0] then ex.session else session;
      var h1 := if approvals[0] then ex.host else host;
      RunBatchInOrder(rt, s1, h1, cmds[1..], approvals[1..], i - 1);
      RunBatchFirst(rt, session, host, cmds, approvals);
      RunBatchFirst(rt, session, host, cmds[..i], approvals[..i]);
      PrefixShift(cmds, i);
      PrefixShift(approvals, i);
    }
  }

  /** How a prefix's head and tail line up with the whole sequence's. */
  lemma PrefixShift<T>(a: seq<T>, i: nat)
    requires 0 < i < |a|
    ensures a[..i][0] == a[0] && a[..i][1..] == a[1..][..i - 1] && a[1..][i - 1] == a[i]
  {
  }

  /** The first entry runs (if approved) in the given store and host; the
      rest of the batch runs in what it leaves. */
  lemma RunBatchFirst<H>(rt: Runtime<H>, session: Dict, host: H, cmds: seq<Dict>, approvals: seq<bool>)
    requires |cmds| == |approvals| > 0
    ensures var ex := Execute(rt, session, host, cmds[0]);
      var s1 := if approvals[0] then ex.session else session;
      var h1 := if approvals[0] then ex.host else host;
      var r := RunBatch(rt, session, host, cmds, approvals);
      var t := RunBatch(rt, s1, h1, cmds[1..], approvals[1..]);
      && r.session == t.session && r.host == t.host
      && forall k :: 1 <= k < |cmds| ==> r.results[k] == t.results[k - 1]
  {
  }

  /** A `get_session_state` without a truthy key: its reply holds the executor's
      store itself. */
  predicate ReadsWholeState(cmd: Dict) {
    TagOf(cmd) == Some(GetSessionState) && !Truthy(Field(cmd, "key"))
  }

  /** The results as they are packed once the batch loop is over: a whole-store
      reply shows the store as the batch left it, since it is the same object. */
  function Packed(cmds: seq<Dict>, approvals: seq<bool>, results: seq<Reply>, session: Dict): (r: seq<Reply>)
    requires |cmds| == |approvals| == |results|
    ensures |r| == |results|
    ensures forall i :: 0 <= i < |r| && !(approvals[i] && ReadsWholeState(cmds[i])) ==> r[i] == results[i]
    ensures forall i :: 0 <= i < |r| && approvals[i] && ReadsWholeState(cmds[i]) ==> r[i] == StateReply(session)
  {
    seq(|results|, i requires 0 <= i < |results| =>
      if approvals[i] && ReadsWholeState(cmds[i]) then StateReply(session) else results[i])
  }

  /** A batch with no approved whole-store read is packed as it was run. */
  lemma PackedWithoutWholeReads(cmds: seq<Dict>, approvals: seq<bool>, results: seq<Reply>, session: Dict)
    requires |cmds| == |approvals| == |results|
    requires forall i :: 0 <= i < |cmds| ==> !(approvals[i] && ReadsWholeState(cmds[i]))
    ensures Packed(cmds, approvals, results, session) == results
  {
  }

  /** Packing is idempotent: every whole-store reply already shows the final store. */
  lemma PackedTwice(cmds: seq<Dict>, approvals: seq<bool>, results: seq<Reply>, session: Dict)
    requires |cmds| == |approvals| == |results|
    ensures var once := Packed(cmds, approvals, results, session);
      Packed(cmds, approvals, once, session) == once
  {
  }

  function BatchReply(results: seq<Reply>): Reply {
    Success(Record([("results", VList(seq(|results|, i requires 0 <= i < |results| => ReplyValue(results[i]))))]))
  }

  /** `_handle_batch`: approve, run, then pack every result in one reply. */
  function HandleBatch<H>(rt: Runtime<H>, h: Handler, host: H, msg: Dict, answers: seq<int>): (r: Result<Step<H>>)
    ensures r.Ok? ==> r.value.reply.success && r.value.handler.approval == h.approval
    ensures !FieldOr(msg, "data", VDict([])).VDict? ==> r.Err?
  {
    var data :- AsDict(FieldOr(msg, "data", VDict([])));
    var list :- Iterate(FieldOr(data, "commands", VList([])));
    var built :- BatchItems(list);
    var decision := ApproveBatch(h.approval.mode, rt.hou, built.1, answers);
    var run := RunBatch(rt, h.session, host, built.0, decision.approvals);
    Ok(Step(h.(session := run.session), run.host, BatchReply(Packed(built.0, decision.approvals, run.results, run.session)),
            decision.answers, decision.prompts, run.executed))
  }

  /** `_handle_set_approval_mode`: changes only the mode, and only to a valid one. */
  function HandleSetMode<H>(h: Handler, host: H, msg: Dict, answers: seq<int>): (r: Result<Step<H>>)
    ensures r.Ok? <==> FieldOr(msg, "data", VDict([])).VDict?
    ensures r.Ok? ==> r.value.handler.session == h.session && r.value.host == host
    ensures r.Ok? ==> r.value.answers == answers && r.value.prompts == [] && r.value.executed == []
    ensures r.Ok? ==> var requested := Field(FieldOr(msg, "data", VDict([])).entries, "mode");
      && (r.value.reply.success <==> ParseMode(requested).Some?)
      && (r.value.reply.success ==> r.value.handler.approval.mode == ParseMode(requested).value)
      && (!r.value.reply.success ==> r.value.handler == h)
  {
    var data :- AsDict(FieldOr(msg, "data", VDict([])));
    var requested := Field(data, "mode");
    match ParseMode(requested)
    case Some(m) =>
      Ok(Step(h.(approval := SetMode(h.approval, m)), host,
              Success(Record([("mode", VStr(ModeValue(m)))])), answers, [], []))
    case None =>
      Ok(Step(h, host, Failure("Invalid approval mode: " + Show(requested)), answers, [], []))
  }

  function Pong(): Reply {
    Success(Record([("pong", VBool(true))]))
  }

  /** `handle_message`: routes on the envelope's `type` field. */
  function HandleMessage<H>(rt: Runtime<H>, h: Handler, host: H, msg: Value, answers: seq<int>): (r: Result<Step<H>>)
    ensures !msg.VDict? ==> r == Err(NoAttributeError(msg, "get"))
    ensures r.Ok? && Field(msg.entries, "type") != VStr("set_approval_mode") ==>
      r.value.handler.approval == h.approval
    ensures r.Ok? && Field(msg.entries, "type") != VStr("command") && Field(msg.entries, "type") != VStr("batch") ==>
      r.value.executed == [] && r.value.host == host && r.value.handler.session == h.session
  {
    var t :- GetField(msg, "type", VNone);
    if t == VStr("command") then HandleCommand(rt, h, host, msg.entries, answers)
    else if t == VStr("batch") then HandleBatch(rt, h, host, msg.entries, answers)
    else if t == VStr("set_approval_mode") then HandleSetMode(h, host, msg.entries, answers)
    else if t == VStr("ping") then Ok(Step(h, host, Pong(), answers, [], []))
    else Ok(Step(h, host, Failure("Unknown message type: " + Show(t)), answers, [], []))
  }

  newtype Byte = b: int | 0 <= b < 256

  /** The outcome of `handle_binary`: the bytes sent back, or the exception that
      escapes when even the error reply cannot be encoded. */
  datatype BinaryStep<H> = BinaryStep(
    handler: Handler,
    host: H,
    out: Result<seq<Byte>>,
    answers: seq<int>,
    prompts: seq<Prompt>,
    executed: seq<Dict>)

  function DecodingError(e: string): Reply {
    Failure("Message decoding error: " + e)
  }

  /** `handle_binary`: decode, dispatch, encode; any `Exception` along the way is
      answered with a decoding-error reply instead of propagating. */
  function HandleBinary<H>(rt: Runtime<H>, h: Handler, host: H, data: seq<Byte>, answers: seq<int>,
                           decode: seq<Byte> -> Result<Value>, encode: Value -> Result<seq<Byte>>): (r: BinaryStep<H>)
    ensures decode(data).Err? ==> r.handler == h && r.host == host && r.executed == [] && r.prompts == []
    ensures decode(data).Ok? && HandleMessage(rt, h, host, decode(data).value, answers).Err? ==>
      r.handler == h && r.host == host && r.executed == [] && r.prompts == []
    ensures decode(data).Ok? && HandleMessage(rt, h, host, decode(data).value, answers).Ok? ==>
      var step := HandleMessage(rt, h, host, decode(data).value, answers).value;
      r.handler == step.handler && r.host == step.host && r.executed == step.executed
  {
    match decode(data)
    case Err(e) => BinaryStep(h, host, encode(ReplyValue(DecodingError(e))), answers, [], [])
    case Ok(msg) =>
      match HandleMessage(rt, h, host, msg, answers)
      case Err(e) => BinaryStep(h, host, encode(ReplyValue(DecodingError(e))), answers, [], [])
      case Ok(step) =>
        var out := match encode(ReplyValue(step.reply))
          case Ok(bytes) => Ok(bytes)
          case Err(e) => encode(ReplyValue(DecodingError(e)));
        BinaryStep(step.handler, step.host, out, step.answers, step.prompts, step.executed)
  }

  /** `ping` replies `{success: true, data: {pong: true}}` and touches neither the
      approval policy, the operator, the executor nor the host. */
  lemma PingReply<H>(rt: Runtime<H>, h: Handler, host: H, msg: Dict, answers: seq<int>)
    requires Field(msg, "type") == VStr("ping")
    ensures HandleMessage(rt, h, host, VDict(msg), answers) == Ok(Step(h, host, Pong(), answers, [], []))
    ensures Pong().success && Pong().data == Some(Record([("pong", VBool(true))]))
  {
  }

  /** Any other `type` value, a missing one included, is answered with a failure
      naming it, and nothing else happens. */
  lemma UnknownMessageType<H>(rt: Runtime<H>, h: Handler, host: H, msg: Dict, answers: seq<int>)
    requires Field(msg, "type") !in {VStr("command"), VStr("batch"), VStr("set_approval_mode"), VStr("ping")}
    ensures HandleMessage(rt, h, host, VDict(msg), answers)
      == Ok(Step(h, host, Failure("Unknown message type: " + Show(Field(msg, "type"))), answers, [], []))
  {
  }

  /** Whether `_handle_command` refuses a command: the mode gates it, a host UI is
      present and the operator does not press Execute. */
  predicate Denied(mode: Mode, hou: bool, cmd: Dict, answers: seq<int>) {
    var destructive := Field(cmd, "type").VStr? && Field(cmd, "type").s in DestructiveTypes;
    RequiresApproval(mode, destructive) && hou && !(|answers| > 0 && answers[0] == 0)
  }

  /** `_handle_command` on a dict whose type is hashable and whose preview can be
      built, with the approval request spelled out. */
  lemma CommandOutline<H>(rt: Runtime<H>, h: Handler, host: H, msg: Dict, answers: seq<int>, cmd: Dict)
    requires FieldOr(msg, "data", VDict([])) == VDict(cmd)
    requires Hashable(Field(cmd, "type")) && Preview(cmd).Ok?
    ensures var destructive := Field(cmd, "type").VStr? && Field(cmd, "type").s in DestructiveTypes;
      var d := RequestApproval(h.approval.mode, rt.hou, Show(Field(cmd, "type")), Preview(cmd).value, destructive, answers);
      HandleCommand(rt, h, host, msg, answers)
        == if !RequiresApproval(h.approval.mode, destructive) then Ok(Run(rt, h, host, cmd, answers, []))
           else if !d.approved then Ok(Step(h, host, Cancelled(), d.answers, d.prompts, []))
           else Ok(Run(rt, h, host, cmd, d.answers, d.prompts))
  {
    var destructive := Field(cmd, "type").VStr? && Field(cmd, "type").s in DestructiveTypes;
    assert AsDict(FieldOr(msg, "data", VDict([]))) == Ok(cmd);
    assert IsDestructive(cmd) == Ok(destructive);
  }

  /** A denied command gets the cancellation reply and leaves handler and host
      unchanged; nothing is executed. */
  lemma CommandDenied<H>(rt: Runtime<H>, h: Handler, host: H, msg: Dict, answers: seq<int>, cmd: Dict)
    requires FieldOr(msg, "data", VDict([])) == VDict(cmd)
    requires Hashable(Field(cmd, "type")) && Preview(cmd).Ok?
    requires Denied(h.approval.mode, rt.hou, cmd, answers)
    ensures var r := HandleCommand(rt, h, host, msg, answers);
      && r.Ok? && r.value.reply == Cancelled() && r.value.executed == []
      && r.value.handler == h && r.value.host == host
  {
    CommandOutline(rt, h, host, msg, answers, cmd);
  }

  /** Any other command is executed once and the executor's reply is returned
      unchanged. */
  lemma CommandRuns<H>(rt: Runtime<H>, h: Handler, host: H, msg: Dict, answers: seq<int>, cmd: Dict)
    requires FieldOr(msg, "data", VDict([])) == VDict(cmd)
    requires Hashable(Field(cmd, "type")) && Preview(cmd).Ok?
    requires !Denied(h.approval.mode, rt.hou, cmd, answers)
    ensures var ex := Execute(rt, h.session, host, cmd);
      var r := HandleCommand(rt, h, host, msg, answers);
      && r.Ok? && r.value.reply == ex.reply && r.value.executed == [cmd]
      && r.value.handler == h.(session := ex.session) && r.value.host == ex.host
  {
    CommandOutline(rt, h, host, msg, answers, cmd);
  }

  /** Dialog counts for a single command with a host UI: preview mode asks exactly
      once, the other modes ask exactly when the command is destructive. */
  lemma CommandPromptCount<H>(rt: Runtime<H>, h: Handler, host: H, msg: Dict, answers: seq<int>, cmd: Dict)
    requires rt.hou
    requires FieldOr(msg, "data", VDict([])) == VDict(cmd)
    requires Hashable(Field(cmd, "type")) && Preview(cmd).Ok?
    ensures var destructive := Field(cmd, "type").VStr? && Field(cmd, "type").s in DestructiveTypes;
      var r := HandleCommand(rt, h, host, msg, answers);
      && r.Ok?
      && (h.approval.mode == Mode.Preview ==> |r.value.prompts| == 1)
      && (h.approval.mode != Mode.Preview ==> (|r.value.prompts| == 1 <==> destructive))
      && |r.value.prompts| <= 1
  {
    CommandOutline(rt, h, host, msg, answers, cmd);
  }

  /** The result list of a batch reply. */
  function BatchResults(r: Reply): seq<Value> {
    if r.data.Some? && r.data.value.VDict? && |r.data.value.entries| == 1
       && r.data.value.entries[0].0 == VStr("results") && r.data.value.entries[0].1.VList?
    then r.data.value.entries[0].1.items
    else []
  }

  /** A batch reply is always a success holding one result per command, in input
      order: a denied command's entry is exactly the cancellation reply; an
      approved command's entry is the executor's reply in the session and host
      the entries before it left, except that a whole-store reply shows the store
      as the batch left it; and the executor sees exactly the approved commands,
      in order. */
  lemma BatchShape<H>(rt: Runtime<H>, h: Handler, host: H, msg: Dict, answers: seq<int>, cmds: seq<Value>)
    requires FieldOr(msg, "data", VDict([])).VDict?
    requires Iterate(FieldOr(FieldOr(msg, "data", VDict([])).entries, "commands", VList([]))) == Ok(cmds)
    requires BatchItems(cmds).Ok?
    ensures var built := BatchItems(cmds).value;
      var decision := ApproveBatch(h.approval.mode, rt.hou, built.1, answers);
      var r := HandleBatch(rt, h, host, msg, answers);
      && r.Ok?
      && r.value.reply.success
      && |BatchResults(r.value.reply)| == |cmds|
      && (forall i :: 0 <= i < |cmds| && !decision.approvals[i] ==>
            BatchResults(r.value.reply)[i] == ReplyValue(Cancelled()))
      && (forall i :: 0 <= i < |cmds| && decision.approvals[i] && !ReadsWholeState(built.0[i]) ==>
            var before := RunBatch(rt, h.session, host, built.0[..i], decision.approvals[..i]);
            BatchResults(r.value.reply)[i] == ReplyValue(Execute(rt, before.session, before.host, built.0[i]).reply))
      && (forall i :: 0 <= i < |cmds| && decision.approvals[i] && ReadsWholeState(built.0[i]) ==>
            BatchResults(r.value.reply)[i] == ReplyValue(StateReply(r.value.handler.session)))
      && r.value.executed == Approved(built.0, decision.approvals)
      && r.value.prompts == decision.prompts
  {
    var built := BatchItems(cmds).value;
    var decision := ApproveBatch(h.approval.mode, rt.hou, built.1, answers);
    var run := RunBatch(rt, h.session, host, built.0, decision.approvals);
    BatchOutline(rt, h, host, msg, answers, cmds);
    var packed := Packed(built.0, decision.approvals, run.results, run.session);
    BatchReplyResults(packed);
    var results := BatchResults(BatchReply(packed));
    forall i | 0 <= i < |cmds| && !decision.approvals[i]
      ensures results[i] == ReplyValue(Cancelled())
    {
      assert run.results[i] == Cancelled();
    }
    forall i | 0 <= i < |cmds| && decision.approvals[i] && !ReadsWholeState(built.0[i])
      ensures var before := RunBatch(rt, h.session, host, built.0[..i], decision.approvals[..i]);
        results[i] == ReplyValue(Execute(rt, before.session, before.host, built.0[i]).reply)
    {
      RunBatchInOrder(rt, h.session, host, built.0, decision.approvals, i);
    }
  }

  /** The live store in concrete terms: in the batch `get_session_state`,
      `set_session_state k = 1` on an empty store, the executor answers the get
      with the empty store, but the packed reply shows `{k: 1}`. */
  lemma WholeStateReplyIsLive<H>(rt: Runtime<H>, host: H)
    ensures var get := [(VStr("type"), VStr("get_session_state"))];
      var put := [(VStr("type"), VStr("set_session_state")), (VStr("key"), VStr("k")), (VStr("value"), VInt(1))];
      var run := RunBatch(rt, [], host, [get, put], [true, true]);
      && run.results[0] == StateReply([])
      && run.session == [(VStr("k"), VInt(1))]
      && Packed([get, put], [true, true], run.results, run.session)[0] == StateReply([(VStr("k"), VInt(1))])
  {
    var get := [(VStr("type"), VStr("get_session_state"))];
    var put := [(VStr("type"), VStr("set_session_state")), (VStr("key"), VStr("k")), (VStr("value"), VInt(1))];
    LiveGetStep(rt, host);
    LivePutStep(rt, host);
    assert [get, put][1..] == [put];
  }

  /** The example's `get_session_state` on the empty store. */
  lemma LiveGetStep<H>(rt: Runtime<H>, host: H)
    ensures var get := [(VStr("type"), VStr("get_session_state"))];
      var ex := Execute(rt, [], host, get);
      && ReadsWholeState(get) && ex.session == [] && ex.host == host && ex.reply == StateReply([])
  {
    var get := [(VStr("type"), VStr("get_session_state"))];
    assert Field(get, "type") == VStr("get_session_state");
    assert Field(get, "key") == VNone;
  }

  /** The example's `set_session_state k = 1`, run alone on the empty store. */
  lemma LivePutStep<H>(rt: Runtime<H>, host: H)
    ensures var put := [(VStr("type"), VStr("set_session_state")), (VStr("key"), VStr("k")), (VStr("value"), VInt(1))];
      && !ReadsWholeState(put)
      && RunBatch(rt, [], host, [put], [true]).session == [(VStr("k"), VInt(1))]
  {
    var put := [(VStr("type"), VStr("set_session_state")), (VStr("key"), VStr("k")), (VStr("value"), VInt(1))];
    LivePutExecutes(rt, host);
    assert Execute(rt, [], host, put).session == [(VStr("k"), VInt(1))];
  }

  /** The executor stores `k = 1` for the example's `set_session_state`. */
  lemma LivePutExecutes<H>(rt: Runtime<H>, host: H)
    ensures var put := [(VStr("type"), VStr("set_session_state")), (VStr("key"), VStr("k")), (VStr("value"), VInt(1))];
      && !ReadsWholeState(put)
      && Execute(rt, [], host, put).session == [(VStr("k"), VInt(1))]
  {
    var put := [(VStr("type"), VStr("set_session_state")), (VStr("key"), VStr("k")), (VStr("value"), VInt(1))];
    assert Field(put, "type") == VStr("set_session_state");
    assert Field(put, "key") == VStr("k");
    assert Field(put, "value") == VInt(1);
    assert Put([], VStr("k"), VInt(1)) == [(VStr("k"), VInt(1))];
  }

  /** `_handle_batch` on a command list whose entries can all be previewed. */
  lemma BatchOutline<H>(rt: Runtime<H>, h: Handler, host: H, msg: Dict, answers: seq<int>, cmds: seq<Value>)
    requires FieldOr(msg, "data", VDict([])).VDict?
    requires Iterate(FieldOr(FieldOr(msg, "data", VDict([])).entries, "commands", VList([]))) == Ok(cmds)
    requires BatchItems(cmds).Ok?
    ensures var built := BatchItems(cmds).value;
      var decision := ApproveBatch(h.approval.mode, rt.hou, built.1, answers);
      var run := RunBatch(rt, h.session, host, built.0, decision.approvals);
      HandleBatch(rt, h, host, msg, answers)
        == Ok(Step(h.(session := run.session), run.host,
                   BatchReply(Packed(built.0, decision.approvals, run.results, run.session)),
                   decision.answers, decision.prompts, run.executed))
  {
    var data := FieldOr(msg, "data", VDict([])).entries;
    assert AsDict(FieldOr(msg, "data", VDict([]))) == Ok(data);
  }

  /** The result list of a batch reply is the replies rendered one by one. */
  lemma BatchReplyResults(results: seq<Reply>)
    ensures BatchReply(results).success
    ensures |BatchResults(BatchReply(results))| == |results|
    ensures forall i :: 0 <= i < |results| ==> BatchResults(BatchReply(results))[i] == ReplyValue(results[i])
  {
    var items := seq(|results|, i requires 0 <= i < |results| => ReplyValue(results[i]));
    assert Record([("results", VList(items))]).entries == [(VStr("results"), VList(items))];
  }

  /** Without a host UI every command of a batch is executed, in order. */
  lemma {:induction false} BatchWithoutHostExecutesAll(cmds: seq<Dict>)
    ensures Approved(cmds, Repeat(true, |cmds|)) == cmds
    decreases |cmds|
  {
    if |cmds| > 0 {
      assert Repeat(true, |cmds|)[1..] == Repeat(true, |cmds| - 1);
      BatchWithoutHostExecutesAll(cmds[1..]);
    }
  }

  /** `set_approval_mode` with one of the three values switches the mode and echoes
      it; any other value is refused and the mode is kept. */
  lemma SetModeReply<H>(h: Handler, host: H, msg: Dict, answers: seq<int>, data: Dict)
    requires FieldOr(msg, "data", VDict([])) == VDict(data)
    ensures var r := HandleSetMode(h, host, msg, answers);
      && r.Ok?
      && (ParseMode(Field(data, "mode")).Some? ==>
            var m := ParseMode(Field(data, "mode")).value;
            && r.value.handler == h.(approval := Manager(m))
            && r.value.reply == Success(Record([("mode", Field(data, "mode"))])))
      && (ParseMode(Field(data, "mode")).None? ==>
            && r.value.handler == h
            && r.value.reply == Failure("Invalid approval mode: " + Show(Field(data, "mode"))))
  {
  }

  /** A message that is not a dict raises `AttributeError`, which `handle_binary`
      answers with a decoding-error reply, leaving everything unchanged. */
  lemma NonDictMessageIsAnswered<H>(rt: Runtime<H>, h: Handler, host: H, data: seq<Byte>, answers: seq<int>,
                                    decode: seq<Byte> -> Result<Value>, encode: Value -> Result<seq<Byte>>)
    requires decode(data).Ok? && !decode(data).value.VDict?
    ensures var r := HandleBinary(rt, h, host, data, answers, decode, encode);
      && r == BinaryStep(h, host, encode(ReplyValue(DecodingError(NoAttributeError(decode(data).value, "get")))), answers, [], [])
  {
  }

  /** `handle_binary` never lets an `Exception` out as long as the error reply can be
      encoded. */
  lemma BinaryNeverRaises<H>(rt: Runtime<H>, h: Handler, host: H, data: seq<Byte>, answers: seq<int>,
                             decode: seq<Byte> -> Result<Value>, encode: Value -> Result<seq<Byte>>)
    requires forall e :: encode(ReplyValue(DecodingError(e))).Ok?
    ensures HandleBinary(rt, h, host, data, answers, decode, encode).out.Ok?
  {
    match decode(data)
    case Err(e) =>
    case Ok(msg) =>
      match HandleMessage(rt, h, host, msg, answers)
      case Err(e) =>
      case Ok(step) =>
        match encode(ReplyValue(step.reply))
        case Ok(bytes) =>
        case Err(e) => assert encode(ReplyValue(DecodingError(e))).Ok?;
  }

  /** A message that fails to decode changes nothing and is answered with the
      decoding-error reply. */
  lemma UndecodableChangesNothing<H>(rt: Runtime<H>, h: Handler, host: H, data: seq<Byte>, answers: seq<int>,
                                     decode: seq<Byte> -> Result<Value>, encode: Value -> Result<seq<Byte>>)
    requires decode(data).Err?
    ensures HandleBinary(rt, h, host, data, answers, decode, encode)
      == BinaryStep(h, host, encode(ReplyValue(DecodingError(decode(data).error))), answers, [], [])
  {
  }
}

=== FILE: export_ui.dfy ===
/** The pure parts of the export dialog: the path preview, input validation and
    the tag list read from the comma-separated tag field. */
module ExportForm {
  import opened Common
  import opened Text
  import Paths
  import Exporter

  const PreviewPlaceholder := "Enter name and category to see path preview"
  const LibraryPlaceholder := "$PF_ASSET_LIBRARY"

  /** The sanitising the preview applies: keep the file-name characters, strip
      whitespace, turn spaces into underscores. Underscores stay where they are. */
  function PreviewSanitize(s: string): (r: string)
    ensures forall i :: 0 <= i < |r| ==> IsAlnum(r[i]) || r[i] == '_' || r[i] == '-'
  {
    var kept := Filter(s, Exporter.FileNameChar);
    TrimInfix(kept, IsSpace);
    ReplaceChar(Strip(kept), ' ', '_')
  }

  /** `_update_path_preview` as written: the placeholder while the stripped name or
      category is empty, otherwise `<library>/<category>/<name>.usd` with the
      library variable's value, or its name when the variable is unset. */
  function PreviewPath(library: Option<string>, nameText: string, categoryText: string): (r: string)
    ensures r == PreviewPlaceholder <==> Strip(nameText) == [] || Strip(categoryText) == []
    ensures r != PreviewPlaceholder ==>
      Paths.BaseName(r) == PreviewSanitize(Strip(nameText)) + ".usd"
  {
    var name := Strip(nameText);
    var category := Strip(categoryText);
    if name == [] || category == [] then PreviewPlaceholder
    else
      var lib := if library.Some? then library.value else LibraryPlaceholder;
      var dir := Paths.Join(lib, PreviewSanitize(category));
      var file := PreviewSanitize(name) + ".usd";
      PreviewFileName(dir, name);
      assert file[|file| - 1] == 'd';
      Paths.JoinLast(dir, file);
      assert PreviewPlaceholder[|PreviewPlaceholder| - 1] == 'w';
      Paths.Join(dir, file)
  }

  /** The file part of the preview is the sanitised name with `.usd`. */
  lemma PreviewFileName(dir: string, name: string)
    ensures Paths.BaseName(Paths.Join(dir, PreviewSanitize(name) + ".usd")) == PreviewSanitize(name) + ".usd"
  {
    var stem := PreviewSanitize(name);
    assert '/' !in stem by {
      forall i | 0 <= i < |stem|
        ensures stem[i] != '/'
      {
        assert IsAlnum(stem[i]) || stem[i] == '_' || stem[i] == '-';
      }
    }
    Exporter.NoSlashWithSuffix(stem);
    Paths.BaseNameOfJoin(dir, stem + ".usd");
  }

  /** For a filled-in form the preview is `<library>/<category>/<name>.usd` with
      both parts stripped and sanitised, the library variable's name standing in
      for its value when it is unset; it starts with that category folder and its
      last component is the file name. */
  lemma PreviewPathLayout(library: Option<string>, nameText: string, categoryText: string)
    requires Strip(nameText) != [] && Strip(categoryText) != []
    ensures var lib := if library.Some? then library.value else LibraryPlaceholder;
      var dir := Paths.Join(lib, PreviewSanitize(Strip(categoryText)));
      var r := PreviewPath(library, nameText, categoryText);
      r == Paths.Join(dir, PreviewSanitize(Strip(nameText)) + ".usd")
      && |r| >= |dir| && r[..|dir|] == dir
      && Paths.BaseName(r) == PreviewSanitize(Strip(nameText)) + ".usd"
  {
    PreviewPathIsJoin(library, nameText, categoryText);
    PreviewFileRelative(Strip(nameText));
    var lib := if library.Some? then library.value else LibraryPlaceholder;
    PreviewFileName(Paths.Join(lib, PreviewSanitize(Strip(categoryText))), Strip(nameText));
  }

  /** Only unfolds `PreviewPath`'s body for a filled-in form, so that
      `PreviewPathLayout` and `PreviewOfUnderscoreName` can use it; it states
      nothing beyond the definition. */
  lemma PreviewPathIsJoin(library: Option<string>, nameText: string, categoryText: string)
    requires Strip(nameText) != [] && Strip(categoryText) != []
    ensures var lib := if library.Some? then library.value else LibraryPlaceholder;
      PreviewPath(library, nameText, categoryText)
        == Paths.Join(Paths.Join(lib, PreviewSanitize(Strip(categoryText))), PreviewSanitize(Strip(nameText)) + ".usd")
  {
  }

  /** The preview's file part is a relative name. */
  lemma PreviewFileRelative(name: string)
    ensures var file := PreviewSanitize(name) + ".usd";
      file != [] && file[0] != '/'
  {
    var stem := PreviewSanitize(name);
    if stem != [] {
      assert IsAlnum(stem[0]) || stem[0] == '_' || stem[0] == '-';
    }
  }

  /** The path `AssetExporter.export_asset` would write for what the form
      submits: the stripped field texts, sanitised by the exporter. */
  function ExportedPath(library: Option<string>, nameText: string, categoryText: string): (r: Result<string>)
    ensures r.Err? <==> library.None? || library.value == ""
    ensures r.Ok? ==> Paths.BaseName(r.value) == Exporter.SanitizeFilename(Strip(nameText)) + ".usd"
  {
    Exporter.AssetFileName(if library.Some? then library.value else "", Strip(nameText), Strip(categoryText));
    Exporter.AssetFile(library, Strip(nameText), Strip(categoryText))
  }

  /** The preview shows a path the exporter does not write: a name with a leading
      underscore keeps it in the preview but loses it on export. */
  lemma PreviewDisagreesWithExport()
    ensures PreviewPath(Some("/l"), "_a", "c") == "/l/c/_a.usd"
    ensures ExportedPath(Some("/l"), "_a", "c") == Ok("/l/c/a.usd")
    ensures PreviewPath(Some("/l"), "_a", "c") != ExportedPath(Some("/l"), "_a", "c").value
  {
    PreviewOfUnderscoreName();
    ExportOfUnderscoreName();
  }

  lemma PreviewOfUnderscoreName()
    ensures PreviewPath(Some("/l"), "_a", "c") == "/l/c/_a.usd"
  {
    PlainText("_a");
    PlainText("c");
    PreviewPathIsJoin(Some("/l"), "_a", "c");
    UsdOfUnderscoreA();
    PreviewJoinExample();
  }

  lemma UsdOfUnderscoreA()
    ensures "_a" + ".usd" == "_a.usd"
  {
  }

  lemma PreviewJoinExample()
    ensures Paths.Join(Paths.Join("/l", "c"), "_a.usd") == "/l/c/_a.usd"
  {
    Paths.JoinRelative("/l", "c");
    assert "/l" + "/" + "c" == "/l/c";
    Paths.JoinRelative("/l/c", "_a.usd");
    assert "/l/c" + "/" + "_a.usd" == "/l/c/_a.usd";
  }

  lemma ExportOfUnderscoreName()
    ensures ExportedPath(Some("/l"), "_a", "c") == Ok("/l/c/a.usd")
  {
    assert Strip("_a") == "_a" by {
      TrimKeeps("_a", IsSpace);
    }
    assert Strip("c") == "c" by {
      TrimKeeps("c", IsSpace);
    }
    AssetPathOfUnderscoreName();
  }

  lemma AssetPathOfUnderscoreName()
    ensures Exporter.AssetPath("/l", "_a", "c") == "/l/c/a.usd"
  {
    SanitizeUnderscoreName();
    SanitizeC();
    AssetPathOfSanitized("/l", "_a", "c", "a", "c");
    UsdOfA();
    JoinExample();
  }

  lemma UsdOfA()
    ensures "a" + ".usd" == "a.usd"
  {
    assert ("a" + ".usd")[0] == 'a';
  }

  /** The asset path in terms of the already-sanitised name and category. */
  lemma AssetPathOfSanitized(library: string, name: string, category: string, n: string, c: string)
    requires Exporter.SanitizeFilename(name) == n && Exporter.SanitizeFilename(category) == c
    ensures Exporter.AssetPath(library, name, category) == Paths.Join(Paths.Join(library, c), n + ".usd")
  {
  }

  lemma SanitizeC()
    ensures Exporter.SanitizeFilename("c") == "c"
  {
    assert IsAlnum("c"[0]);
    Exporter.SanitizeKeepsPlainNames("c");
  }

  lemma JoinExample()
    ensures Paths.Join(Paths.Join("/l", "c"), "a.usd") == "/l/c/a.usd"
  {
    Paths.JoinRelative("/l", "c");
    assert "/l" + "/" + "c" == "/l/c";
    Paths.JoinRelative("/l/c", "a.usd");
    assert "/l/c" + "/" + "a.usd" == "/l/c/a.usd";
  }

  lemma SanitizeUnderscoreName()
    ensures Exporter.SanitizeFilename("_a") == "a"
  {
    KeepUnderscoreName();
    TrimUnderscoreName();
  }

  /** `_a` has only file-name characters and no blank, so filtering and
      replacing keep it. */
  lemma KeepUnderscoreName()
    ensures ReplaceChar(Filter("_a", Exporter.FileNameChar), ' ', '_') == "_a"
  {
    FilterAll("_a", Exporter.FileNameChar);
    assert ReplaceChar("_a", ' ', '_') == "_a";
  }

  /** Trimming underscores from `_a` drops the leading one. */
  lemma TrimUnderscoreName()
    ensures Trim("_a", Exporter.IsUnderscore) == "a"
  {
    TrimOneUnderscore("a");
    assert "_" + "a" == "_a";
  }

  /** One leading underscore in front of a name that neither starts nor ends
      with one is all that trimming removes. */
  lemma TrimOneUnderscore(t: string)
    requires t != [] && t[0] != '_' && t[|t| - 1] != '_'
    ensures Trim("_" + t, Exporter.IsUnderscore) == t
  {
    var u := "_" + t;
    assert u[1..] == t;
    assert TrimLeft(t, Exporter.IsUnderscore) == t;
    assert TrimLeft(u, Exporter.IsUnderscore) == t;
    assert TrimRight(t, Exporter.IsUnderscore) == t;
  }

  /** A text of file-name characters without spaces passes the preview's
      stripping and sanitising unchanged. */
  lemma PlainText(s: string)
    requires s != [] && forall i :: 0 <= i < |s| ==> IsAlnum(s[i]) || s[i] == '_' || s[i] == '-'
    ensures Strip(s) == s && PreviewSanitize(s) == s
  {
    FilterAll(s, Exporter.FileNameChar);
    TrimKeeps(s, IsSpace);
    NoSpaceReplace(s);
  }

  lemma NoSpaceReplace(s: string)
    requires forall i :: 0 <= i < |s| ==> IsAlnum(s[i]) || s[i] == '_' || s[i] == '-'
    ensures ReplaceChar(s, ' ', '_') == s
  {
    assert forall i :: 0 <= i < |s| ==> s[i] != ' ';
  }

  /** The preview the dialog evidently means to show: the exporter's own path for
      the form's contents, or the placeholder. */
  function PreviewPathCorrected(library: Option<string>, nameText: string, categoryText: string): (r: string)
    ensures Strip(nameText) == [] || Strip(categoryText) == [] ==> r == PreviewPlaceholder
  {
    var name := Strip(nameText);
    var category := Strip(categoryText);
    if name == [] || category == [] then PreviewPlaceholder
    else Exporter.AssetPath(if library.Some? then library.value else LibraryPlaceholder, name, category)
  }

  /** With the library variable set, the corrected preview is exactly the path the
      exporter writes, and its file is named after the sanitised name. */
  lemma CorrectedPreviewMatchesExport(library: string, nameText: string, categoryText: string)
    requires Strip(nameText) != [] && Strip(categoryText) != [] && library != ""
    ensures ExportedPath(Some(library), nameText, categoryText) == Ok(PreviewPathCorrected(Some(library), nameText, categoryText))
    ensures Paths.BaseName(PreviewPathCorrected(Some(library), nameText, categoryText))
      == Exporter.SanitizeFilename(Strip(nameText)) + ".usd"
  {
    Exporter.AssetFileName(library, Strip(nameText), Strip(categoryText));
  }

  // ---------------------------------------------------------------------------
  // Validation

  datatype Validation = Valid | NameMissing | CategoryMissing | NoPrimitives

  function ValidationMessage(v: Validation): string {
    match v
    case Valid => ""
    case NameMissing => "Please enter an asset name."
    case CategoryMissing => "Please select or enter a category."
    case NoPrimitives => "No primitives selected."
  }

  /** `_validate_inputs`: the first failing check, in the order name, category,
      selection. */
  function ValidateInputs(nameText: string, categoryText: string, selectedPrims: nat): (v: Validation)
    ensures v == Valid <==> Strip(nameText) != [] && Strip(categoryText) != [] && selectedPrims > 0
    ensures v == CategoryMissing ==> Strip(nameText) != []
    ensures v == NoPrimitives ==> Strip(nameText) != [] && Strip(categoryText) != []
  {
    if Strip(nameText) == [] then NameMissing
    else if Strip(categoryText) == [] then CategoryMissing
    else if selectedPrims == 0 then NoPrimitives
    else Valid
  }

  /** A form that passes validation always has a real preview path. */
  lemma ValidFormHasPreview(library: Option<string>, nameText: string, categoryText: string, selectedPrims: nat)
    requires ValidateInputs(nameText, categoryText, selectedPrims) == Valid
    ensures PreviewPath(library, nameText, categoryText) != PreviewPlaceholder
  {
    var lib := if library.Some? then library.value else LibraryPlaceholder;
    var dir := Paths.Join(lib, PreviewSanitize(Strip(categoryText)));
    var file := PreviewSanitize(Strip(nameText)) + ".usd";
    var p := Paths.Join(dir, file);
    assert PreviewPath(library, nameText, categoryText) == p;
    assert file[|file| - 1] == 'd';
    Paths.JoinLast(dir, file);
    assert PreviewPlaceholder[|PreviewPlaceholder| - 1] == 'w';
  }

  // ---------------------------------------------------------------------------
  // Tags

  /** `[t.strip() for t in text.split(',') if t.strip()]`. */
  function ParseTags(text: string): (tags: seq<string>)
    ensures forall i :: 0 <= i < |tags| ==> tags[i] != []
  {
    StripEach(Split(text, ','))
  }

  lemma ParseTagsStripped(text: string)
    ensures forall i :: 0 <= i < |ParseTags(text)| ==> Stripped(ParseTags(text)[i])
  {
    StripEachStripped(Split(text, ','));
  }

  /** A tag the field can hold as one entry: non-empty, stripped, without commas. */
  predicate CleanTag(t: string) {
    t != [] && Stripped(t) && ',' !in t
  }

  /** An empty or blank field gives no tags. */
  lemma BlankFieldHasNoTags(text: string)
    requires forall i :: 0 <= i < |text| ==> IsSpace(text[i])
    ensures ParseTags(text) == []
  {
    assert ',' !in text by {
      assert !IsSpace(',');
    }
    assert Split(text, ',') == [text];
    assert Strip(text) == [] by {
      assert TrimLeft(text, IsSpace) == [];
    }
    assert StripEach([text]) == [] + StripEach([]);
  }

  /** The pieces `", ".join(tags)` splits into at the commas. */
  function Spaced(tags: seq<string>): (parts: seq<string>)
    requires tags != []
    ensures |parts| == |tags| && parts[0] == tags[0]
    ensures forall i :: 1 <= i < |tags| ==> parts[i] == " " + tags[i]
  {
    [tags[0]] + seq(|tags| - 1, i requires 0 <= i < |tags| - 1 => " " + tags[i + 1])
  }

  lemma {:induction false} JoinSpaced(tags: seq<string>)
    requires tags != []
    ensures Join(", ", tags) == Join([','], Spaced(tags))
    decreases |tags|
  {
    if |tags| > 1 {
      JoinSpaced(tags[1..]);
      JoinSpacedTail(tags);
      var sp := Spaced(tags);
      var tail := Join(", ", tags[1..]);
      assert Join([','], sp) == tags[0] + [','] + Join([','], sp[1..]);
      assert Join([','], sp) == tags[0] + [','] + (" " + tail);
      assert Join(", ", tags) == tags[0] + ", " + tail;
    }
  }

  /** After the first piece, the spaced pieces join to a blank followed by the
      spaced join of the remaining tags. */
  lemma JoinSpacedTail(tags: seq<string>)
    requires |tags| > 1
    ensures Join([','], Spaced(tags)[1..]) == " " + Join([','], Spaced(tags[1..]))
  {
    var rest := Spaced(tags[1..]);
    SpacedAfterFirst(tags);
    assert rest == [rest[0]] + rest[1..];
    JoinBlankFirst([','], rest[0], rest[1..]);
  }

  /** Past the first tag, the spaced pieces are those of the remaining tags with
      a blank in front of the first. */
  lemma SpacedAfterFirst(tags: seq<string>)
    requires |tags| > 1
    ensures var rest := Spaced(tags[1..]);
      Spaced(tags)[1..] == [" " + rest[0]] + rest[1..]
  {
  }


  /** A blank in front of the first part is a blank in front of the join. */
  lemma JoinBlankFirst(sep: string, first: string, more: seq<string>)
    ensures Join(sep, [" " + first] + more) == " " + Join(sep, [first] + more)
  {
    if more != [] {
      assert ([" " + first] + more)[1..] == more;
      assert ([first] + more)[1..] == more;
      var tail := Join(sep, more);
      assert Join(sep, [" " + first] + more) == (" " + first) + sep + tail;
      assert Join(sep, [first] + more) == first + sep + tail;
    }
  }

  /** Splitting `", ".join(tags)` at the commas gives the spaced pieces. */
  lemma SplitSpaced(tags: seq<string>)
    requires tags != []
    requires forall i :: 0 <= i < |tags| ==> ',' !in tags[i]
    ensures Split(Join(", ", tags), ',') == Spaced(tags)
  {
    JoinSpaced(tags);
    var parts := Spaced(tags);
    forall i | 0 <= i < |parts|
      ensures ',' !in parts[i]
    {
      if i > 0 {
        assert parts[i] == " " + tags[i];
      }
    }
    SplitJoin(parts, ',');
  }

  /** Stripping `" " + t` for clean tags `t` gives the tags back. */
  lemma {:induction false} StripEachSpaced(parts: seq<string>, tags: seq<string>)
    requires |parts| == |tags|
    requires forall i :: 0 <= i < |tags| ==> CleanTag(tags[i]) && parts[i] == " " + tags[i]
    ensures StripEach(parts) == tags
    decreases |tags|
  {
    if tags != [] {
      assert Strip(parts[0]) == tags[0] by {
        StripAfterSpace(tags[0]);
      }
      StripEachSpaced(parts[1..], tags[1..]);
      StripEachCons(parts, tags[0]);
      assert tags == [tags[0]] + tags[1..];
    }
  }

  /** Writing clean tags as `", ".join(tags)` and reading the field back gives the
      same tags. */
  lemma TagsRoundTrip(tags: seq<string>)
    requires forall i :: 0 <= i < |tags| ==> CleanTag(tags[i])
    ensures ParseTags(Join(", ", tags)) == tags
  {
    if tags == [] {
      BlankFieldHasNoTags("");
    } else {
      SplitSpaced(tags);
      SpacedStrips(tags);
    }
  }

  lemma SpacedStrips(tags: seq<string>)
    requires tags != []
    requires forall i :: 0 <= i < |tags| ==> CleanTag(tags[i])
    ensures StripEach(Spaced(tags)) == tags
  {
    var parts := Spaced(tags);
    StripEachSpaced(parts[1..], tags[1..]);
    assert Strip(tags[0]) == tags[0] by {
      StrippedIff(tags[0]);
    }
    StripEachCons(parts, tags[0]);
  }
}

=== FILE: exporter.dfy ===
/** The pure helpers of the asset exporter: the primitive-group string handed to
    the Blast node, file-name sanitising and the asset file path. */
module Exporter {
  import opened Common
  import opened Text
  import Paths

  // ---------------------------------------------------------------------------
  // Sorting primitive numbers

  /** Each number is at most its successor. */
  predicate Sorted(s: seq<nat>) {
    forall i :: 1 <= i < |s| ==> s[i - 1] <= s[i]
  }

  function Insert(x: nat, s: seq<nat>): (r: seq<nat>)
    requires Sorted(s)
    ensures Sorted(r)
    ensures multiset(r) == multiset(s) + multiset{x}
    ensures |r| == |s| + 1
    ensures r[0] == x || (s != [] && r[0] == s[0])
  {
    if s == [] then [x]
    else if x <= s[0] then [x] + s
    else
      assert s == [s[0]] + s[1..];
      [s[0]] + Insert(x, s[1..])
  }

  /** Python's `sorted` on primitive numbers: the sorted permutation. */
  function Sort(s: seq<nat>): (r: seq<nat>)
    ensures Sorted(r)
    ensures multiset(r) == multiset(s)
    ensures |r| == |s|
  {
    if s == [] then []
    else
      assert s == [s[0]] + s[1..];
      Insert(s[0], Sort(s[1..]))
  }

  // ---------------------------------------------------------------------------
  // Group strings

  /** A run `lo-hi` of consecutive primitive numbers (`lo` alone when equal). */
  datatype Span = Span(lo: nat, hi: nat)

  /** The numbers a span stands for. */
  function Expand(sp: Span): (r: seq<nat>)
    ensures |r| == if sp.lo <= sp.hi then sp.hi - sp.lo + 1 else 0
    ensures forall i :: 0 <= i < |r| ==> r[i] == sp.lo + i
  {
    if sp.lo <= sp.hi then seq(sp.hi - sp.lo + 1, i requires 0 <= i <= sp.hi - sp.lo => sp.lo + i) else []
  }

  function Flatten(spans: seq<Span>): seq<nat> {
    if spans == [] then [] else Expand(spans[0]) + Flatten(spans[1..])
  }

  /** Spans as the exporter builds them: each non-empty, in ascending order, and
      no span could be extended by its successor. */
  predicate Canonical(spans: seq<Span>) {
    && (forall k :: 0 <= k < |spans| ==> spans[k].lo <= spans[k].hi)
    && (forall k :: 1 <= k < |spans| ==> spans[k - 1].hi <= spans[k].lo && spans[k].lo != spans[k - 1].hi + 1)
  }

  function RenderSpan(sp: Span): (r: string)
    ensures forall i :: 0 <= i < |r| ==> IsDigit(r[i]) || r[i] == '-'
  {
    if sp.lo == sp.hi then NatToString(sp.lo) else NatToString(sp.lo) + "-" + NatToString(sp.hi)
  }

  lemma RenderAllSnoc(spans: seq<Span>, sp: Span)
    ensures RenderAll(spans + [sp]) == RenderAll(spans) + [RenderSpan(sp)]
  {
    var a := RenderAll(spans + [sp]);
    var b := RenderAll(spans) + [RenderSpan(sp)];
    assert |a| == |b|;
    forall k | 0 <= k < |a|
      ensures a[k] == b[k]
    {
      if k < |spans| {
        assert (spans + [sp])[k] == spans[k];
      }
    }
  }

  /** Appending a span that starts after the last one, leaving a gap, keeps the
      spans canonical. */
  lemma CanonicalSnoc(spans: seq<Span>, sp: Span)
    requires Canonical(spans)
    requires sp.lo <= sp.hi
    requires spans != [] ==> Last(spans).hi <= sp.lo && sp.lo != Last(spans).hi + 1
    ensures Canonical(spans + [sp])
  {
    var t := spans + [sp];
    forall k | 1 <= k < |t|
      ensures t[k - 1].hi <= t[k].lo && t[k].lo != t[k - 1].hi + 1
    {
      if k < |spans| {
        assert t[k - 1] == spans[k - 1] && t[k] == spans[k];
      }
    }
  }

  function Last(spans: seq<Span>): Span
    requires spans != []
  {
    spans[|spans| - 1]
  }

  function RenderAll(spans: seq<Span>): (r: seq<string>)
    ensures |r| == |spans|
    ensures forall k :: 0 <= k < |spans| ==> r[k] == RenderSpan(spans[k])
  {
    seq(|spans|, k requires 0 <= k < |spans| => RenderSpan(spans[k]))
  }

  /** Reads one token of a group string: a number, or two numbers joined by `-`
      with the first not above the second. */
  function ParseToken(t: string): Option<Span> {
    if '-' in t then
      var ps := Split(t, '-');
      if |ps| == 2 && ps[0] != [] && ps[1] != [] && AllDigits(ps[0]) && AllDigits(ps[1])
         && DigitsValue(ps[0]) <= DigitsValue(ps[1])
      then Some(Span(DigitsValue(ps[0]), DigitsValue(ps[1])))
      else None
    else if t != [] && AllDigits(t) then Some(Span(DigitsValue(t), DigitsValue(t)))
    else None
  }

  function ParseTokens(ts: seq<string>): Option<seq<nat>> {
    if ts == [] then Some([])
    else
      match ParseToken(ts[0])
      case None => None
      case Some(sp) =>
        match ParseTokens(ts[1..])
        case None => None
        case Some(rest) => Some(Expand(sp) + rest)
  }

  /** The primitive numbers a space-separated group string of numbers and
      ranges selects, in the order written; `None` for anything else. */
  function ExpandGroup(g: string): Option<seq<nat>> {
    if g == "" then Some([]) else ParseTokens(Split(g, ' '))
  }

  lemma RenderSpanParses(sp: Span)
    requires sp.lo <= sp.hi
    ensures ParseToken(RenderSpan(sp)) == Some(sp)
  {
    var a := NatToString(sp.lo);
    var b := NatToString(sp.hi);
    DigitsValueOfNatToString(sp.lo);
    DigitsValueOfNatToString(sp.hi);
    assert forall i :: 0 <= i < |a| ==> a[i] != '-';
    assert forall i :: 0 <= i < |b| ==> b[i] != '-';
    if sp.lo != sp.hi {
      var t := a + "-" + b;
      assert Join(['-'], [a, b]) == t;
      SplitJoin([a, b], '-');
      assert t[|a|] == '-';
    }
  }

  lemma {:induction false} RenderTokensParse(spans: seq<Span>)
    requires forall k :: 0 <= k < |spans| ==> spans[k].lo <= spans[k].hi
    ensures ParseTokens(RenderAll(spans)) == Some(Flatten(spans))
    decreases |spans|
  {
    if spans != [] {
      RenderSpanParses(spans[0]);
      assert RenderAll(spans)[1..] == RenderAll(spans[1..]);
      RenderTokensParse(spans[1..]);
    }
  }

  /** Houdini reads a rendered group back as exactly the numbers of its spans. */
  lemma RenderedGroupExpands(spans: seq<Span>)
    requires spans != []
    requires forall k :: 0 <= k < |spans| ==> spans[k].lo <= spans[k].hi
    ensures ExpandGroup(Join(" ", RenderAll(spans))) == Some(Flatten(spans))
  {
    var parts := RenderAll(spans);
    var g := Join(" ", parts);
    RenderedNoSpace(spans);
    SplitJoin(parts, ' ');
    JoinLength(parts);
    RenderTokensParse(spans);
    assert ExpandGroup(g) == ParseTokens(Split(g, ' '));
  }

  lemma RenderedNoSpace(spans: seq<Span>)
    ensures forall k :: 0 <= k < |spans| ==> ' ' !in RenderAll(spans)[k]
    ensures spans != [] ==> RenderAll(spans)[0] != []
  {
    var parts := RenderAll(spans);
    forall k | 0 <= k < |parts|
      ensures ' ' !in parts[k]
    {
      assert forall i :: 0 <= i < |parts[k]| ==> parts[k][i] != ' ';
    }
  }

  lemma {:induction false} JoinLength(parts: seq<string>)
    requires parts != [] && parts[0] != []
    ensures |Join(" ", parts)| >= |parts[0]|
  {
    if |parts| > 1 {
      assert Join(" ", parts) == parts[0] + " " + Join(" ", parts[1..]);
    }
  }

  lemma {:induction false} FlattenSnoc(spans: seq<Span>, sp: Span)
    ensures Flatten(spans + [sp]) == Flatten(spans) + Expand(sp)
    decreases |spans|
  {
    if spans == [] {
      assert Flatten([sp]) == Expand(sp) + Flatten([]);
    } else {
      assert (spans + [sp])[1..] == spans[1..] + [sp];
      FlattenSnoc(spans[1..], sp);
    }
  }

  lemma ExtendSpan(lo: nat, hi: nat)
    requires lo <= hi
    ensures Expand(Span(lo, hi + 1)) == Expand(Span(lo, hi)) + [hi + 1]
  {
  }

  /** `_prims_to_group_string`: sorts the primitive numbers and writes runs of
      consecutive numbers as `lo-hi`, single numbers as they are, separated by
      spaces. Also returns the spans it wrote. */
  method PrimsToGroupString(prims: seq<nat>) returns (r: string, spans: seq<Span>)
    ensures prims == [] ==> r == "" && spans == []
    ensures prims != [] ==> spans != [] && r == Join(" ", RenderAll(spans))
    ensures Canonical(spans)
    ensures Flatten(spans) == Sort(prims)
    ensures ExpandGroup(r) == Some(Sort(prims))
  {
    if prims == [] {
      return "", [];
    }
    var ranges;
    ranges, spans := Runs(Sort(prims));
    r := Join(" ", ranges);
    RenderedGroupExpands(spans);
  }

  /** The loop of `_prims_to_group_string` over the sorted numbers: the runs it
      closes, rendered and as spans. */
  method Runs(nums: seq<nat>) returns (ranges: seq<string>, spans: seq<Span>)
    requires nums != [] && Sorted(nums)
    ensures spans != [] && ranges == RenderAll(spans)
    ensures Canonical(spans)
    ensures Flatten(spans) == nums
  {
    ranges := [];
    spans := [];
    var start := nums[0];
    var end := start;
    var i := 1;
    assert nums[..1] == [start];
    while i < |nums|
      invariant 1 <= i <= |nums|
      invariant RunState(nums, i, spans, start, end)
      invariant ranges == RenderAll(spans)
    {
      var num := nums[i];
      if num == end + 1 {
        ExtendStep(nums, i, spans, start, end);
        end := num;
      } else {
        ranges := ranges + [CloseSpan(start, end)];
        CloseStep(nums, i, spans, start, end);
        spans := spans + [Span(start, end)];
        start := num;
        end := num;
      }
      i := i + 1;
    }
    Close(spans, start, end);
    ranges := ranges + [CloseSpan(start, end)];
    spans := spans + [Span(start, end)];
    assert nums[..|nums|] == nums;
  }

  /** What `Runs` keeps true after reading `nums[..i]`: the closed runs are
      canonical, the open run `start..end` ends at the last number read and
      cannot be merged into the last closed run, and together they spell out
      what was read. */
  predicate RunState(nums: seq<nat>, i: nat, spans: seq<Span>, start: nat, end: nat) {
    1 <= i <= |nums| && start <= end == nums[i - 1]
    && Canonical(spans)
    && (spans != [] ==> Last(spans).hi <= start && start != Last(spans).hi + 1)
    && Flatten(spans) + Expand(Span(start, end)) == nums[..i]
  }

  /** A number one above the current run extends it. */
  lemma ExtendStep(nums: seq<nat>, i: nat, spans: seq<Span>, start: nat, end: nat)
    requires i < |nums| && RunState(nums, i, spans, start, end) && nums[i] == end + 1
    ensures RunState(nums, i + 1, spans, start, nums[i])
  {
    ExtendFlattens(nums, i, spans, start, end);
  }

  lemma ExtendFlattens(nums: seq<nat>, i: nat, spans: seq<Span>, start: nat, end: nat)
    requires i < |nums| && start <= end && nums[i] == end + 1
    requires Flatten(spans) + Expand(Span(start, end)) == nums[..i]
    ensures Flatten(spans) + Expand(Span(start, nums[i])) == nums[..i + 1]
  {
    ExtendSpan(start, end);
    assert nums[..i + 1] == nums[..i] + [nums[i]];
    assert Flatten(spans) + Expand(Span(start, nums[i])) == (Flatten(spans) + Expand(Span(start, end))) + [nums[i]];
  }

  /** Any other number closes the current run and starts a new one. */
  lemma CloseStep(nums: seq<nat>, i: nat, spans: seq<Span>, start: nat, end: nat)
    requires i < |nums| && Sorted(nums) && RunState(nums, i, spans, start, end) && nums[i] != end + 1
    ensures RunState(nums, i + 1, spans + [Span(start, end)], nums[i], nums[i])
    ensures RenderAll(spans + [Span(start, end)]) == RenderAll(spans) + [CloseSpan(start, end)]
  {
    Close(spans, start, end);
    assert end <= nums[i] by {
      assert nums[i - 1] <= nums[i];
    }
    CloseFlattens(nums, i, spans, start, end);
    assert Last(spans + [Span(start, end)]) == Span(start, end);
  }

  lemma CloseFlattens(nums: seq<nat>, i: nat, spans: seq<Span>, start: nat, end: nat)
    requires i < |nums| && start <= end
    requires Flatten(spans) + Expand(Span(start, end)) == nums[..i]
    ensures Flatten(spans + [Span(start, end)]) + Expand(Span(nums[i], nums[i])) == nums[..i + 1]
  {
    FlattenSnoc(spans, Span(start, end));
    assert nums[..i + 1] == nums[..i] + [nums[i]];
    assert Expand(Span(nums[i], nums[i])) == [nums[i]];
  }

  /** The text the loop appends when a run ends. */
  function CloseSpan(start: nat, end: nat): (t: string)
    ensures t == RenderSpan(Span(start, end))
  {
    if start == end then NatToString(start) else NatToString(start) + "-" + NatToString(end)
  }

  /** Closing the current run keeps the loop's bookkeeping. */
  lemma Close(spans: seq<Span>, start: nat, end: nat)
    requires start <= end
    requires Canonical(spans)
    requires spans != [] ==> Last(spans).hi <= start && start != Last(spans).hi + 1
    ensures Canonical(spans + [Span(start, end)])
    ensures RenderAll(spans + [Span(start, end)]) == RenderAll(spans) + [CloseSpan(start, end)]
    ensures Flatten(spans + [Span(start, end)]) == Flatten(spans) + Expand(Span(start, end))
  {
    CanonicalSnoc(spans, Span(start, end));
    RenderAllSnoc(spans, Span(start, end));
    FlattenSnoc(spans, Span(start, end));
  }

  // ---------------------------------------------------------------------------
  // File names and paths

  /** The characters `_sanitize_filename` keeps: `str.isalnum`, space, `_`, `-`. */
  predicate FileNameChar(c: char) {
    IsAlnum(c) || c == ' ' || c == '_' || c == '-'
  }

  predicate IsUnderscore(c: char) {
    c == '_'
  }

  /** `_sanitize_filename`: drops every other character, turns spaces into
      underscores and strips underscores from both ends. */
  function SanitizeFilename(name: string): (r: string)
    ensures forall i :: 0 <= i < |r| ==> IsAlnum(r[i]) || r[i] == '_' || r[i] == '-'
    ensures r == [] || (r[0] != '_' && r[|r| - 1] != '_')
  {
    var kept := Filter(name, FileNameChar);
    var spaced := ReplaceChar(kept, ' ', '_');
    TrimShape(spaced, IsUnderscore);
    Trim(spaced, IsUnderscore)
  }

  /** Sanitising a sanitised name changes nothing. */
  lemma SanitizeIdempotent(name: string)
    ensures SanitizeFilename(SanitizeFilename(name)) == SanitizeFilename(name)
  {
    var s := SanitizeFilename(name);
    FilterAll(s, FileNameChar);
    assert ReplaceChar(s, ' ', '_') == s;
    TrimKeeps(s, IsUnderscore);
  }

  /** A name made only of letters, digits and inner `-`/`_` is kept as it is. */
  lemma SanitizeKeepsPlainNames(name: string)
    requires forall i :: 0 <= i < |name| ==> IsAlnum(name[i]) || name[i] == '_' || name[i] == '-'
    requires name == [] || (name[0] != '_' && name[|name| - 1] != '_')
    ensures SanitizeFilename(name) == name
  {
    FilterAll(name, FileNameChar);
    assert ReplaceChar(name, ' ', '_') == name;
    TrimKeeps(name, IsUnderscore);
  }

  /** A sanitised name never contains a path separator. */
  lemma SanitizeHasNoSlash(name: string)
    ensures '/' !in SanitizeFilename(name)
  {
    var r := SanitizeFilename(name);
    forall i | 0 <= i < |r|
      ensures r[i] != '/'
    {
      assert IsAlnum(r[i]) || r[i] == '_' || r[i] == '-';
    }
  }

  const LibraryNotSet := "PF_ASSET_LIBRARY environment variable not set"

  /** `<library>/<category>/<name>.usd` with sanitised category and name. */
  function AssetPath(library: string, name: string, category: string): string {
    Paths.Join(Paths.Join(library, SanitizeFilename(category)), SanitizeFilename(name) + ".usd")
  }

  /** The asset file `export_asset` writes; fails when the library variable is
      unset or empty. */
  function AssetFile(library: Option<string>, name: string, category: string): (r: Result<string>)
    ensures r.Err? <==> library.None? || library.value == ""
    ensures r.Err? ==> r.error == LibraryNotSet
    ensures r.Ok? ==> r.value == AssetPath(library.value, name, category)
  {
    var lib := if library.Some? then library.value else "";
    if lib == "" then Err(LibraryNotSet) else Ok(AssetPath(lib, name, category))
  }

  /** The exported file is named after the sanitised asset name. */
  lemma AssetFileName(library: string, name: string, category: string)
    ensures Paths.BaseName(AssetPath(library, name, category)) == SanitizeFilename(name) + ".usd"
  {
    var stem := SanitizeFilename(name);
    var file := stem + ".usd";
    var dir := Paths.Join(library, SanitizeFilename(category));
    SanitizeHasNoSlash(name);
    NoSlashWithSuffix(stem);
    assert AssetPath(library, name, category) == Paths.Join(dir, file);
    Paths.BaseNameOfJoin(dir, file);
  }

  lemma NoSlashWithSuffix(stem: string)
    requires '/' !in stem
    ensures '/' !in stem + ".usd"
  {
    var file := stem + ".usd";
    assert forall i :: 0 <= i < |file| ==> file[i] != '/' by {
      assert forall i :: |stem| <= i < |file| ==> file[i] == ".usd"[i - |stem|];
    }
  }
}

=== FILE: ldraw.dfy ===
/** The LDraw importer's decisions: polygon winding under the BFC meta commands,
    how a `.dat` file's lines update the meta state and pull in sub-files, how
    library files are keyed, and how referenced names become brick IDs. Matrices,
    coordinates and the file system are inputs. */
module LDraw {
  import opened Common
  import opened Text
  import Paths

  // ---------------------------------------------------------------------------
  // Winding

  /** The meta state `parse_dat` carries: the file's declared winding (`cw`), the
      accumulated inversion, the pending `INVERTNEXT`, and the name stamped on
      polygons. An absent key reads as false or empty. */
  datatype Meta = Meta(cw: bool, invert: bool, invertnext: bool, pieceName: string)

  /** The state the top-level call starts from. */
  const RootMeta: Meta := Meta(true, false, false, "")

  /** `draw_poly`'s decision to reverse the vertex order: counter-clockwise
      geometry that is not inverted, or clockwise geometry that is, gets
      reversed; a pending `INVERTNEXT` and a mirroring matrix each flip the
      decision. */
  function Reversed(meta: Meta, detNegative: bool): (rev: bool)
    ensures rev <==> ((meta.cw == meta.invert) != meta.invertnext) != detNegative
  {
    var rev := (meta.cw && meta.invert) || (!meta.cw && !meta.invert);
    var rev := if meta.invertnext then !rev else rev;
    if detNegative then !rev else rev
  }

  /** Each of the four inputs flips the winding on its own. */
  lemma WindingFlips(meta: Meta, detNegative: bool)
    ensures Reversed(meta.(cw := !meta.cw), detNegative) == !Reversed(meta, detNegative)
    ensures Reversed(meta.(invert := !meta.invert), detNegative) == !Reversed(meta, detNegative)
    ensures Reversed(meta.(invertnext := !meta.invertnext), detNegative) == !Reversed(meta, detNegative)
    ensures Reversed(meta, !detNegative) == !Reversed(meta, detNegative)
  {
  }

  /** The order in which `draw_poly` adds the vertices. */
  function DrawOrder<V>(coords: seq<V>, rev: bool): (r: seq<V>)
    ensures |r| == |coords|
    ensures forall i :: 0 <= i < |r| ==> r[i] == (if rev then coords[|coords| - 1 - i] else coords[i])
  {
    if rev then seq(|coords|, i requires 0 <= i < |coords| => coords[|coords| - 1 - i]) else coords
  }

  /** Reversing twice restores the order. */
  lemma DrawOrderTwice<V>(coords: seq<V>)
    ensures DrawOrder(DrawOrder(coords, true), true) == coords
  {
  }

  // ---------------------------------------------------------------------------
  // Entering a file

  /** The start of `parse_dat` as written: a missing piece name becomes `root`,
      and a pending `INVERTNEXT` sets the inversion of the copied state. */
  function EnterAsWritten(meta: Meta): (r: Meta)
    ensures r.invertnext == false && r.cw == meta.cw
    ensures r.invert == (meta.invert || meta.invertnext)
  {
    var m := if meta.pieceName == "" then meta.(pieceName := "root") else meta;
    if m.invertnext then m.(invertnext := false, invert := true) else m
  }

  /** With the state already inverted, `INVERTNEXT` makes no difference to the
      sub-file as written: the double inversion does not cancel. */
  lemma InvertNextLostWhenInverted(meta: Meta, detNegative: bool)
    requires meta.invert
    ensures Reversed(EnterAsWritten(meta.(invertnext := true)), detNegative)
         == Reversed(EnterAsWritten(meta.(invertnext := false)), detNegative)
  {
  }

  /** The counterexample in concrete terms: a clockwise sub-file reached
      through `INVERTNEXT` from an inverted file keeps its polygons reversed. */
  lemma InvertNextLostExample()
    ensures var outer := Meta(true, true, true, "a.dat");
      Reversed(EnterAsWritten(outer), false) == Reversed(EnterAsWritten(outer.(invertnext := false)), false)
  {
  }

  /** The start of `parse_dat` with the inversion accumulated as the BFC
      extension of the LDraw file format prescribes: `INVERTNEXT` toggles it. */
  function Enter(meta: Meta): (r: Meta)
    ensures r.invertnext == false && r.cw == meta.cw
    ensures r.invert == (meta.invert != meta.invertnext)
    ensures r.pieceName == (if meta.pieceName == "" then "root" else meta.pieceName)
  {
    var m := if meta.pieceName == "" then meta.(pieceName := "root") else meta;
    if m.invertnext then m.(invertnext := false, invert := !m.invert) else m
  }

  /** With the correction, `INVERTNEXT` always flips every polygon of the
      sub-file, however deeply the reference is nested. */
  lemma InvertNextFlipsSubfile(meta: Meta, detNegative: bool)
    ensures Reversed(Enter(meta.(invertnext := true)), detNegative)
         == !Reversed(Enter(meta.(invertnext := false)), detNegative)
  {
  }

  /** The correction changes nothing outside an already inverted state. */
  lemma EnterAgrees(meta: Meta)
    requires !meta.invert
    ensures Enter(meta) == EnterAsWritten(meta)
  {
  }

  /** Which of the two ways of entering a file a parse follows: the code as
      written, or the corrected, cumulative inversion. */
  datatype EntryRule = AsWritten | Corrected

  function EnterBy(rule: EntryRule, meta: Meta): Meta {
    match rule
    case AsWritten => EnterAsWritten(meta)
    case Corrected => Enter(meta)
  }

  // ---------------------------------------------------------------------------
  // Splitting a line

  predicate NoSpace(t: string) {
    forall k :: 0 <= k < |t| ==> !IsSpace(t[k])
  }

  /** Position of the first whitespace character, or the length. */
  function FirstSpace(s: string): (i: nat)
    ensures i <= |s| && NoSpace(s[..i]) && (i < |s| ==> IsSpace(s[i]))
  {
    if s == [] || IsSpace(s[0]) then 0
    else
      var i := 1 + FirstSpace(s[1..]);
      assert forall k :: 0 < k < i ==> s[..i][k] == s[1..][..i - 1][k - 1];
      i
  }

  /** Position just past the whitespace run starting at `i`. */
  function RunEnd(s: string, i: nat): (j: nat)
    requires i <= |s|
    ensures i <= j <= |s| && (j < |s| ==> !IsSpace(s[j]))
    decreases |s| - i
  {
    if i < |s| && IsSpace(s[i]) then RunEnd(s, i + 1) else i
  }

  /** `re.split(r'\s+', s)`: the pieces between whitespace runs. */
  function Tokens(s: string): (r: seq<string>)
    ensures |r| >= 1
    ensures forall i :: 0 <= i < |r| ==> NoSpace(r[i])
    decreases |s|
  {
    var i := FirstSpace(s);
    if i == |s| then
      assert s[..i] == s;
      [s]
    else [s[..i]] + Tokens(s[RunEnd(s, i)..])
  }

  /** A line without whitespace is one token. */
  lemma TokensOfWord(s: string)
    requires NoSpace(s)
    ensures Tokens(s) == [s]
  {
    var i := FirstSpace(s);
    assert i == |s|;
  }

  // ---------------------------------------------------------------------------
  // The lines of a `.dat` file

  /** A polygon `draw_poly` creates: closed unless it is a line (type 2), with
      its vertex count, whether the vertex order was reversed, and the piece name
      stamped on it. */
  datatype Poly = Poly(closed: bool, vertices: nat, reversed: bool, pieceName: string)

  /** What the importer gets from numpy and the host for a line's numbers: the
      sign of the determinant of the matrix `get_matrix` builds and the number of
      vectors `get_vectors` builds, or the error either raises. */
  datatype Numbers = Numbers(matrixSign: seq<string> -> Result<int>, vectors: seq<string> -> Result<nat>)

  /** Library files by key, each as its list of lines. */
  type Library = map<string, seq<string>>

  /** Lines starting with a newline (blank lines) or `5` (optional lines) are
      ignored. */
  predicate Skipped(line: string) {
    (|line| > 0 && line[0] == '\n') || (|line| > 0 && line[0] == '5')
  }

  /** The sign of a number. */
  function Sign(x: int): (s: int)
    ensures s == -1 || s == 0 || s == 1
    ensures s < 0 <==> x < 0
  {
    if x < 0 then -1 else if x > 0 then 1 else 0
  }

  /** The library key of a type-1 line's file name: backslashes become
      slashes, then lower case. */
  function RefKey(name: string): (k: string)
    ensures |k| == |name| && '\\' !in k
  {
    var k := Lower(ReplaceChar(name, '\\', '/'));
    assert forall i :: 0 <= i < |k| ==> k[i] != '\\';
    k
  }

  /** The meta command a line carries, read from its tokens: a `BFC` line with
      `INVERTNEXT` in third place sets the pending inversion; otherwise a `CCW`
      anywhere declares counter-clockwise winding. */
  function BfcMeta(meta: Meta, cmd: seq<string>): (r: Meta)
    requires |cmd| >= 3
    ensures r.pieceName == meta.pieceName && r.invert == meta.invert
    ensures cmd[2] == "INVERTNEXT" ==> r == meta.(invertnext := true)
    ensures cmd[2] != "INVERTNEXT" && "CCW" in cmd ==> r == meta.(cw := false)
    ensures cmd[2] != "INVERTNEXT" && "CCW" !in cmd ==> r == meta
  {
    if cmd[2] == "INVERTNEXT" then meta.(invertnext := true)
    else if "CCW" in cmd then meta.(cw := false)
    else meta
  }

  predicate IsBfc(cmd: seq<string>) {
    |cmd| >= 1 && cmd[0] == "0" && |cmd| > 1 && (cmd[1] == "BFC" || cmd[1] == "!Category")
  }

  predicate IsRef(cmd: seq<string>) {
    |cmd| >= 1 && cmd[0] == "1"
  }

  predicate IsDraw(cmd: seq<string>) {
    |cmd| >= 1 && (cmd[0] == "2" || cmd[0] == "3" || cmd[0] == "4")
  }

  /** The numbers of a type-1 line between the colour and the file name. */
  function MatrixTokens(cmd: seq<string>): seq<string> {
    if |cmd| >= 3 then cmd[2..|cmd| - 1] else []
  }

  /** The numbers of a drawing line after the colour. */
  function VectorTokens(cmd: seq<string>): seq<string> {
    if |cmd| >= 2 then cmd[2..] else []
  }

  /** The state the next line of the same file sees after a type-1 or drawing
      line: a type-1 line leaves its file name as the piece name for the rest of
      the file, and either kind consumes a pending `INVERTNEXT`. */
  function AfterLine(meta: Meta, cmd: seq<string>): (r: Meta)
    requires |cmd| >= 1 && (IsRef(cmd) || IsDraw(cmd))
    ensures !r.invertnext && r.cw == meta.cw && r.invert == meta.invert
    ensures IsRef(cmd) ==> r.pieceName == cmd[|cmd| - 1]
    ensures IsDraw(cmd) ==> r.pieceName == meta.pieceName
  {
    if IsRef(cmd) then meta.(pieceName := cmd[|cmd| - 1], invertnext := false)
    else meta.(invertnext := false)
  }

  /** Lines without a type-1 reference. */
  predicate NoRefs(lines: seq<string>) {
    forall i :: 0 <= i < |lines| ==> Skipped(lines[i]) || !IsRef(Tokens(Strip(lines[i])))
  }

  lemma NoRefsTail(lines: seq<string>)
    requires lines != []
    ensures NoRefs(lines) ==> NoRefs(lines[1..])
  {
    assert forall i :: 0 <= i < |lines[1..]| ==> lines[1..][i] == lines[i + 1];
  }

  /** `parse_dat` on the remaining lines of a file. A sub-file is entered under
      `rule` with the state (piece name set), the product of the matrices, and
      one unit less of `fuel`, which stands for the interpreter's recursion
      limit. A `BFC` line without a third token raises `IndexError`, an unknown
      file raises `KeyError`, and numeric errors propagate. Only a reference
      renames the piece, so a file without references stamps every polygon with
      the name it was entered with. */
  function ParseLines(lib: Library, num: Numbers, rule: EntryRule, lines: seq<string>, meta: Meta, sign: int, fuel: nat): (r: Result<seq<Poly>>)
    ensures lines == [] ==> r == Ok([])
    decreases fuel, |lines|
  {
    if lines == [] then Ok([])
    else
      var tail := lines[1..];
      if Skipped(lines[0]) then ParseLines(lib, num, rule, tail, meta, sign, fuel)
      else
        var cmd := Tokens(Strip(lines[0]));
        if IsBfc(cmd) then
          if cmd[1] == "BFC" then
            if |cmd| < 3 then Err("IndexError: list index out of range")
            else ParseLines(lib, num, rule, tail, BfcMeta(meta, cmd), sign, fuel)
          else ParseLines(lib, num, rule, tail, meta, sign, fuel)
        else if IsRef(cmd) then
          var key := RefKey(cmd[|cmd| - 1]);
          var lineSign :- num.matrixSign(MatrixTokens(cmd));
          var named := meta.(pieceName := cmd[|cmd| - 1]);
          if key !in lib then Err("KeyError: '" + key + "'")
          else if fuel == 0 then Err("RecursionError: maximum recursion depth exceeded")
          else
            var sub :- ParseDat(lib, num, rule, lib[key], named, Sign(lineSign) * sign, fuel - 1);
            var rest :- ParseLines(lib, num, rule, tail, AfterLine(meta, cmd), sign, fuel);
            Ok(sub + rest)
        else if IsDraw(cmd) then
          var count :- num.vectors(VectorTokens(cmd));
          var poly := Poly(cmd[0] != "2", count, Reversed(meta, sign < 0), meta.pieceName);
          var rest :- ParseLines(lib, num, rule, tail, AfterLine(meta, cmd), sign, fuel);
          Ok([poly] + rest)
        else ParseLines(lib, num, rule, tail, meta, sign, fuel)
  }

  /** Every polygon carries the given name. */
  predicate AllNamed(polys: seq<Poly>, name: string) {
    polys == [] || (polys[0].pieceName == name && AllNamed(polys[1..], name))
  }

  /** `AllNamed` holds exactly when each polygon carries the name. */
  lemma {:induction false} AllNamedIff(polys: seq<Poly>, name: string)
    ensures AllNamed(polys, name) <==> forall i :: 0 <= i < |polys| ==> polys[i].pieceName == name
  {
    if polys != [] {
      AllNamedIff(polys[1..], name);
      assert forall i :: 0 < i < |polys| ==> polys[i] == polys[1..][i - 1];
    }
  }

  lemma AllNamedCons(p: Poly, rest: seq<Poly>, name: string)
    requires p.pieceName == name && AllNamed(rest, name)
    ensures AllNamed([p] + rest, name)
  {
    assert ([p] + rest)[1..] == rest;
  }

  /** Without references every polygon of a file carries the name it was read
      under. */
  lemma {:induction false} NoRefsKeepsName(lib: Library, num: Numbers, rule: EntryRule, lines: seq<string>, meta: Meta, sign: int, fuel: nat)
    requires NoRefs(lines)
    ensures var r := ParseLines(lib, num, rule, lines, meta, sign, fuel);
      r.Ok? ==> AllNamed(r.value, meta.pieceName)
    decreases |lines|, 1
  {
    if lines != [] {
      NoRefsTail(lines);
      if Skipped(lines[0]) {
        NoRefsKeepsName(lib, num, rule, lines[1..], meta, sign, fuel);
      } else {
        NoRefsKeepsNameAtCommand(lib, num, rule, lines, meta, sign, fuel);
      }
    }
  }

  /** The step of the above for a line that is read as a command. */
  lemma {:induction false} NoRefsKeepsNameAtCommand(lib: Library, num: Numbers, rule: EntryRule, lines: seq<string>, meta: Meta, sign: int, fuel: nat)
    requires lines != [] && !Skipped(lines[0]) && NoRefs(lines)
    ensures var r := ParseLines(lib, num, rule, lines, meta, sign, fuel);
      r.Ok? ==> AllNamed(r.value, meta.pieceName)
    decreases |lines|, 0
  {
    var tail := lines[1..];
    NoRefsTail(lines);
    var cmd := Tokens(Strip(lines[0]));
    assert !IsRef(cmd);
    if IsBfc(cmd) && cmd[1] == "BFC" {
      if |cmd| >= 3 {
        BfcLineOutline(lib, num, rule, lines, meta, sign, fuel);
        NoRefsKeepsName(lib, num, rule, tail, BfcMeta(meta, cmd), sign, fuel);
      } else {
        ShortBfcFails(lib, num, rule, lines, meta, sign, fuel);
      }
    } else if !IsBfc(cmd) && IsDraw(cmd) {
      if num.vectors(VectorTokens(cmd)).Ok? {
        NoRefsKeepsName(lib, num, rule, tail, AfterLine(meta, cmd), sign, fuel);
        DrawLineKeepsName(lib, num, rule, lines, meta, sign, fuel);
      } else {
        DrawLineFails(lib, num, rule, lines, meta, sign, fuel);
      }
    } else {
      PassLineOutline(lib, num, rule, lines, meta, sign, fuel);
      NoRefsKeepsName(lib, num, rule, tail, meta, sign, fuel);
    }
  }

  /** A drawing line stamps its polygon with the current name, in front of the
      rest of the file. */
  lemma DrawLineKeepsName(lib: Library, num: Numbers, rule: EntryRule, lines: seq<string>, meta: Meta, sign: int, fuel: nat)
    requires lines != [] && !Skipped(lines[0])
    requires var cmd := Tokens(Strip(lines[0])); IsDraw(cmd) && num.vectors(VectorTokens(cmd)).Ok?
    requires var rest := ParseLines(lib, num, rule, lines[1..], AfterLine(meta, Tokens(Strip(lines[0]))), sign, fuel);
      rest.Ok? ==> AllNamed(rest.value, meta.pieceName)
    ensures var r := ParseLines(lib, num, rule, lines, meta, sign, fuel);
      r.Ok? ==> AllNamed(r.value, meta.pieceName)
  {
    var cmd := Tokens(Strip(lines[0]));
    DrawLineOutline(lib, num, rule, lines, meta, sign, fuel);
    var rest := ParseLines(lib, num, rule, lines[1..], AfterLine(meta, cmd), sign, fuel);
    if rest.Ok? {
      var poly := Poly(cmd[0] != "2", num.vectors(VectorTokens(cmd)).value, Reversed(meta, sign < 0), meta.pieceName);
      AllNamedCons(poly, rest.value, meta.pieceName);
    }
  }

  /** `parse_dat` on a whole file: enter it under `rule`, then read its lines. */
  function ParseDat(lib: Library, num: Numbers, rule: EntryRule, lines: seq<string>, meta: Meta, sign: int, fuel: nat): (r: Result<seq<Poly>>)
    ensures lines == [] ==> r == Ok([])
    decreases fuel, |lines| + 1
  {
    ParseLines(lib, num, rule, lines, EnterBy(rule, meta), sign, fuel)
  }

  /** A file without references entered unnamed stamps every polygon `root`. */
  lemma NoRefsDatName(lib: Library, num: Numbers, rule: EntryRule, lines: seq<string>, meta: Meta, sign: int, fuel: nat)
    requires NoRefs(lines)
    ensures var r := ParseDat(lib, num, rule, lines, meta, sign, fuel);
      r.Ok? ==> AllNamed(r.value, if meta.pieceName == "" then "root" else meta.pieceName)
  {
    var entered := EnterBy(rule, meta);
    assert entered.pieceName == (if meta.pieceName == "" then "root" else meta.pieceName);
    NoRefsKeepsName(lib, num, rule, lines, entered, sign, fuel);
  }

  /** The geometry of `import_dat` as written: the file read from the root state,
      with the Y axis flipped (a mirroring matrix) when `yUp` is set. */
  function ImportDatPolys(lib: Library, num: Numbers, lines: seq<string>, yUp: bool, fuel: nat): (r: Result<seq<Poly>>)
    ensures lines == [] ==> r == Ok([])
    ensures r.Ok? && NoRefs(lines) ==> AllNamed(r.value, "root")
  {
    var sign := if yUp then -1 else 1;
    if NoRefs(lines) then
      NoRefsDatName(lib, num, AsWritten, lines, RootMeta, sign, fuel);
      ParseDat(lib, num, AsWritten, lines, RootMeta, sign, fuel)
    else ParseDat(lib, num, AsWritten, lines, RootMeta, sign, fuel)
  }

  /** The same import with sub-files entered under the corrected rule. */
  function ImportDatPolysCorrected(lib: Library, num: Numbers, lines: seq<string>, yUp: bool, fuel: nat): (r: Result<seq<Poly>>)
    ensures lines == [] ==> r == Ok([])
    ensures r.Ok? && NoRefs(lines) ==> AllNamed(r.value, "root")
  {
    var sign := if yUp then -1 else 1;
    if NoRefs(lines) then
      NoRefsDatName(lib, num, Corrected, lines, RootMeta, sign, fuel);
      ParseDat(lib, num, Corrected, lines, RootMeta, sign, fuel)
    else ParseDat(lib, num, Corrected, lines, RootMeta, sign, fuel)
  }

  /** A drawing line right after `BFC INVERTNEXT` is drawn with the opposite
      winding of the same line without it, and the line after it sees no pending
      inversion. */
  lemma InvertNextAppliesOnce(lib: Library, num: Numbers, rule: EntryRule, draw: string, rest: seq<string>, meta: Meta, sign: int, fuel: nat)
    requires !meta.invertnext && !Skipped(draw)
    requires var cmd := Tokens(Strip(draw)); IsDraw(cmd) && num.vectors(VectorTokens(cmd)).Ok?
    requires ParseLines(lib, num, rule, [draw] + rest, meta, sign, fuel).Ok?
    ensures var cmd := Tokens(Strip(draw));
      var flagged := ParseLines(lib, num, rule, [draw] + rest, meta.(invertnext := true), sign, fuel);
      var plain := ParseLines(lib, num, rule, [draw] + rest, meta, sign, fuel);
      && flagged.Ok? && |flagged.value| >= 1 && |plain.value| >= 1
      && flagged.value[0].reversed == !plain.value[0].reversed
      && flagged.value[1..] == plain.value[1..]
  {
    var cmd := Tokens(Strip(draw));
    var lines := [draw] + rest;
    assert lines[0] == draw && lines[1..] == rest;
    var flaggedMeta := meta.(invertnext := true);
    assert AfterLine(flaggedMeta, cmd) == AfterLine(meta, cmd);
    var tail := ParseLines(lib, num, rule, rest, AfterLine(meta, cmd), sign, fuel);
    DrawLineOutline(lib, num, rule, lines, meta, sign, fuel);
    DrawLineOutline(lib, num, rule, lines, flaggedMeta, sign, fuel);
    assert tail.Ok?;
    var count := num.vectors(VectorTokens(cmd)).value;
    var plain := Poly(cmd[0] != "2", count, Reversed(meta, sign < 0), meta.pieceName);
    var flagged := Poly(cmd[0] != "2", count, Reversed(flaggedMeta, sign < 0), meta.pieceName);
    assert ParseLines(lib, num, rule, lines, meta, sign, fuel) == Ok([plain] + tail.value);
    assert ParseLines(lib, num, rule, lines, flaggedMeta, sign, fuel) == Ok([flagged] + tail.value);
    assert ([flagged] + tail.value)[1..] == tail.value == ([plain] + tail.value)[1..];
  }

  /** A drawing line adds its polygon in front of what the rest of the file draws. */
  lemma DrawLineOutline(lib: Library, num: Numbers, rule: EntryRule, lines: seq<string>, meta: Meta, sign: int, fuel: nat)
    requires lines != [] && !Skipped(lines[0])
    requires var cmd := Tokens(Strip(lines[0])); IsDraw(cmd) && num.vectors(VectorTokens(cmd)).Ok?
    ensures var cmd := Tokens(Strip(lines[0]));
      var poly := Poly(cmd[0] != "2", num.vectors(VectorTokens(cmd)).value, Reversed(meta, sign < 0), meta.pieceName);
      var rest := ParseLines(lib, num, rule, lines[1..], AfterLine(meta, cmd), sign, fuel);
      ParseLines(lib, num, rule, lines, meta, sign, fuel)
        == if rest.Err? then Err(rest.error) else Ok([poly] + rest.value)
  {
    var cmd := Tokens(Strip(lines[0]));
    assert !IsBfc(cmd) && !IsRef(cmd);
  }

  /** A drawing line whose numbers do not parse stops the file with that error. */
  lemma DrawLineFails(lib: Library, num: Numbers, rule: EntryRule, lines: seq<string>, meta: Meta, sign: int, fuel: nat)
    requires lines != [] && !Skipped(lines[0])
    requires var cmd := Tokens(Strip(lines[0])); IsDraw(cmd) && num.vectors(VectorTokens(cmd)).Err?
    ensures ParseLines(lib, num, rule, lines, meta, sign, fuel) == Err(num.vectors(VectorTokens(Tokens(Strip(lines[0])))).error)
  {
    var cmd := Tokens(Strip(lines[0]));
    assert !IsBfc(cmd) && !IsRef(cmd);
  }

  /** The same failure whatever the rule and the fuel. */
  lemma DrawFailsSame(lib: Library, num: Numbers, rule: EntryRule, rule': EntryRule, lines: seq<string>, meta: Meta, sign: int, fuel: nat, fuel': nat)
    requires lines != [] && !Skipped(lines[0])
    requires var cmd := Tokens(Strip(lines[0])); IsDraw(cmd) && num.vectors(VectorTokens(cmd)).Err?
    ensures ParseLines(lib, num, rule, lines, meta, sign, fuel) == ParseLines(lib, num, rule', lines, meta, sign, fuel')
  {
    DrawLineFails(lib, num, rule, lines, meta, sign, fuel);
    DrawLineFails(lib, num, rule', lines, meta, sign, fuel');
  }

  /** A meta line other than `BFC`, or a line of an unknown type, is passed over. */
  lemma PassLineOutline(lib: Library, num: Numbers, rule: EntryRule, lines: seq<string>, meta: Meta, sign: int, fuel: nat)
    requires lines != [] && !Skipped(lines[0])
    requires var cmd := Tokens(Strip(lines[0]));
      (IsBfc(cmd) && cmd[1] != "BFC") || (!IsBfc(cmd) && !IsRef(cmd) && !IsDraw(cmd))
    ensures ParseLines(lib, num, rule, lines, meta, sign, fuel) == ParseLines(lib, num, rule, lines[1..], meta, sign, fuel)
  {
  }

  /** A `BFC` line without a third word stops the file with an index error. */
  lemma ShortBfcFails(lib: Library, num: Numbers, rule: EntryRule, lines: seq<string>, meta: Meta, sign: int, fuel: nat)
    requires lines != [] && !Skipped(lines[0])
    requires var cmd := Tokens(Strip(lines[0])); IsBfc(cmd) && cmd[1] == "BFC" && |cmd| < 3
    ensures ParseLines(lib, num, rule, lines, meta, sign, fuel) == Err("IndexError: list index out of range")
  {
  }

  /** A word, one space and a text starting with a non-space: the word is the
      first token. */
  lemma TokensCons(w: string, rest: string)
    requires w != [] && NoSpace(w) && rest != [] && !IsSpace(rest[0])
    ensures Tokens(w + " " + rest) == [w] + Tokens(rest)
  {
    var s := w + " " + rest;
    assert s[..|w|] == w;
    assert s[|w|] == ' ';
    assert FirstSpace(s) == |w|;
    assert s[|w| + 1] == rest[0];
    assert RunEnd(s, |w|) == |w| + 1;
    assert s[|w| + 1..] == rest;
  }

  /** Three words separated by single spaces are three tokens. */
  lemma ThreeWords(a: string, b: string, c: string)
    requires a != [] && b != [] && c != [] && NoSpace(a) && NoSpace(b) && NoSpace(c)
    ensures Tokens(Strip(a + " " + b + " " + c)) == [a, b, c]
  {
    var line := a + " " + b + " " + c;
    assert line[0] == a[0] && line[|line| - 1] == c[|c| - 1];
    StrippedIff(line);
    assert line == a + " " + (b + " " + c);
    TokensCons(a, b + " " + c);
    TokensCons(b, c);
    TokensOfWord(c);
  }

  /** Two words separated by a single space are two tokens. */
  lemma TwoWords(a: string, b: string)
    requires a != [] && b != [] && NoSpace(a) && NoSpace(b)
    ensures Tokens(Strip(a + " " + b)) == [a, b]
  {
    var line := a + " " + b;
    assert line[0] == a[0] && line[|line| - 1] == b[|b| - 1];
    StrippedIff(line);
    TokensCons(a, b);
    TokensOfWord(b);
  }

  /** The line `0 BFC INVERTNEXT`, as `parse_dat` splits it. */
  lemma InvertNextTokens()
    ensures Tokens(Strip("0 BFC INVERTNEXT")) == ["0", "BFC", "INVERTNEXT"]
  {
    assert "0 BFC INVERTNEXT" == "0" + " " + "BFC" + " " + "INVERTNEXT";
    ThreeWords("0", "BFC", "INVERTNEXT");
  }

  /** A `BFC` line with a third token updates the state for the rest of the file. */
  lemma BfcLineOutline(lib: Library, num: Numbers, rule: EntryRule, lines: seq<string>, meta: Meta, sign: int, fuel: nat)
    requires lines != [] && !Skipped(lines[0])
    requires var cmd := Tokens(Strip(lines[0])); |cmd| >= 3 && cmd[0] == "0" && cmd[1] == "BFC"
    ensures ParseLines(lib, num, rule, lines, meta, sign, fuel)
         == ParseLines(lib, num, rule, lines[1..], BfcMeta(meta, Tokens(Strip(lines[0]))), sign, fuel)
  {
  }

  /** The finding on whole files: in a file entered while already inverted, a
      pending `INVERTNEXT` changes nothing the code as written draws. */
  lemma InvertNextIgnoredAsWritten(lib: Library, num: Numbers, lines: seq<string>, meta: Meta, sign: int, fuel: nat)
    requires meta.invert
    ensures ParseDat(lib, num, AsWritten, lines, meta.(invertnext := true), sign, fuel)
         == ParseDat(lib, num, AsWritten, lines, meta.(invertnext := false), sign, fuel)
  {
    assert EnterAsWritten(meta.(invertnext := true)) == EnterAsWritten(meta.(invertnext := false));
  }

  /** With the correction a pending `INVERTNEXT` reads the whole file with the
      inversion toggled, whatever state it is entered with. */
  lemma InvertNextTogglesFile(lib: Library, num: Numbers, lines: seq<string>, meta: Meta, sign: int, fuel: nat)
    ensures var plain := Enter(meta.(invertnext := false));
      ParseDat(lib, num, Corrected, lines, meta.(invertnext := true), sign, fuel)
        == ParseLines(lib, num, Corrected, lines, plain.(invert := !plain.invert), sign, fuel)
  {
    assert Enter(meta.(invertnext := true)) == Enter(meta.(invertnext := false)).(invert := !meta.invert);
  }

  /** Without references neither the recursion limit nor the rule for entering
      sub-files plays a part. */
  lemma {:induction false} FuelIrrelevantWithoutRefs(lib: Library, num: Numbers, rule: EntryRule, rule': EntryRule, lines: seq<string>, meta: Meta, sign: int, fuel: nat, fuel': nat)
    requires NoRefs(lines)
    ensures ParseLines(lib, num, rule, lines, meta, sign, fuel) == ParseLines(lib, num, rule', lines, meta, sign, fuel')
    decreases |lines|, 1
  {
    if lines != [] {
      NoRefsTail(lines);
      if Skipped(lines[0]) {
        FuelIrrelevantWithoutRefs(lib, num, rule, rule', lines[1..], meta, sign, fuel, fuel');
      } else {
        FuelIrrelevantAtCommand(lib, num, rule, rule', lines, meta, sign, fuel, fuel');
      }
    }
  }

  /** The step of the above for a line that is read as a command. */
  lemma {:induction false} FuelIrrelevantAtCommand(lib: Library, num: Numbers, rule: EntryRule, rule': EntryRule, lines: seq<string>, meta: Meta, sign: int, fuel: nat, fuel': nat)
    requires lines != [] && !Skipped(lines[0]) && NoRefs(lines)
    ensures ParseLines(lib, num, rule, lines, meta, sign, fuel) == ParseLines(lib, num, rule', lines, meta, sign, fuel')
    decreases |lines|, 0
  {
    var tail := lines[1..];
    NoRefsTail(lines);
    var cmd := Tokens(Strip(lines[0]));
    assert !IsRef(cmd);
    if IsBfc(cmd) && cmd[1] == "BFC" {
      if |cmd| >= 3 {
        BfcLineOutline(lib, num, rule, lines, meta, sign, fuel);
        BfcLineOutline(lib, num, rule', lines, meta, sign, fuel');
        FuelIrrelevantWithoutRefs(lib, num, rule, rule', tail, BfcMeta(meta, cmd), sign, fuel, fuel');
      } else {
        ShortBfcFails(lib, num, rule, lines, meta, sign, fuel);
        ShortBfcFails(lib, num, rule', lines, meta, sign, fuel');
      }
    } else if !IsBfc(cmd) && IsDraw(cmd) {
      if num.vectors(VectorTokens(cmd)).Ok? {
        DrawLineOutline(lib, num, rule, lines, meta, sign, fuel);
        DrawLineOutline(lib, num, rule', lines, meta, sign, fuel');
        FuelIrrelevantWithoutRefs(lib, num, rule, rule', tail, AfterLine(meta, cmd), sign, fuel, fuel');
      } else {
        DrawFailsSame(lib, num, rule, rule', lines, meta, sign, fuel, fuel');
      }
    } else {
      PassLineOutline(lib, num, rule, lines, meta, sign, fuel);
      PassLineOutline(lib, num, rule', lines, meta, sign, fuel');
      FuelIrrelevantWithoutRefs(lib, num, rule, rule', tail, meta, sign, fuel, fuel');
    }
  }

  // ---------------------------------------------------------------------------
  // Library keys

  /** One file found while scanning the library: the prefix of its directory
      (empty for the top directories, the sub-directory name otherwise), its
      file name and its path. */
  datatype Found = Found(prefix: string, name: string, path: string)

  /** `get_files`' key for a file: `prefix/name` in lower case, or the lower-case
      name alone for an empty prefix. */
  function FileKey(f: Found): (k: string)
    ensures f.prefix == "" ==> k == Lower(f.name)
    ensures f.prefix != "" ==> |k| == |f.prefix| + 1 + |f.name| && k[|f.prefix|] == '/'
    ensures f.prefix != "" ==> k[..|f.prefix|] == f.prefix && k[|f.prefix| + 1..] == Lower(f.name)
  {
    if f.prefix != "" then f.prefix + "/" + Lower(f.name) else Lower(f.name)
  }

  /** A type-1 line naming `prefix\name` (or a bare `name`) looks up exactly the
      key `get_files` registered the file under, so `FILES[newFile]` finds it.
      The prefix must already be lower case: registration keeps the prefix as
      given while the lookup lowers the whole reference (`UpperPrefixMissed`). */
  lemma RefKeyFindsFileKey(prefix: string, name: string, path: string)
    requires '\\' !in prefix && '\\' !in name
    requires Lower(prefix) == prefix
    ensures prefix != "" ==> RefKey(prefix + "\\" + name) == FileKey(Found(prefix, name, path))
    ensures RefKey(name) == FileKey(Found("", name, path))
  {
    assert forall i :: 0 <= i < |name| ==> ReplaceChar(name, '\\', '/')[i] == name[i];
    assert ReplaceChar(name, '\\', '/') == name;
    if prefix != "" {
      var ref := prefix + "\\" + name;
      var k := RefKey(ref);
      var f := FileKey(Found(prefix, name, path));
      forall i | 0 <= i < |k|
        ensures k[i] == f[i]
      {
        if i < |prefix| {
          assert ref[i] == prefix[i];
          assert Lower(prefix)[i] == LowerChar(prefix[i]);
          assert f[..|prefix|][i] == prefix[i];
        } else if i == |prefix| {
          assert ref[i] == '\\';
        } else {
          assert ref[i] == name[i - |prefix| - 1];
          assert f[|prefix| + 1..][i - |prefix| - 1] == Lower(name)[i - |prefix| - 1];
        }
      }
    }
  }

  /** A sub-directory prefix with an upper-case letter is never found: `S\a`
      looks up `s/a`, but the file was registered as `S/a`. */
  lemma UpperPrefixMissed(path: string)
    ensures RefKey("S\\a") != FileKey(Found("S", "a", path))
  {
    assert RefKey("S\\a")[0] == 's';
    assert FileKey(Found("S", "a", path))[0] == 'S';
  }

  /** The keys of the scanned files. */
  function KeysOf(found: seq<Found>): (r: set<string>)
    ensures forall i :: 0 <= i < |found| ==> FileKey(found[i]) in r
    decreases |found|
  {
    if found == [] then {}
    else
      var rest := KeysOf(found[1..]);
      assert forall i :: 1 <= i < |found| ==> found[i] == found[1..][i - 1];
      {FileKey(found[0])} + rest
  }

  /** `get_files` over the scanned files in order: a key already registered keeps
      its path, so the first file for a key wins, also across calls. */
  function RegisterFiles(files: map<string, string>, found: seq<Found>): (r: map<string, string>)
    ensures forall k :: k in files ==> k in r && r[k] == files[k]
    ensures r.Keys == files.Keys + KeysOf(found)
    decreases |found|
  {
    if found == [] then files
    else
      var k := FileKey(found[0]);
      var next := if k in files then files else files[k := found[0].path];
      RegisterFiles(next, found[1..])
  }

  /** A file whose key is neither registered before nor taken by an earlier
      file is registered under its own path. */
  lemma {:induction false} RegisterFilesFirstWins(files: map<string, string>, found: seq<Found>, i: nat)
    requires i < |found|
    requires FileKey(found[i]) !in files && FileKey(found[i]) !in KeysOf(found[..i])
    ensures RegisterFiles(files, found)[FileKey(found[i])] == found[i].path
    decreases |found|
  {
    var k := FileKey(found[0]);
    var next := if k in files then files else files[k := found[0].path];
    assert RegisterFiles(files, found) == RegisterFiles(next, found[1..]);
    if i > 0 {
      var before := found[..i];
      assert before[0] == found[0] && before[1..] == found[1..][..i - 1];
      assert KeysOf(before) == {k} + KeysOf(found[1..][..i - 1]);
      assert found[1..][i - 1] == found[i];
      RegisterFilesFirstWins(next, found[1..], i - 1);
    }
  }

  // ---------------------------------------------------------------------------
  // Names

  /** The last element of a non-empty list. */
  function LastOf(parts: seq<string>): string
    requires |parts| >= 1
  {
    parts[|parts| - 1]
  }

  /** The file name of a referenced file in a `.ldr` model: the last component
      after splitting on backslashes and then slashes, in lower case. */
  function RefName(ref: string): (r: string)
    ensures '/' !in r && '\\' !in r
  {
    var a := Split(ref, '\\');
    var b := Split(LastOf(a), '/');
    var name := LastOf(b);
    PieceKeepsAbsence(LastOf(a), '/', '\\');
    var r := Lower(name);
    assert forall i :: 0 <= i < |r| ==> r[i] == LowerChar(name[i]);
    r
  }

  /** The pieces of a split lack any character the whole lacks. */
  lemma PieceKeepsAbsence(s: string, sep: char, c: char)
    requires c !in s
    ensures c !in LastOf(Split(s, sep))
  {
    var b := Split(s, sep);
    if c in LastOf(b) {
      JoinKeepsChars([sep], b, |b| - 1, c);
    }
  }

  /** A plain name keeps its lower-cased self. */
  lemma RefNameOfPlain(name: string)
    requires '/' !in name && '\\' !in name
    ensures RefName(name) == Lower(name)
  {
    SplitNoSep(name, '\\');
    SplitNoSep(name, '/');
  }

  lemma SplitNoSep(s: string, sep: char)
    requires sep !in s
    ensures Split(s, sep) == [s]
  {
  }

  /** A name in a directory, with either separator, has the same reference name
      as the name alone. */
  lemma RefNameInDirectory(dir: string, name: string)
    requires '/' !in name && '\\' !in name && '\\' !in dir
    ensures RefName(dir + "/" + name) == Lower(name)
  {
    var s := dir + "/" + name;
    SplitNoSep(s, '\\');
    var b := Split(s, '/');
    assert Join(['/'], b) == s;
    SplitLast(dir, name, '/');
  }

  /** The last piece of `dir + sep + name` is `name` when `name` has no `sep`. */
  lemma SplitLast(dir: string, name: string, sep: char)
    requires sep !in name
    ensures LastOf(Split(dir + [sep] + name, sep)) == name
  {
    var p := Split(dir, sep);
    var q := p + [name];
    JoinAfter(p, name, sep, dir);
    NoSepParts(p, name, sep);
    SplitJoin(q, sep);
  }

  lemma JoinAfter(p: seq<string>, name: string, sep: char, dir: string)
    requires |p| >= 1 && Join([sep], p) == dir
    ensures Join([sep], p + [name]) == dir + [sep] + name
  {
    JoinSnoc([sep], p, name);
  }

  lemma NoSepParts(p: seq<string>, name: string, sep: char)
    requires sep !in name && forall i :: 0 <= i < |p| ==> sep !in p[i]
    ensures forall i :: 0 <= i < |p + [name]| ==> sep !in (p + [name])[i]
  {
    forall i | 0 <= i < |p + [name]|
      ensures sep !in (p + [name])[i]
    {
      if i < |p| {
        assert (p + [name])[i] == p[i];
      }
    }
  }

  lemma IndexOfFirst(s: string, c: char, i: nat)
    requires i < |s| && s[i] == c && c !in s[..i]
    ensures IndexOf(s, c) == i
  {
  }

  lemma PrefixAt(s: string, n: nat, k: nat)
    requires k < n <= |s|
    ensures s[k] in s[..n]
  {
    assert s[..n][k] == s[k];
  }

  /** The text before the first `.`, or everything without one. */
  function BeforeDot(name: string): (r: string)
    ensures '.' !in r && |r| <= |name| && r == name[..|r|]
  {
    var parts := Split(name, '.');
    if '.' in name then
      var i := IndexOf(name, '.');
      assert parts[0] == name[..i];
      name[..i]
    else name
  }

  /** `setup_ldr` and `import_ldr`'s brick ID: the brand, `_`, and the file name
      up to its first `.`. */
  function BrickID(brand: string, fileName: string): (r: string)
    ensures |r| > |brand| && r[..|brand| + 1] == brand + "_"
    ensures '.' !in r[|brand| + 1..]
  {
    var r := brand + "_" + BeforeDot(fileName);
    assert r[|brand| + 1..] == BeforeDot(fileName);
    r
  }

  /** `str.rfind`: the position of the last `c` in `s`, if there is one. */
  function LastIndexOf(s: string, c: char): (r: Option<nat>)
    ensures r.None? <==> c !in s
    ensures r.Some? ==> r.value < |s| && s[r.value] == c && c !in s[r.value + 1..]
    decreases |s|
  {
    if s == [] then None
    else if s[|s| - 1] == c then Some(|s| - 1)
    else
      var r := LastIndexOf(s[..|s| - 1], c);
      assert s == s[..|s| - 1] + [s[|s| - 1]];
      if r.Some? then
        assert s[r.value + 1..] == s[..|s| - 1][r.value + 1..] + [s[|s| - 1]];
        r
      else r
  }

  /** `pathlib`'s stem: the name without its suffix, where the suffix starts at
      the last `.` provided that dot is neither the first nor the last
      character; otherwise the whole name. */
  function Stem(name: string): (r: string)
    ensures |r| <= |name| && r == name[..|r|]
    ensures r != name ==> 0 < |r| < |name| - 1 && name[|r|] == '.' && '.' !in name[|r| + 1..]
  {
    match LastIndexOf(name, '.')
    case Some(i) => if 0 < i < |name| - 1 then name[..i] else name
    case None => name
  }

  /** A name ending in `.` is its own stem: the last dot is the final character. */
  lemma StemKeepsTrailingDot(name: string)
    requires name != [] && name[|name| - 1] == '.'
    ensures Stem(name) == name
  {
    var r := Stem(name);
    if r != name {
      assert false;
    }
  }

  /** A name starting with its only `.` is its own stem. */
  lemma StemKeepsLeadingDot(rest: string)
    requires '.' !in rest
    ensures Stem("." + rest) == "." + rest
  {
    var name := "." + rest;
    var r := Stem(name);
    if r != name {
      assert false;
    }
  }

  /** `import_dat`'s brick ID: the brand, `_`, and the stem of the file's name. */
  function DatBrickID(brand: string, path: string): (r: string)
    ensures |r| > |brand| && r[..|brand| + 1] == brand + "_"
  {
    var r := brand + "_" + Stem(Paths.BaseName(path));
    assert r[..|brand| + 1] == brand + "_";
    r
  }

  /** The two kinds of ID agree for a lower-case name with a single, inner
      `.`: the ID a `.ldr` model asks for is the one `import_dat` stamps. */
  lemma BrickIDsAgree(brand: string, dir: string, base: string, ext: string)
    requires base != [] && ext != [] && '.' !in base && '.' !in ext
    requires '/' !in base && '/' !in ext
    ensures DatBrickID(brand, Paths.Join(dir, base + "." + ext)) == BrickID(brand, base + "." + ext)
  {
    var name := base + "." + ext;
    assert '/' !in name by {
      assert forall i :: 0 <= i < |name| ==> name[i] in base || name[i] == '.' || name[i] in ext by {
        forall i | 0 <= i < |name|
          ensures name[i] in base || name[i] == '.' || name[i] in ext
        {
          if i < |base| { assert name[i] == base[i]; }
          else if i > |base| { assert name[i] == ext[i - |base| - 1]; }
        }
      }
    }
    Paths.BaseNameOfJoin(dir, name);
    StemOfName(base, ext);
    assert name[|base|] == '.' && name[..|base|] == base;
    IndexOfFirst(name, '.', |base|);
  }

  lemma StemOfName(base: string, ext: string)
    requires base != [] && ext != [] && '.' !in ext
    ensures Stem(base + "." + ext) == base
  {
    var name := base + "." + ext;
    assert name[|base|] == '.';
    var i := LastIndexOf(name, '.').value;
    if i < |base| {
      assert false;
    } else if i > |base| {
      assert false;
    }
    assert name[..|base|] == base;
  }

  /** The text after the first space, or the whole line without one. */
  function AfterFirstSpace(line: string): (r: string)
    ensures |r| <= |line|
    ensures ' ' !in line ==> r == line
    ensures ' ' in line ==>
      && |r| < |line| && r == line[|line| - |r|..]
      && line[|line| - |r| - 1] == ' ' && ' ' !in line[..|line| - |r| - 1]
  {
    if ' ' in line then line[IndexOf(line, ' ') + 1..] else line
  }

  /** `import_dat`'s brick name from the file's first line: the title after the
      first space, stripped, spaces as `_`, lower case. */
  function BrickName(firstLine: string): (r: string)
    ensures ' ' !in r
  {
    var r := Lower(ReplaceChar(Strip(AfterFirstSpace(firstLine)), ' ', '_'));
    assert forall i :: 0 <= i < |r| ==> r[i] != ' ';
    r
  }

  /** `split(' ', 1)[-1]` of a line whose first word has no space is the rest
      of the line after that word and its space. */
  lemma {:induction false} AfterWord(w: string, t: string)
    requires ' ' !in w
    ensures AfterFirstSpace(w + " " + t) == t
  {
    var line := w + " " + t;
    assert line[..|w|] == w;
    IndexOfFirst(line, ' ', |w|);
    assert line[|w| + 1..] == t;
  }

  /** The brick name of a title line `<word> <title>` is the title stripped, its
      spaces turned into `_`, in lower case. */
  lemma BrickNameOfTitle(w: string, t: string)
    requires ' ' !in w
    ensures BrickName(w + " " + t) == Lower(ReplaceChar(Strip(t), ' ', '_'))
  {
    AfterWord(w, t);
  }

  /** The example of `import_dat`'s comment: `0 Plate  1 x  2` becomes
      `plate__1_x__2`. */
  lemma BrickNameExample()
    ensures BrickName("0 Plate  1 x  2") == "plate__1_x__2"
  {
    var title := "Plate  1 x  2";
    ExampleTitle();
    ExampleStripped(title);
    ExampleUnderscored(title);
  }

  lemma ExampleUnderscored(title: string)
    requires title == "Plate  1 x  2"
    ensures Lower(ReplaceChar(title, ' ', '_')) == "plate__1_x__2"
  {
    var u := ReplaceChar(title, ' ', '_');
    assert u == "Plate__1_x__2";
  }

  lemma ExampleTitle()
    ensures AfterFirstSpace("0 Plate  1 x  2") == "Plate  1 x  2"
  {
    IndexOfFirst("0 Plate  1 x  2", ' ', 1);
  }

  lemma ExampleStripped(title: string)
    requires title == "Plate  1 x  2"
    ensures Strip(title) == title
  {
    assert !IsSpace(title[0]) && !IsSpace(title[|title| - 1]);
    StrippedIff(title);
  }

  // ---------------------------------------------------------------------------
  // Models

  /** The host library holds a brick under `library/` or, failing that, under
      `import/`; `present` answers for the file system. */
  function GetBrick(brickID: string, houLib: string, present: string -> bool): (r: Option<string>)
    ensures r.Some? <==> present(LibraryPath(houLib, brickID)) || present(ImportPath(houLib, brickID))
    ensures present(LibraryPath(houLib, brickID)) ==> r == Some(LibraryPath(houLib, brickID))
  {
    if present(LibraryPath(houLib, brickID)) then Some(LibraryPath(houLib, brickID))
    else if present(ImportPath(houLib, brickID)) then Some(ImportPath(houLib, brickID))
    else None
  }

  function LibraryPath(houLib: string, brickID: string): string {
    Paths.Join(houLib, "library/" + brickID + ".bgeo.sc")
  }

  function ImportPath(houLib: string, brickID: string): string {
    Paths.Join(houLib, "import/" + brickID + ".bgeo.sc")
  }

  /** The tokens of a model line, stripped. */
  function LineTokens(line: string): (cmd: seq<string>)
    ensures |cmd| >= 1
  {
    Tokens(Strip(line))
  }

  /** A type-1 (sub-file reference) line of a model. */
  predicate IsRefLine(line: string) {
    LineTokens(line)[0] == "1"
  }

  /** The brick ID a model line refers to, by its last token. */
  function LineBrick(brand: string, line: string): string {
    var cmd := LineTokens(line);
    BrickID(brand, RefName(cmd[|cmd| - 1]))
  }

  /** The brick IDs of the type-1 lines among the first `n` lines. */
  function RefBricks(lines: seq<string>, brand: string, n: nat): (r: set<string>)
    requires n <= |lines|
  {
    set i | 0 <= i < n && IsRefLine(lines[i]) :: LineBrick(brand, lines[i])
  }

  lemma RefBricksStep(lines: seq<string>, brand: string, n: nat)
    requires n < |lines|
    ensures RefBricks(lines, brand, n + 1)
         == RefBricks(lines, brand, n) + (if IsRefLine(lines[n]) then {LineBrick(brand, lines[n])} else {})
  {
  }

  /** The loop shared by `setup_ldr` and `import_ldr`: the brick ID of every
      type-1 line. */
  method CollectBricks(lines: seq<string>, brand: string) returns (bricks: set<string>)
    ensures bricks == RefBricks(lines, brand, |lines|)
  {
    bricks := {};
    var n := 0;
    while n < |lines|
      invariant n <= |lines| && bricks == RefBricks(lines, brand, n)
    {
      RefBricksStep(lines, brand, n);
      if IsRefLine(lines[n]) {
        bricks := bricks + {LineBrick(brand, lines[n])};
      }
      n := n + 1;
    }
  }

  /** `setup_ldr`: collects the referenced bricks, then keeps the IDs the host
      library lacks. The source returns them as a list in set order; the model
      returns the set. */
  method SetupLdr(lines: seq<string>, brand: string, houLib: string, present: string -> bool) returns (r: set<string>)
    ensures forall id :: id in r <==> id in RefBricks(lines, brand, |lines|) && GetBrick(id, houLib, present).None?
  {
    var bricks := CollectBricks(lines, brand);
    r := set id | id in bricks && GetBrick(id, houLib, present).None?;
  }

  /** The numbers `import_ldr` builds the matrix from: tokens 2 to 13. */
  function ModelMatrixTokens(cmd: seq<string>): seq<string> {
    if |cmd| >= 14 then cmd[2..14] else if |cmd| >= 2 then cmd[2..] else []
  }

  /** What stops `import_ldr` at a type-1 line: a matrix that cannot be built,
      then a missing or non-integer colour. */
  function LineError(line: string, num: Numbers, parseInt: string -> Option<int>): (e: Option<string>)
    ensures var cmd := LineTokens(line);
      e.None? <==> num.matrixSign(ModelMatrixTokens(cmd)).Ok? && |cmd| >= 2 && parseInt(cmd[1]).Some?
    ensures var m := num.matrixSign(ModelMatrixTokens(LineTokens(line)));
      m.Err? ==> e == Some(m.error)
  {
    var cmd := LineTokens(line);
    match num.matrixSign(ModelMatrixTokens(cmd))
    case Err(msg) => Some(msg)
    case Ok(_) =>
      if |cmd| < 2 then Some("IndexError: list index out of range")
      else if parseInt(cmd[1]).None? then Some("ValueError: invalid literal for int() with base 10: '" + cmd[1] + "'")
      else None
  }

  /** A model line `import_ldr` gets past: not a reference, or one whose
      matrix and colour can be read. */
  predicate LineOk(line: string, num: Numbers, parseInt: string -> Option<int>) {
    !IsRefLine(line) || LineError(line, num, parseInt).None?
  }

  /** `import_ldr`'s set of brick IDs, one per type-1 line, or the error of the
      first type-1 line that raises. `parseInt` stands for Python's `int`. */
  method ImportLdr(lines: seq<string>, brand: string, num: Numbers, parseInt: string -> Option<int>) returns (r: Result<set<string>>)
    ensures r.Ok? <==> forall i :: 0 <= i < |lines| ==> LineOk(lines[i], num, parseInt)
    ensures r.Ok? ==> r.value == RefBricks(lines, brand, |lines|)
  {
    var n := 0;
    while n < |lines|
      invariant n <= |lines|
      invariant forall i :: 0 <= i < n ==> LineOk(lines[i], num, parseInt)
    {
      var line := lines[n];
      if !LineOk(line, num, parseInt) {
        return Err(LineError(line, num, parseInt).value);
      }
      n := n + 1;
    }
    var bricks := CollectBricks(lines, brand);
    r := Ok(bricks);
  }
}

=== FILE: parm_utils.dfy ===
/** Expression detection, colouring and display text for a host parameter. The
    parameter is the record of what each host call would return, or the error it
    would raise. */
module ParmUtils {
  import opened Common
  import opened Text

  /** What the host reports for a parameter: `expression()`, the number of
      `keyframes()`, `expressionLanguage().name()` and `str(eval())`. */
  datatype Parm = Parm(
    expression: Result<string>,
    keyframes: Result<nat>,
    language: Result<string>,
    evaluated: Result<string>)

  /** `has_expression`: a non-blank expression, or else at least one keyframe. A
      raising host call makes the answer false. */
  predicate HasExpression(p: Parm) {
    match p.expression
    case Err(_) => false
    case Ok(e) =>
      if e != [] && Strip(e) != [] then true
      else match p.keyframes
        case Err(_) => false
        case Ok(n) => n > 0
  }

  /** The answer spelled out: both host calls must succeed as far as they are
      made, and either the expression has a non-space character or a keyframe
      exists. */
  lemma HasExpressionIff(p: Parm)
    ensures HasExpression(p) <==>
      p.expression.Ok? &&
      (Strip(p.expression.value) != [] || (p.keyframes.Ok? && p.keyframes.value > 0))
  {
    if p.expression.Ok? && p.expression.value == [] {
      assert TrimLeft(p.expression.value, IsSpace) == [];
    }
  }

  /** `get_expression_string`: the expression, with the empty string and a
      raising call both read as no expression. */
  function ExpressionString(p: Parm): (r: Option<string>)
    ensures r.Some? <==> p.expression.Ok? && p.expression.value != []
    ensures r.Some? ==> r.value == p.expression.value
  {
    match p.expression
    case Ok(e) => if e != [] then Some(e) else None
    case Err(_) => None
  }

  /** The language name used when the host call raises. */
  const DefaultLanguage: string := "hscript"

  /** `get_expression_language`: the host's name for the language, or `hscript`. */
  function ExpressionLanguage(p: Parm): (r: string)
    ensures p.language.Ok? ==> r == p.language.value
    ensures p.language.Err? ==> r == DefaultLanguage
  {
    match p.language
    case Ok(name) => name
    case Err(_) => DefaultLanguage
  }

  /** The two expression languages of the host. */
  datatype ExprLanguage = Hscript | Python

  /** The language `set_expression` asks for: Hscript only for the exact,
      lower-case name `hscript`, Python for every other string. */
  function LanguageFor(language: string): (r: ExprLanguage)
    ensures r == Hscript <==> language == "hscript"
  {
    if language == "hscript" then Hscript else Python
  }

  /** The comparison is case-sensitive: the capitalised name selects Python. */
  lemma CapitalisedNameSelectsPython()
    ensures LanguageFor("Hscript") == Python && LanguageFor("HSCRIPT") == Python
    ensures LanguageFor(DefaultLanguage) == Hscript
  {
    assert "Hscript" != "hscript" by { assert "Hscript"[0] != "hscript"[0]; }
    assert "HSCRIPT" != "hscript" by { assert "HSCRIPT"[0] != "hscript"[0]; }
  }

  /** An expression request handed to the host by `set_expression`. */
  datatype SetRequest = SetRequest(expression: string, language: ExprLanguage)

  /** `set_expression`: the request made; a host error is reported and
      swallowed, so the call itself never raises. */
  function SetExpression(expression: string, language: string): (r: SetRequest)
    ensures r.expression == expression
    ensures r.language == Hscript <==> language == DefaultLanguage
  {
    SetRequest(expression, LanguageFor(language))
  }

  /** An RGB triple. */
  datatype Rgb = Rgb(r: nat, g: nat, b: nat)

  const Animated: Rgb := Rgb(120, 90, 60)
  const PythonExpr: Rgb := Rgb(90, 60, 110)
  const HscriptExpr: Rgb := Rgb(60, 100, 60)
  const Plain: Rgb := Rgb(42, 42, 42)

  /** `get_parm_color`. After a positive `has_expression` the keyframes are read
      again outside any `try`, so a raising call propagates. More than one
      keyframe wins over the language; the language name is compared after
      lower-casing. */
  function ParmColor(p: Parm): (r: Result<Rgb>)
    ensures !HasExpression(p) ==> r == Ok(Plain)
    ensures HasExpression(p) && p.keyframes.Err? ==> r.Err?
    ensures HasExpression(p) && p.keyframes.Ok? ==>
      r.Ok? && (p.keyframes.value > 1 <==> r.value == Animated)
  {
    if HasExpression(p) then
      var keyframes :- p.keyframes;
      var lang := Lower(ExpressionLanguage(p));
      if keyframes > 1 then Ok(Animated)
      else if lang == "python" then Ok(PythonExpr)
      else Ok(HscriptExpr)
    else Ok(Plain)
  }

  /** An expression with at most one keyframe is coloured by its language:
      purple for any capitalisation of `python`, green for anything else, and
      green when the language cannot be read. */
  lemma ColorOfExpression(p: Parm)
    requires HasExpression(p) && p.keyframes.Ok? && p.keyframes.value <= 1
    ensures p.language.Ok? && Lower(p.language.value) == "python" ==> ParmColor(p) == Ok(PythonExpr)
    ensures p.language.Ok? && Lower(p.language.value) != "python" ==> ParmColor(p) == Ok(HscriptExpr)
    ensures p.language.Err? ==> ParmColor(p) == Ok(HscriptExpr)
  {
    if p.language.Err? {
      assert Lower(DefaultLanguage)[0] == 'h';
    }
  }

  /** The colour tells the state apart: the plain colour exactly for parameters
      without an expression (when the keyframes can be read). */
  lemma PlainColorIff(p: Parm)
    requires p.keyframes.Ok?
    ensures ParmColor(p) == Ok(Plain) <==> !HasExpression(p)
  {
  }

  /** `get_parm_display_value`: the expression text when an expression is
      detected and its text is non-empty, otherwise the evaluated value (whose
      error propagates). */
  function DisplayValue(p: Parm): (r: Result<string>)
    ensures HasExpression(p) && p.expression.value != [] ==> r == Ok(p.expression.value)
    ensures !(HasExpression(p) && p.expression.value != []) ==> r == p.evaluated
  {
    if HasExpression(p) then
      match ExpressionString(p)
      case Some(e) => Ok(e)
      case None => p.evaluated
    else p.evaluated
  }

  /** A parameter whose only sign of an expression is its keyframes, and whose
      expression text is empty, displays its evaluated value. */
  lemma KeyframedWithoutTextShowsValue(p: Parm)
    requires p.expression == Ok("") && p.keyframes.Ok? && p.keyframes.value > 0
    ensures HasExpression(p) && DisplayValue(p) == p.evaluated
  {
  }
}

=== FILE: paths.dfy ===
/** POSIX path helpers the exporter and the export form rely on: `os.path.join`
    with two arguments and `os.path.basename`. */
module Paths {

  /** `posixpath.join(a, b)`: an absolute `b` replaces the path, otherwise `b` is
      appended, with a `/` in between unless `a` is empty or already ends in one. */
  function Join(a: string, b: string): (r: string)
    ensures |b| > 0 && b[0] == '/' ==> r == b
    ensures !(|b| > 0 && b[0] == '/') ==> |r| >= |a| + |b| && r[..|a|] == a && r[|r| - |b|..] == b
  {
    if |b| > 0 && b[0] == '/' then b
    else if a == [] || a[|a| - 1] == '/' then a + b
    else a + "/" + b
  }

  /** Joining a relative name onto a directory that does not end in `/` puts
      exactly one `/` in between. */
  lemma JoinRelative(a: string, b: string)
    requires a != [] && a[|a| - 1] != '/'
    requires b != [] && b[0] != '/'
    ensures Join(a, b) == a + "/" + b
  {
  }

  /** A join ends in the last character of its second argument. */
  lemma JoinLast(a: string, b: string)
    requires b != []
    ensures var r := Join(a, b); r != [] && r[|r| - 1] == b[|b| - 1]
  {
  }

  /** `posixpath.basename(p)`: what follows the last `/`. */
  function BaseName(p: string): (r: string)
    ensures '/' !in r
    ensures |r| <= |p| && r == p[|p| - |r|..]
    decreases |p|
  {
    if p == [] || p[|p| - 1] == '/' then []
    else BaseName(p[..|p| - 1]) + [p[|p| - 1]]
  }

  /** A name without `/` is its own base name, wherever it is appended. */
  lemma {:induction false} BaseNameOfSuffix(prefix: string, name: string)
    requires '/' !in name
    requires prefix == [] || prefix[|prefix| - 1] == '/'
    ensures BaseName(prefix + name) == name
    decreases |name|
  {
    if name == [] {
      assert prefix + name == prefix;
    } else {
      var p := prefix + name;
      var init := name[..|name| - 1];
      var last := name[|name| - 1];
      assert name == init + [last];
      assert p[..|p| - 1] == prefix + init;
      assert p[|p| - 1] == last;
      assert last != '/';
      assert '/' !in init;
      BaseNameOfSuffix(prefix, init);
    }
  }

  /** Joining a relative name without `/` makes that name the base name. */
  lemma BaseNameOfJoin(dir: string, name: string)
    requires '/' !in name
    ensures BaseName(Join(dir, name)) == name
  {
    if dir == [] || dir[|dir| - 1] == '/' {
      BaseNameOfSuffix(dir, name);
    } else {
      assert dir + "/" + name == (dir + "/") + name;
      BaseNameOfSuffix(dir + "/", name);
    }
  }
}

=== FILE: tag_input.dfy ===
/** The tag list behind the chip widget: the chips in display order, the text in
    the line edit and the completer's entries. Each handler returns the new state
    together with the lists the `tagsChanged` signal carried, in order. */
module TagInput {
  import opened Common
  import opened Text

  datatype Widget = Widget(tags: seq<string>, line: string, available: seq<string>)

  datatype Effect = Effect(widget: Widget, emitted: seq<seq<string>>)

  function NewWidget(): (w: Widget)
    ensures w.tags == [] && w.line == "" && w.available == []
  {
    Widget([], "", [])
  }

  predicate NoDuplicates(s: seq<string>) {
    forall i, j :: 0 <= i < j < |s| ==> s[i] != s[j]
  }

  /** The list `_add_chip` maintains: no duplicates, no empty or unstripped tag. */
  predicate ValidTags(s: seq<string>) {
    NoDuplicates(s) && forall i :: 0 <= i < |s| ==> s[i] != [] && Stripped(s[i])
  }

  // ---------------------------------------------------------------------------
  // Chips

  /** `_add_chip`: strips the text and appends it unless it is empty or already
      present; a change is announced with the new list. */
  function AddChip(w: Widget, text: string): (e: Effect)
    ensures e.widget.line == w.line && e.widget.available == w.available
    ensures w.tags <= e.widget.tags && |e.widget.tags| <= |w.tags| + 1
    ensures forall x :: x in e.widget.tags <==> x in w.tags || (x == Strip(text) && x != [])
    ensures e.emitted == (if e.widget.tags == w.tags then [] else [e.widget.tags])
    ensures ValidTags(w.tags) ==> ValidTags(e.widget.tags)
  {
    var t := Strip(text);
    StripIsStripped(text);
    if t == [] || t in w.tags then Effect(w, [])
    else
      var tags := w.tags + [t];
      Effect(w.(tags := tags), [tags])
  }

  /** Python's `list.remove`: drops the first occurrence. */
  function RemoveFirst(s: seq<string>, x: string): (r: seq<string>)
    requires x in s
    ensures |r| == |s| - 1
  {
    if s[0] == x then s[1..] else [s[0]] + RemoveFirst(s[1..], x)
  }

  /** Every occurrence of `x` dropped, the rest in order. */
  function Without(s: seq<string>, x: string): (r: seq<string>)
    ensures forall y :: y in r <==> y in s && y != x
  {
    if s == [] then [] else (if s[0] == x then [] else [s[0]]) + Without(s[1..], x)
  }

  /** In a list without duplicates, removing the first occurrence removes every
      occurrence. */
  lemma {:induction false} RemoveFirstIsWithout(s: seq<string>, x: string)
    requires x in s && NoDuplicates(s)
    ensures RemoveFirst(s, x) == Without(s, x)
    decreases |s|
  {
    if s[0] == x {
      assert x !in s[1..] by {
        forall k | 0 <= k < |s[1..]|
          ensures s[1..][k] != x
        {
          assert s[k + 1] != s[0];
        }
      }
      WithoutAbsent(s[1..], x);
    } else {
      RemoveFirstIsWithout(s[1..], x);
    }
  }

  lemma {:induction false} WithoutAbsent(s: seq<string>, x: string)
    requires x !in s
    ensures Without(s, x) == s
    decreases |s|
  {
    if s != [] {
      WithoutAbsent(s[1..], x);
    }
  }

  /** `Without` keeps a list duplicate-free and keeps every kept tag valid. */
  lemma {:induction false} WithoutKeepsValid(s: seq<string>, x: string)
    requires ValidTags(s)
    ensures ValidTags(Without(s, x))
    decreases |s|
  {
    if s != [] {
      WithoutKeepsValid(s[1..], x);
      var rest := Without(s[1..], x);
      assert s[0] !in rest by {
        assert forall k :: 0 <= k < |s[1..]| ==> s[1..][k] != s[0];
      }
    }
  }

  /** `_remove_chip`: a tag that is not present changes nothing; otherwise its
      first occurrence is removed and the new list announced. */
  function RemoveChip(w: Widget, text: string): (e: Effect)
    ensures text !in w.tags ==> e == Effect(w, [])
    ensures text in w.tags ==> |e.widget.tags| == |w.tags| - 1 && e.emitted == [e.widget.tags]
    ensures e.widget.line == w.line && e.widget.available == w.available
  {
    if text !in w.tags then Effect(w, [])
    else
      var tags := RemoveFirst(w.tags, text);
      Effect(w.(tags := tags), [tags])
  }

  /** On a valid list, removing a present tag deletes exactly that tag, keeps the
      others in their order, and keeps the list valid. */
  lemma RemoveChipDeletesExactly(w: Widget, text: string)
    requires ValidTags(w.tags) && text in w.tags
    ensures RemoveChip(w, text).widget.tags == Without(w.tags, text)
    ensures text !in RemoveChip(w, text).widget.tags
    ensures ValidTags(RemoveChip(w, text).widget.tags)
  {
    RemoveFirstIsWithout(w.tags, text);
    WithoutKeepsValid(w.tags, text);
  }

  /** `_clear_chips`: the list becomes empty, which is announced. */
  function ClearChips(w: Widget): (e: Effect)
    ensures e.widget.tags == [] && e.emitted == [[]]
    ensures e.widget.line == w.line && e.widget.available == w.available
  {
    Effect(w.(tags := []), [[]])
  }

  /** Runs `AddChip` after an earlier effect, collecting the announcements. */
  function Then(e: Effect, text: string): (r: Effect)
    ensures e.emitted <= r.emitted
  {
    var next := AddChip(e.widget, text);
    Effect(next.widget, e.emitted + next.emitted)
  }

  /** The loop of `setTags`: each non-empty tag not yet present goes through
      `_add_chip`. */
  function AddEach(e: Effect, tags: seq<string>): (r: Effect)
    ensures r.widget.line == e.widget.line && r.widget.available == e.widget.available
    ensures e.widget.tags <= r.widget.tags && e.emitted <= r.emitted
    ensures ValidTags(e.widget.tags) ==> ValidTags(r.widget.tags)
    decreases |tags|
  {
    if tags == [] then e
    else
      var tag := tags[0];
      var next := if tag != [] && tag !in e.widget.tags then Then(e, tag) else e;
      AddEach(next, tags[1..])
  }

  /** `setTags`: clears the list, then adds the given tags in order. The result
      is the non-empty stripped tags, each at its first occurrence. */
  function SetTags(w: Widget, tags: seq<string>): (e: Effect)
    ensures ValidTags(e.widget.tags)
    ensures e.widget.tags == Dedup(StripEach(tags))
    ensures [[]] <= e.emitted
    ensures e.widget.line == w.line && e.widget.available == w.available
  {
    assert [] + StripEach(tags) == StripEach(tags);
    AddEachDedup(ClearChips(w), [], tags);
    AddEach(ClearChips(w), tags)
  }

  /** Keeps the first occurrence of each member, in order: the list a
      duplicate-rejecting append loop builds. */
  function Dedup(s: seq<string>): (r: seq<string>)
    ensures forall x :: x in r <==> x in s
    ensures NoDuplicates(r)
    decreases |s|
  {
    if s == [] then []
    else
      var init := s[..|s| - 1];
      var x := s[|s| - 1];
      var r := Dedup(init);
      assert s == init + [x];
      if x in r then r else r + [x]
  }

  /** `Dedup` after one more element. */
  lemma DedupSnoc(s: seq<string>, x: string)
    ensures Dedup(s + [x]) == if x in Dedup(s) then Dedup(s) else Dedup(s) + [x]
  {
    assert (s + [x])[..|s|] == s;
  }

  /** A list without repeats is its own `Dedup`. */
  lemma {:induction false} DedupNoDuplicates(s: seq<string>)
    requires NoDuplicates(s)
    ensures Dedup(s) == s
    decreases |s|
  {
    if s != [] {
      var init := s[..|s| - 1];
      DedupNoDuplicates(init);
      assert s == init + [s[|s| - 1]];
      assert s[|s| - 1] !in init by {
        forall k | 0 <= k < |init|
          ensures init[k] != s[|s| - 1]
        {
          assert s[k] != s[|s| - 1];
        }
      }
    }
  }

  /** The `setTags` loop on a list that is `Dedup(pre)` yields
      `Dedup(pre + StripEach(tags))`. */
  lemma {:induction false} AddEachDedup(e: Effect, pre: seq<string>, tags: seq<string>)
    requires e.widget.tags == Dedup(pre) && ValidTags(e.widget.tags)
    ensures AddEach(e, tags).widget.tags == Dedup(pre + StripEach(tags))
    decreases |tags|
  {
    if tags == [] {
      assert pre + StripEach(tags) == pre;
    } else {
      var tag := tags[0];
      var t := Strip(tag);
      var next := if tag != [] && tag !in e.widget.tags then Then(e, tag) else e;
      var first := if t != [] then [t] else [];
      AddStepDedup(e, pre, tag);
      AddEachDedup(next, pre + first, tags[1..]);
      StripEachRegroup(pre, tags);
    }
  }

  lemma StripEachRegroup(pre: seq<string>, tags: seq<string>)
    requires tags != []
    ensures var t := Strip(tags[0]);
      pre + StripEach(tags) == (pre + (if t != [] then [t] else [])) + StripEach(tags[1..])
  {
    var first: seq<string> := if Strip(tags[0]) != [] then [Strip(tags[0])] else [];
    var rest := StripEach(tags[1..]);
    assert StripEach(tags) == first + rest;
    Regroup(pre, first, rest);
  }

  lemma Regroup(a: seq<string>, b: seq<string>, c: seq<string>)
    ensures a + (b + c) == (a + b) + c
  {
  }

  /** One step of the `setTags` loop keeps the list equal to a `Dedup`. */
  lemma AddStepDedup(e: Effect, pre: seq<string>, tag: string)
    requires e.widget.tags == Dedup(pre) && ValidTags(e.widget.tags)
    ensures var t := Strip(tag);
      var next := if tag != [] && tag !in e.widget.tags then Then(e, tag) else e;
      next.widget.tags == Dedup(pre + (if t != [] then [t] else []))
      && ValidTags(next.widget.tags)
  {
    var t := Strip(tag);
    if tag == [] {
      assert TrimLeft(tag, IsSpace) == [];
      assert pre + [] == pre;
    } else if tag in e.widget.tags {
      var k :| 0 <= k < |e.widget.tags| && e.widget.tags[k] == tag;
      StrippedIff(tag);
      DedupSnoc(pre, t);
    } else if t == [] {
      assert pre + [] == pre;
    } else {
      DedupSnoc(pre, t);
    }
  }

  /** One step of the `setTags` loop, in terms of the stripped tag. */
  lemma AddEachStep(e: Effect, tag: string, x: string)
    requires ValidTags(e.widget.tags)
    ensures var next := if tag != [] && tag !in e.widget.tags then Then(e, tag) else e;
      x in next.widget.tags <==> x in e.widget.tags || (x == Strip(tag) && x != [])
  {
    if tag in e.widget.tags {
      var k :| 0 <= k < |e.widget.tags| && e.widget.tags[k] == tag;
      StrippedIff(tag);
    }
    if tag == [] {
      assert TrimLeft(tag, IsSpace) == [];
    }
  }

  /** After `AddEach` on a valid list, a tag is present iff it was before or it is
      the stripped form of one of the added texts. */
  lemma {:induction false} AddEachMembers(e: Effect, tags: seq<string>, x: string)
    requires ValidTags(e.widget.tags)
    ensures x in AddEach(e, tags).widget.tags <==> x in e.widget.tags || x in StripEach(tags)
    decreases |tags|
  {
    if tags != [] {
      var tag := tags[0];
      var next := if tag != [] && tag !in e.widget.tags then Then(e, tag) else e;
      AddEachStep(e, tag, x);
      AddEachMembers(next, tags[1..], x);
      var head := Strip(tag);
      assert StripEach(tags) == (if head != [] then [head] else []) + StripEach(tags[1..]);
    }
  }

  /** `setTags` leaves exactly the non-empty stripped input tags, once each. */
  lemma SetTagsMembers(w: Widget, tags: seq<string>, x: string)
    ensures x in SetTags(w, tags).widget.tags <==> x in StripEach(tags)
  {
    AddEachMembers(ClearChips(w), tags, x);
  }

  // ---------------------------------------------------------------------------
  // Completer entries

  /** Python's `<` on strings: code-point order, a proper prefix first. */
  predicate Less(a: string, b: string)
    decreases |a|
  {
    if a == [] then b != []
    else if b == [] then false
    else if a[0] != b[0] then a[0] < b[0]
    else Less(a[1..], b[1..])
  }

  lemma {:induction false} LessIrreflexive(a: string)
    ensures !Less(a, a)
    decreases |a|
  {
    if a != [] {
      LessIrreflexive(a[1..]);
    }
  }

  lemma {:induction false} LessTotal(a: string, b: string)
    requires a != b
    ensures Less(a, b) || Less(b, a)
    decreases |a|
  {
    if a != [] && b != [] && a[0] == b[0] {
      assert a == [a[0]] + a[1..] && b == [b[0]] + b[1..];
      LessTotal(a[1..], b[1..]);
    }
  }

  lemma {:induction false} LessTransitive(a: string, b: string, c: string)
    requires Less(a, b) && Less(b, c)
    ensures Less(a, c)
    decreases |a|
  {
    if a != [] && b != [] && c != [] && a[0] == b[0] && b[0] == c[0] {
      LessTransitive(a[1..], b[1..], c[1..]);
    }
  }

  /** Ascending with no repeats: what `sorted(set(tags))` returns. */
  predicate StrictlySorted(s: seq<string>) {
    forall i :: 1 <= i < |s| ==> Less(s[i - 1], s[i])
  }

  function InsertUnique(x: string, s: seq<string>): (r: seq<string>)
    requires StrictlySorted(s)
    ensures StrictlySorted(r)
    ensures forall y :: y in r <==> y == x || y in s
    ensures r != [] && (r[0] == x || (s != [] && r[0] == s[0]))
    decreases |s|
  {
    if s == [] then [x]
    else if x == s[0] then s
    else if Less(x, s[0]) then [x] + s
    else
      LessTotal(x, s[0]);
      var rest := InsertUnique(x, s[1..]);
      assert s == [s[0]] + s[1..];
      [s[0]] + rest
  }

  /** `sorted(set(tags))`. */
  function SortUnique(tags: seq<string>): (r: seq<string>)
    ensures StrictlySorted(r)
    ensures forall y :: y in r <==> y in tags
  {
    if tags == [] then []
    else
      assert tags == [tags[0]] + tags[1..];
      InsertUnique(tags[0], SortUnique(tags[1..]))
  }

  /** The head of a strictly sorted list is below every other member. */
  lemma {:induction false} HeadLeast(s: seq<string>, y: string)
    requires StrictlySorted(s) && y in s && y != s[0]
    ensures Less(s[0], y)
    decreases |s|
  {
    if s[1] == y {
    } else {
      assert y in s[1..];
      HeadLeast(s[1..], y);
      LessTransitive(s[0], s[1], y);
    }
  }

  /** Two strictly sorted lists with the same members are the same list, so the
      contract of `SortUnique` pins its result down. */
  lemma {:induction false} StrictlySortedUnique(a: seq<string>, b: seq<string>)
    requires StrictlySorted(a) && StrictlySorted(b)
    requires forall y :: y in a <==> y in b
    ensures a == b
    decreases |a|
  {
    if a != [] {
      assert a[0] in b;
      if a[0] != b[0] {
        HeadLeast(a, b[0]);
        HeadLeast(b, a[0]);
        LessTransitive(a[0], b[0], a[0]);
        LessIrreflexive(a[0]);
        assert false;
      }
      forall y
        ensures y in a[1..] <==> y in b[1..]
      {
        if y in a[1..] {
          TailMember(a, y);
          assert y in b;
          TailMemberBack(b, y);
        }
        if y in b[1..] {
          TailMember(b, y);
          assert y in a;
          TailMemberBack(a, y);
        }
      }
      StrictlySortedUnique(a[1..], b[1..]);
      assert a == [a[0]] + a[1..] && b == [b[0]] + b[1..];
    } else if b != [] {
      HasHead(b);
      assert false;
    }
  }

  lemma HasHead(s: seq<string>)
    requires s != []
    ensures s[0] in s
  {
  }

  /** A member of the tail of a strictly sorted list is not its head. */
  lemma TailMember(s: seq<string>, y: string)
    requires StrictlySorted(s) && s != [] && y in s[1..]
    ensures y in s && y != s[0]
  {
    var i :| 0 <= i < |s[1..]| && s[1..][i] == y;
    assert s[i + 1] == y;
    if y == s[0] {
      StrictlySortedTail(s, i + 1);
      LessIrreflexive(y);
      assert false;
    }
  }

  lemma TailMemberBack(s: seq<string>, y: string)
    requires s != [] && y in s && y != s[0]
    ensures y in s[1..]
  {
    assert s == [s[0]] + s[1..];
  }

  /** Each later member of a strictly sorted list is above the head. */
  lemma {:induction false} StrictlySortedTail(s: seq<string>, i: nat)
    requires StrictlySorted(s) && 0 < i < |s|
    ensures Less(s[0], s[i])
    decreases i
  {
    if i > 1 {
      StrictlySortedTail(s, i - 1);
      LessTransitive(s[0], s[i - 1], s[i]);
    }
  }

  /** `setAvailableTags`. */
  function SetAvailableTags(w: Widget, tags: seq<string>): (r: Widget)
    ensures r.tags == w.tags && r.line == w.line
    ensures StrictlySorted(r.available) && forall y :: y in r.available <==> y in tags
  {
    w.(available := SortUnique(tags))
  }

  /** An entry of the dropdown menu: the tag and whether it can be chosen. */
  datatype MenuEntry = MenuEntry(tag: string, enabled: bool)

  /** `_show_tag_menu`: no menu without completer entries; otherwise one entry per
      completer entry in order, disabled when the tag is already a chip. The
      entries are already sorted, so sorting them again changes nothing
      (`SortSorted`). */
  function TagMenu(w: Widget): (r: Option<seq<MenuEntry>>)
    ensures r.None? <==> w.available == []
    ensures r.Some? ==> |r.value| == |w.available|
    ensures r.Some? ==> forall i :: 0 <= i < |w.available| ==>
      r.value[i].tag == w.available[i] && (r.value[i].enabled <==> w.available[i] !in w.tags)
  {
    if w.available == [] then None
    else Some(seq(|w.available|, i requires 0 <= i < |w.available| =>
                  MenuEntry(w.available[i], w.available[i] !in w.tags)))
  }

  /** Sorting an already sorted, repeat-free list gives it back. */
  lemma SortSorted(s: seq<string>)
    requires StrictlySorted(s)
    ensures SortUnique(s) == s
  {
    StrictlySortedUnique(SortUnique(s), s);
  }

  /** Choosing an enabled, stripped menu entry adds exactly that tag at the end. */
  lemma MenuChoiceAdds(w: Widget, i: nat)
    requires TagMenu(w).Some? && i < |TagMenu(w).value| && TagMenu(w).value[i].enabled
    requires Stripped(w.available[i]) && w.available[i] != []
    ensures AddChip(w, TagMenu(w).value[i].tag).widget.tags == w.tags + [w.available[i]]
  {
    StrippedIff(w.available[i]);
  }

  // ---------------------------------------------------------------------------
  // Line edit

  /** Adds the stripped pieces in order, skipping empty ones. */
  function AddPieces(e: Effect, pieces: seq<string>): (r: Effect)
    ensures r.widget.line == e.widget.line && r.widget.available == e.widget.available
    ensures e.widget.tags <= r.widget.tags
    ensures ValidTags(e.widget.tags) ==> ValidTags(r.widget.tags)
    decreases |pieces|
  {
    if pieces == [] then e
    else
      var part := Strip(pieces[0]);
      var next := if part != [] then Then(e, part) else e;
      AddPieces(next, pieces[1..])
  }

  /** A non-empty stripped text is a chip once `AddChip` has run. */
  lemma ThenAdds(e: Effect, text: string)
    requires text != []
    ensures Strip(text) != [] ==> Strip(text) in Then(e, Strip(text)).widget.tags
  {
    StripIdempotent(text);
  }

  lemma PrefixMember(a: seq<string>, b: seq<string>, x: string)
    requires a <= b && x in a
    ensures x in b
  {
    var i :| 0 <= i < |a| && a[i] == x;
    assert b[i] == a[i];
  }

  /** Every non-empty stripped piece ends up a chip. */
  lemma {:induction false} AddPiecesAddsAll(e: Effect, pieces: seq<string>, k: nat)
    requires k < |pieces| && Strip(pieces[k]) != []
    ensures Strip(pieces[k]) in AddPieces(e, pieces).widget.tags
    decreases |pieces|
  {
    var part := Strip(pieces[0]);
    var next := if part != [] then Then(e, part) else e;
    assert AddPieces(e, pieces) == AddPieces(next, pieces[1..]);
    if k == 0 {
      ThenAdds(e, pieces[0]);
      PrefixMember(next.widget.tags, AddPieces(next, pieces[1..]).widget.tags, part);
    } else {
      assert pieces[1..][k - 1] == pieces[k];
      AddPiecesAddsAll(next, pieces[1..], k - 1);
    }
  }

  /** `AddPieces` on a list that is `Dedup(pre)` yields
      `Dedup(pre + StripEach(pieces))`, as the `setTags` loop does. */
  lemma {:induction false} AddPiecesDedup(e: Effect, pre: seq<string>, pieces: seq<string>)
    requires e.widget.tags == Dedup(pre) && ValidTags(e.widget.tags)
    ensures AddPieces(e, pieces).widget.tags == Dedup(pre + StripEach(pieces))
    decreases |pieces|
  {
    if pieces == [] {
      assert pre + StripEach(pieces) == pre;
    } else {
      var part := Strip(pieces[0]);
      var next := if part != [] then Then(e, part) else e;
      var first := if part != [] then [part] else [];
      AddPieceStepDedup(e, pre, pieces[0]);
      AddPiecesDedup(next, pre + first, pieces[1..]);
      StripEachRegroup(pre, pieces);
    }
  }

  /** One step of `AddPieces` keeps the list equal to a `Dedup`. */
  lemma AddPieceStepDedup(e: Effect, pre: seq<string>, piece: string)
    requires e.widget.tags == Dedup(pre) && ValidTags(e.widget.tags)
    ensures var part := Strip(piece);
      var next := if part != [] then Then(e, part) else e;
      next.widget.tags == Dedup(pre + (if part != [] then [part] else []))
  {
    var part := Strip(piece);
    StripIdempotent(piece);
    if part != [] {
      DedupSnoc(pre, part);
    } else {
      assert pre + [] == pre;
    }
  }

  /** `AddPieces` on a valid list keeps it and appends the new pieces, each once. */
  lemma PiecesOntoValid(e: Effect, pieces: seq<string>)
    ensures ValidTags(e.widget.tags) ==>
      AddPieces(e, pieces).widget.tags == Dedup(e.widget.tags + StripEach(pieces))
    ensures ValidTags(e.widget.tags) ==>
      forall x :: x in AddPieces(e, pieces).widget.tags <==> x in e.widget.tags || x in StripEach(pieces)
  {
    if ValidTags(e.widget.tags) {
      DedupNoDuplicates(e.widget.tags);
      AddPiecesDedup(e, e.widget.tags, pieces);
    }
  }

  /** The pieces `_on_text_changed` splits typed text into. */
  function Pieces(text: string): (parts: seq<string>)
    ensures |parts| >= 1
    ensures forall i :: 0 <= i < |parts| ==> ',' !in parts[i] && ';' !in parts[i]
  {
    var replaced := ReplaceChar(text, ';', ',');
    var parts := Split(replaced, ',');
    forall i | 0 <= i < |parts|
      ensures ';' !in parts[i]
    {
      if ';' in parts[i] {
        JoinKeepsChars([','], parts, i, ';');
        assert false;
      }
    }
    parts
  }

  /** The stripped last piece, which the line edit keeps, has no separator. */
  lemma LastPieceStripped(text: string)
    ensures var parts := Pieces(text);
      ',' !in Strip(parts[|parts| - 1]) && ';' !in Strip(parts[|parts| - 1])
  {
    var parts := Pieces(text);
    TrimInfix(parts[|parts| - 1], IsSpace);
  }

  /** `_on_text_changed`: text with a `,` or `;` is split at both; every piece but
      the last becomes a chip and the line edit keeps the stripped last piece.
      Setting that text fires the handler again, which then finds no separator
      and does nothing. */
  function OnTextChanged(w: Widget, text: string): (e: Effect)
    ensures e.widget.available == w.available
    ensures w.tags <= e.widget.tags
    ensures ValidTags(w.tags) ==> ValidTags(e.widget.tags)
    ensures ',' !in text && ';' !in text ==> e == Effect(w.(line := text), [])
    ensures ',' !in e.widget.line && ';' !in e.widget.line
    ensures ',' in text || ';' in text ==>
      var parts := Pieces(text);
      e.widget.line == Strip(parts[|parts| - 1])
      && (ValidTags(w.tags) ==> e.widget.tags == Dedup(w.tags + StripEach(parts[..|parts| - 1])))
    ensures (',' in text || ';' in text) && ValidTags(w.tags) ==>
      var parts := Pieces(text);
      forall x :: x in e.widget.tags <==> x in w.tags || x in StripEach(parts[..|parts| - 1])
  {
    if ',' in text || ';' in text then
      SplitTypedFrame(w, text);
      SplitTypedTags(w, text);
      SplitTyped(w, text)
    else Effect(w.(line := text), [])
  }

  /** The separator path of `_on_text_changed`: every piece but the last is
      added as a chip, then the line edit is set to the stripped last piece. */
  function SplitTyped(w: Widget, text: string): Effect {
    var parts := Pieces(text);
    var r := AddPieces(Effect(w.(line := text), []), parts[..|parts| - 1]);
    Effect(r.widget.(line := Strip(parts[|parts| - 1])), r.emitted)
  }

  /** The separator path keeps the vocabulary and the earlier chips, and leaves
      no separator in the line edit. */
  lemma SplitTypedFrame(w: Widget, text: string)
    ensures var e := SplitTyped(w, text);
      var parts := Pieces(text);
      && e.widget.available == w.available
      && w.tags <= e.widget.tags
      && (ValidTags(w.tags) ==> ValidTags(e.widget.tags))
      && e.widget.line == Strip(parts[|parts| - 1])
      && ',' !in e.widget.line && ';' !in e.widget.line
  {
    LastPieceStripped(text);
  }

  /** On a valid list, the separator path's chips are the `Dedup` of the old
      chips followed by the stripped earlier pieces. */
  lemma SplitTypedTags(w: Widget, text: string)
    ensures var e := SplitTyped(w, text);
      var parts := Pieces(text);
      ValidTags(w.tags) ==>
        && e.widget.tags == Dedup(w.tags + StripEach(parts[..|parts| - 1]))
        && forall x :: x in e.widget.tags <==> x in w.tags || x in StripEach(parts[..|parts| - 1])
  {
    var parts := Pieces(text);
    PiecesOntoValid(Effect(w.(line := text), []), parts[..|parts| - 1]);
  }

  /** After a separator was typed, every non-empty piece before the last
      separator is a chip. */
  lemma TextChangedAdds(w: Widget, text: string, k: nat)
    requires ',' in text || ';' in text
    requires k < |Pieces(text)| - 1 && Strip(Pieces(text)[k]) != []
    ensures Strip(Pieces(text)[k]) in OnTextChanged(w, text).widget.tags
  {
    var parts := Pieces(text);
    var pieces := parts[..|parts| - 1];
    assert pieces[k] == parts[k];
    AddPiecesAddsAll(Effect(w.(line := text), []), pieces, k);
  }

  /** `_on_return_pressed`: a non-empty stripped line becomes a chip and the line
      edit is cleared; a blank line changes nothing. */
  function OnReturnPressed(w: Widget): (e: Effect)
    ensures Strip(w.line) == [] ==> e == Effect(w, [])
    ensures Strip(w.line) != [] ==> e.widget.line == "" && Strip(w.line) in e.widget.tags
    ensures w.tags <= e.widget.tags
    ensures ValidTags(w.tags) ==> ValidTags(e.widget.tags)
  {
    var text := Strip(w.line);
    if text != [] then
      var e := AddChip(w, text);
      StripIdempotent(w.line);
      Effect(e.widget.(line := ""), e.emitted)
    else Effect(w, [])
  }

  /** `_deferred_add_chip`, run after a completion is chosen: clears the line edit,
      then adds the tag. */
  function DeferredAddChip(w: Widget, text: string): (e: Effect)
    ensures e.widget.line == ""
    ensures forall x :: x in e.widget.tags <==> x in w.tags || (x == Strip(text) && x != [])
    ensures ValidTags(w.tags) ==> ValidTags(e.widget.tags)
  {
    AddChip(w.(line := ""), text)
  }
}

=== FILE: text.dfy ===
/** Character and string helpers with Python's `str` semantics: `strip`, `split`,
    `join`, `replace`, `lower`, `isalnum`, `str(int)` and substring tests. */
module Text {

  /** Python's `str.isspace`: exactly the characters `str.strip()` and `\s` remove. */
  predicate IsSpace(c: char) {
    var n := c as int;
    || n == 0x20 || 0x09 <= n <= 0x0D || 0x1C <= n <= 0x1F || n == 0x85 || n == 0xA0
    || n == 0x1680 || 0x2000 <= n <= 0x200A || n == 0x2028 || n == 0x2029
    || n == 0x202F || n == 0x205F || n == 0x3000
  }

  predicate IsDigit(c: char) {
    '0' <= c <= '9'
  }

  /** `str.isalnum` restricted to ASCII letters and digits. */
  predicate IsAlnum(c: char) {
    ('a' <= c <= 'z') || ('A' <= c <= 'Z') || IsDigit(c)
  }

  function LowerChar(c: char): char {
    if 'A' <= c <= 'Z' then (c as int + 32) as char else c
  }

  /** `str.lower` on ASCII letters. */
  function Lower(s: string): (r: string)
    ensures |r| == |s|
    ensures forall i :: 0 <= i < |s| ==> r[i] == LowerChar(s[i])
  {
    seq(|s|, i requires 0 <= i < |s| => LowerChar(s[i]))
  }

  /** Drops the longest prefix whose characters all satisfy `drop`. */
  function TrimLeft(s: string, drop: char -> bool): (r: string)
    ensures |r| <= |s| && r == s[|s| - |r|..]
    ensures r == [] || !drop(r[0])
    ensures forall k :: 0 <= k < |s| - |r| ==> drop(s[k])
    decreases |s|
  {
    if |s| > 0 && drop(s[0]) then TrimLeft(s[1..], drop) else s
  }

  /** Drops the longest suffix whose characters all satisfy `drop`. */
  function TrimRight(s: string, drop: char -> bool): (r: string)
    ensures |r| <= |s| && r == s[..|r|]
    ensures r == [] || !drop(r[|r| - 1])
    ensures forall k :: |r| <= k < |s| ==> drop(s[k])
    decreases |s|
  {
    if |s| > 0 && drop(s[|s| - 1]) then TrimRight(s[..|s| - 1], drop) else s
  }

  /** Python's `str.strip(chars)` for the character class `drop`. */
  function Trim(s: string, drop: char -> bool): string {
    TrimRight(TrimLeft(s, drop), drop)
  }

  /** Python's `str.strip()`. */
  function Strip(s: string): string {
    Trim(s, IsSpace)
  }

  /** A trimmed string has no droppable character at either end, and every
      character it lost was droppable. */
  lemma TrimShape(s: string, drop: char -> bool)
    ensures var r := Trim(s, drop);
      r == [] || (!drop(r[0]) && !drop(r[|r| - 1]))
  {
    var l := TrimLeft(s, drop);
    var r := TrimRight(l, drop);
    if r != [] {
      assert r[0] == l[0];
    }
  }

  /** Trimming an already trimmed string changes nothing. */
  lemma TrimIdempotent(s: string, drop: char -> bool)
    ensures Trim(Trim(s, drop), drop) == Trim(s, drop)
  {
    TrimShape(s, drop);
    var r := Trim(s, drop);
    assert TrimLeft(r, drop) == r;
    assert TrimRight(r, drop) == r;
  }

  lemma StripIdempotent(s: string)
    ensures Strip(Strip(s)) == Strip(s)
  {
    TrimIdempotent(s, IsSpace);
  }

  /** A string with no droppable character is its own trim. */
  lemma TrimNoop(s: string, drop: char -> bool)
    requires forall i :: 0 <= i < |s| ==> !drop(s[i])
    ensures Trim(s, drop) == s
  {
    assert TrimLeft(s, drop) == s;
    assert TrimRight(s, drop) == s;
  }

  /** Neither end is whitespace: what `str.strip()` leaves. */
  predicate Stripped(s: string) {
    s == [] || (!IsSpace(s[0]) && !IsSpace(s[|s| - 1]))
  }

  /** `Stripped` says exactly that stripping changes nothing. */
  lemma StrippedIff(s: string)
    ensures Stripped(s) <==> Strip(s) == s
    ensures Stripped(Strip(s))
  {
    TrimShape(s, IsSpace);
    if Stripped(s) {
      TrimKeeps(s, IsSpace);
    }
  }

  /** What `str.strip()` returns is stripped. */
  lemma StripIsStripped(s: string)
    ensures Stripped(Strip(s))
  {
    TrimShape(s, IsSpace);
  }

  /** A string with no droppable character at either end is its own trim. */
  lemma TrimKeeps(s: string, drop: char -> bool)
    requires s == [] || (!drop(s[0]) && !drop(s[|s| - 1]))
    ensures Trim(s, drop) == s
  {
    assert TrimLeft(s, drop) == s;
    assert TrimRight(s, drop) == s;
  }

  /** Trimming keeps a contiguous run of the input, so it adds no character. */
  lemma TrimInfix(s: string, drop: char -> bool)
    ensures forall i :: 0 <= i < |Trim(s, drop)| ==> Trim(s, drop)[i] in s
  {
    forall i | 0 <= i < |Trim(s, drop)|
      ensures Trim(s, drop)[i] in s
    {
      TrimAt(s, drop, i);
    }
  }

  /** The `i`-th character of a trim sits at a fixed offset in the input. */
  lemma TrimAt(s: string, drop: char -> bool, i: nat)
    requires i < |Trim(s, drop)|
    ensures Trim(s, drop)[i] == s[|s| - |TrimLeft(s, drop)| + i]
  {
    var l := TrimLeft(s, drop);
    assert Trim(s, drop)[i] == l[i];
  }

  /** Leading blanks in front of a stripped word are stripped away again. */
  lemma StripAfterSpace(t: string)
    requires t != [] && Stripped(t)
    ensures Strip(" " + t) == t
  {
    var u := " " + t;
    assert u[0] == ' ' && IsSpace(' ');
    assert u[1..] == t;
    assert TrimLeft(u, IsSpace) == TrimLeft(t, IsSpace);
    assert TrimLeft(t, IsSpace) == t;
    assert TrimRight(t, IsSpace) == t;
  }

  /** Keeps exactly the characters satisfying `keep`, in order. */
  function Filter(s: string, keep: char -> bool): (r: string)
    ensures |r| <= |s|
    ensures forall i :: 0 <= i < |r| ==> keep(r[i])
  {
    if |s| == 0 then []
    else (if keep(s[0]) then [s[0]] else []) + Filter(s[1..], keep)
  }

  /** Filtering a string whose characters are all kept changes nothing. */
  lemma {:induction false} FilterAll(s: string, keep: char -> bool)
    requires forall i :: 0 <= i < |s| ==> keep(s[i])
    ensures Filter(s, keep) == s
    decreases |s|
  {
    if |s| > 0 {
      FilterAll(s[1..], keep);
    }
  }

  /** Python's `str.replace(a, b)` for single characters. */
  function ReplaceChar(s: string, a: char, b: char): (r: string)
    ensures |r| == |s|
    ensures forall i :: 0 <= i < |s| ==> r[i] == (if s[i] == a then b else s[i])
  {
    seq(|s|, i requires 0 <= i < |s| => if s[i] == a then b else s[i])
  }

  /** Position of the first `c` in `s`. */
  function IndexOf(s: string, c: char): (i: nat)
    requires c in s
    ensures i < |s| && s[i] == c && c !in s[..i]
  {
    if s[0] == c then 0 else 1 + IndexOf(s[1..], c)
  }

  /** Python's `sep.join(parts)`. */
  function Join(sep: string, parts: seq<string>): string {
    if |parts| == 0 then ""
    else if |parts| == 1 then parts[0]
    else parts[0] + sep + Join(sep, parts[1..])
  }

  /** Python's `s.split(sep)`: the pieces between separators, empty ones included. */
  function Split(s: string, sep: char): (parts: seq<string>)
    ensures |parts| >= 1
    ensures forall i :: 0 <= i < |parts| ==> sep !in parts[i]
    ensures Join([sep], parts) == s
    decreases |s|
  {
    if sep !in s then [s]
    else
      var i := IndexOf(s, sep);
      var rest := Split(s[i + 1..], sep);
      assert s == s[..i] + [sep] + s[i + 1..];
      [s[..i]] + rest
  }

  /** Splitting a join on a separator that no part contains gives the parts back. */
  lemma {:induction false} SplitJoin(parts: seq<string>, sep: char)
    requires |parts| >= 1
    requires forall i :: 0 <= i < |parts| ==> sep !in parts[i]
    ensures Split(Join([sep], parts), sep) == parts
    decreases |parts|
  {
    if |parts| == 1 {
      assert Join([sep], parts) == parts[0];
    } else {
      var s := Join([sep], parts);
      var tail := Join([sep], parts[1..]);
      assert s == parts[0] + [sep] + tail;
      assert s[|parts[0]|] == sep;
      assert sep in s;
      var i := IndexOf(s, sep);
      assert s[..|parts[0]|] == parts[0];
      assert forall k :: 0 <= k < |parts[0]| ==> s[k] == parts[0][k];
      assert i == |parts[0]|;
      assert s[i + 1..] == tail;
      SplitJoin(parts[1..], sep);
    }
  }

  /** Joining one more part appends the separator and that part. */
  lemma {:induction false} JoinSnoc(sep: string, parts: seq<string>, x: string)
    requires |parts| >= 1
    ensures Join(sep, parts + [x]) == Join(sep, parts) + sep + x
    decreases |parts|
  {
    if |parts| > 1 {
      assert (parts + [x])[1..] == parts[1..] + [x];
      JoinSnoc(sep, parts[1..], x);
    }
  }

  function DigitChar(d: nat): char
    requires d < 10
  {
    ('0' as int + d) as char
  }

  /** Python's `str(n)` for a natural number. */
  function NatToString(n: nat): (r: string)
    ensures |r| >= 1
    ensures forall i :: 0 <= i < |r| ==> IsDigit(r[i])
    decreases n
  {
    if n < 10 then [DigitChar(n)] else NatToString(n / 10) + [DigitChar(n % 10)]
  }

  /** Python's `str(i)` for any integer. */
  function IntToString(i: int): string {
    if i < 0 then "-" + NatToString(-i) else NatToString(i)
  }

  predicate AllDigits(s: string) {
    forall i :: 0 <= i < |s| ==> IsDigit(s[i])
  }

  /** The value of a non-empty decimal digit string. */
  function DigitsValue(s: string): nat
    requires AllDigits(s)
  {
    if |s| == 0 then 0
    else DigitsValue(s[..|s| - 1]) * 10 + (s[|s| - 1] as int - '0' as int)
  }

  /** Reading back a printed natural number gives the number. */
  lemma {:induction false} DigitsValueOfNatToString(n: nat)
    ensures DigitsValue(NatToString(n)) == n
    decreases n
  {
    var s := NatToString(n);
    if n >= 10 {
      DigitsValueOfNatToString(n / 10);
      assert s[..|s| - 1] == NatToString(n / 10);
    }
  }

  /** `needle` occurs in `hay` starting at position `i`. */
  predicate OccursAt(needle: string, hay: string, i: int) {
    0 <= i && i + |needle| <= |hay| && hay[i..i + |needle|] == needle
  }

  /** Python's `needle in hay` for strings. */
  predicate IsSubstring(needle: string, hay: string) {
    exists i :: 0 <= i <= |hay| && OccursAt(needle, hay, i)
  }

  /** The non-empty stripped pieces, in order. */
  function StripEach(parts: seq<string>): (tags: seq<string>)
    ensures forall i :: 0 <= i < |tags| ==> tags[i] != []
  {
    if parts == [] then []
    else
      var t := Strip(parts[0]);
      (if t != [] then [t] else []) + StripEach(parts[1..])
  }

  /** Every piece `StripEach` keeps is stripped. */
  lemma {:induction false} StripEachStripped(parts: seq<string>)
    ensures forall i :: 0 <= i < |StripEach(parts)| ==> Stripped(StripEach(parts)[i])
    decreases |parts|
  {
    if parts != [] {
      StripEachStripped(parts[1..]);
      StripIsStripped(parts[0]);
      var t := Strip(parts[0]);
      var rest := StripEach(parts[1..]);
      assert StripEach(parts) == (if t != [] then [t] else []) + rest;
    }
  }

  /** A first piece that strips to a non-empty tag contributes that tag. */
  lemma StripEachCons(parts: seq<string>, t: string)
    requires parts != [] && Strip(parts[0]) == t && t != []
    ensures StripEach(parts) == [t] + StripEach(parts[1..])
  {
  }

  /** Every non-empty stripped piece is kept ... */
  lemma {:induction false} StripEachKeeps(parts: seq<string>, k: nat)
    requires k < |parts| && Strip(parts[k]) != []
    ensures Strip(parts[k]) in StripEach(parts)
    decreases |parts|
  {
    var head := Strip(parts[0]);
    assert StripEach(parts) == (if head != [] then [head] else []) + StripEach(parts[1..]);
    if k > 0 {
      StripEachKeeps(parts[1..], k - 1);
    }
  }

  /** ... and nothing else: each kept tag is the strip of some piece. */
  lemma StripEachSource(parts: seq<string>, t: string) returns (k: nat)
    requires t in StripEach(parts)
    ensures k < |parts| && Strip(parts[k]) == t && t != []
  {
    k := 0;
    var atHead := StripEachHeadOrTail(parts, t);
    while !atHead
      invariant k < |parts| && t in StripEach(parts[k..])
      invariant atHead ==> Strip(parts[k]) == t && t != []
      invariant !atHead ==> t in StripEach(parts[k + 1..])
      decreases |parts| - k
    {
      assert parts[k..][1..] == parts[k + 1..];
      k := k + 1;
      atHead := StripEachHeadOrTail(parts[k..], t);
      assert parts[k..][0] == parts[k];
      assert parts[k..][1..] == parts[k + 1..];
    }
  }

  /** A kept tag is the first piece's strip or is kept from the rest. */
  lemma StripEachHeadOrTail(parts: seq<string>, t: string) returns (atHead: bool)
    requires t in StripEach(parts)
    ensures parts != []
    ensures atHead ==> Strip(parts[0]) == t && t != []
    ensures !atHead ==> t in StripEach(parts[1..])
  {
    var head := Strip(parts[0]);
    var first: seq<string> := if head != [] then [head] else [];
    assert StripEach(parts) == first + StripEach(parts[1..]);
    atHead := t in first;
  }

  /** Every character of a joined string comes from a part or the separator. */
  lemma {:induction false} JoinChars(sep: string, parts: seq<string>, c: char)
    requires c in Join(sep, parts)
    ensures c in sep || exists i :: 0 <= i < |parts| && c in parts[i]
    decreases |parts|
  {
    if |parts| > 1 {
      var rest := Join(sep, parts[1..]);
      assert Join(sep, parts) == parts[0] + sep + rest;
      if c in rest {
        JoinChars(sep, parts[1..], c);
        if !(c in sep) {
          var i :| 0 <= i < |parts[1..]| && c in parts[1..][i];
          assert c in parts[i + 1];
        }
      }
    }
  }

  /** Every part of a join is made of characters of the joined string. */
  lemma {:induction false} JoinKeepsChars(sep: string, parts: seq<string>, k: nat, c: char)
    requires k < |parts| && c in parts[k]
    ensures c in Join(sep, parts)
    decreases |parts|
  {
    if |parts| > 1 {
      assert Join(sep, parts) == parts[0] + sep + Join(sep, parts[1..]);
      if k > 0 {
        JoinKeepsChars(sep, parts[1..], k - 1, c);
      }
    }
  }
}

=== FILE: utils.dfy ===
/** `chunk_array`: a list cut into consecutive pieces of a fixed length. */
module Utils {

  /** `chunk_array(array, chunk, newArray)`: the pieces are appended to the
      accumulator. A list no longer than `chunk` (the empty list included) is one
      piece; a longer one gives its first `chunk` elements and recurses on the
      rest. With `chunk == 0` and a non-empty list the source recurses forever, so
      the model requires `chunk >= 1`. */
  function ChunkArray<T>(items: seq<T>, chunk: nat, acc: seq<seq<T>>): (r: seq<seq<T>>)
    requires chunk >= 1
    ensures |r| > |acc| && r[..|acc|] == acc
    decreases |items|
  {
    if |items| <= chunk then acc + [items]
    else
      var r := ChunkArray(items[chunk..], chunk, acc + [items[..chunk]]);
      assert r[..|acc|] == r[..|acc| + 1][..|acc|];
      r
  }

  /** Concatenation of a list of lists. */
  function Concat<T>(parts: seq<seq<T>>): (r: seq<T>)
    decreases |parts|
  {
    if parts == [] then [] else parts[0] + Concat(parts[1..])
  }

  lemma {:induction false} ConcatSnoc<T>(parts: seq<seq<T>>, last: seq<T>)
    ensures Concat(parts + [last]) == Concat(parts) + last
    decreases |parts|
  {
    if parts == [] {
      assert parts + [last] == [last];
    } else {
      assert (parts + [last])[1..] == parts[1..] + [last];
      ConcatSnoc(parts[1..], last);
    }
  }

  /** The pieces the top-level call returns. */
  function Chunks<T>(items: seq<T>, chunk: nat): (r: seq<seq<T>>)
    requires chunk >= 1
  {
    ChunkArray(items, chunk, [])
  }

  /** The pieces, read in order, are the input list again. */
  lemma {:induction false} ChunksConcat<T>(items: seq<T>, chunk: nat, acc: seq<seq<T>>)
    requires chunk >= 1
    ensures Concat(ChunkArray(items, chunk, acc)) == Concat(acc) + items
    decreases |items|
  {
    if |items| <= chunk {
      ConcatSnoc(acc, items);
    } else {
      ChunksConcat(items[chunk..], chunk, acc + [items[..chunk]]);
      ConcatSnoc(acc, items[..chunk]);
      assert items == items[..chunk] + items[chunk..];
    }
  }

  /** Every piece after the accumulator but the last holds exactly `chunk`
      elements; the last holds between 1 and `chunk`, or is the empty input. */
  lemma {:induction false} ChunksSizes<T>(items: seq<T>, chunk: nat, acc: seq<seq<T>>)
    requires chunk >= 1
    ensures var r := ChunkArray(items, chunk, acc);
      forall i :: |acc| <= i < |r| - 1 ==> |r[i]| == chunk
    ensures var r := ChunkArray(items, chunk, acc);
      |r[|r| - 1]| <= chunk && (items != [] ==> |r[|r| - 1]| >= 1)
    decreases |items|
  {
    if |items| > chunk {
      var acc' := acc + [items[..chunk]];
      ChunksSizes(items[chunk..], chunk, acc');
      var r := ChunkArray(items, chunk, acc);
      assert r[..|acc'|] == acc';
      forall i | |acc| <= i < |r| - 1
        ensures |r[i]| == chunk
      {
        if i == |acc| {
          assert r[i] == acc'[i];
        }
      }
    }
  }

  /** The top-level call: the pieces rebuild the input, all but the last are full,
      the last is non-empty for non-empty input, and the empty list is a single
      empty piece. */
  lemma ChunksOfList<T>(items: seq<T>, chunk: nat)
    requires chunk >= 1
    ensures Concat(Chunks(items, chunk)) == items
    ensures var r := Chunks(items, chunk);
      forall i :: 0 <= i < |r| - 1 ==> |r[i]| == chunk
    ensures var r := Chunks(items, chunk);
      items != [] ==> 1 <= |r[|r| - 1]| <= chunk
    ensures items == [] ==> Chunks(items, chunk) == [[]]
  {
    ChunksConcat(items, chunk, []);
    ChunksSizes(items, chunk, []);
  }
}

=== FILE: values.dfy ===
/** Decoded message values: the dynamic Python objects a MessagePack payload turns
    into (None, bool, int, str, list, dict), with Python's dict lookup and
    assignment, truthiness, `str()` rendering and the exception messages the
    dispatcher can raise on ill-typed input. */
module Values {
  import opened Common
  import opened Text

  /** A dict is an insertion-ordered list of (key, value) entries, as Python keeps it. */
  type Dict = seq<(Value, Value)>

  datatype Value =
    | VNone
    | VBool(b: bool)
    | VInt(i: int)
    | VStr(s: string)
    | VList(items: seq<Value>)
    | VDict(entries: Dict)

  /** Python's `type(v).__name__`. */
  function TypeName(v: Value): string {
    match v
    case VNone => "NoneType"
    case VBool(_) => "bool"
    case VInt(_) => "int"
    case VStr(_) => "str"
    case VList(_) => "list"
    case VDict(_) => "dict"
  }

  /** Python's `bool(v)`. */
  predicate Truthy(v: Value) {
    match v
    case VNone => false
    case VBool(b) => b
    case VInt(i) => i != 0
    case VStr(s) => s != ""
    case VList(xs) => |xs| > 0
    case VDict(e) => |e| > 0
  }

  /** Only scalars can be dict keys or set members; lists and dicts raise `TypeError`. */
  predicate Hashable(v: Value) {
    !v.VList? && !v.VDict?
  }

  function UnhashableError(v: Value): string {
    "unhashable type: '" + TypeName(v) + "'"
  }

  function NoAttributeError(v: Value, attr: string): string {
    "'" + TypeName(v) + "' object has no attribute '" + attr + "'"
  }

  /** Python identifies `True` with `1` and `False` with `0` as dict keys. */
  function KeyNorm(k: Value): Value {
    if k.VBool? then VInt(if k.b then 1 else 0) else k
  }

  predicate SameKey(a: Value, b: Value) {
    KeyNorm(a) == KeyNorm(b)
  }

  /** `d.get(k)`: the value of the first entry whose key equals `k`. */
  function Lookup(d: Dict, k: Value): (r: Option<Value>)
    ensures r.Some? <==> exists i :: 0 <= i < |d| && SameKey(d[i].0, k)
  {
    if |d| == 0 then None
    else if SameKey(d[0].0, k) then Some(d[0].1)
    else
      var r := Lookup(d[1..], k);
      assert forall i :: 1 <= i < |d| ==> d[i] == d[1..][i - 1];
      r
  }

  /** `d[k] = v`: an existing equal key keeps its place and its original key
      object; a new key is appended. */
  function Put(d: Dict, k: Value, v: Value): Dict {
    if |d| == 0 then [(k, v)]
    else if SameKey(d[0].0, k) then [(d[0].0, v)] + d[1..]
    else [d[0]] + Put(d[1..], k, v)
  }

  predicate UniqueKeys(d: Dict) {
    forall i, j :: 0 <= i < j < |d| ==> !SameKey(d[i].0, d[j].0)
  }

  /** After `d[k] = v`, `d.get(k)` is `v`. */
  lemma {:induction false} LookupPutSame(d: Dict, k: Value, v: Value)
    ensures Lookup(Put(d, k, v), k) == Some(v)
  {
    if |d| > 0 && !SameKey(d[0].0, k) {
      LookupPutSame(d[1..], k, v);
      assert Put(d, k, v)[1..] == Put(d[1..], k, v);
    }
  }

  /** `d[k] = v` leaves every other key's value as it was. */
  lemma {:induction false} LookupPutOther(d: Dict, k: Value, v: Value, k': Value)
    requires !SameKey(k, k')
    ensures Lookup(Put(d, k, v), k') == Lookup(d, k')
  {
    if |d| > 0 && !SameKey(d[0].0, k) {
      LookupPutOther(d[1..], k, v, k');
      assert Put(d, k, v)[1..] == Put(d[1..], k, v);
    }
  }

  /** `d[k] = v` adds at most one entry: the keys afterwards are `k` and the keys
      that were already there. */
  lemma {:induction false} PutKeys(d: Dict, k: Value, v: Value)
    ensures |Put(d, k, v)| == if Lookup(d, k).Some? then |d| else |d| + 1
    ensures forall i :: 0 <= i < |Put(d, k, v)| ==>
      SameKey(Put(d, k, v)[i].0, k) || exists j :: 0 <= j < |d| && Put(d, k, v)[i].0 == d[j].0
  {
    var r := Put(d, k, v);
    if |d| == 0 {
    } else if SameKey(d[0].0, k) {
      assert forall i :: 1 <= i < |r| ==> r[i] == d[i];
    } else {
      var d' := d[1..];
      PutKeys(d', k, v);
      var r' := Put(d', k, v);
      assert r == [d[0]] + r';
      assert Lookup(d, k) == Lookup(d', k);
      forall i | 0 <= i < |r| ensures SameKey(r[i].0, k) || exists j :: 0 <= j < |d| && r[i].0 == d[j].0
      {
        if i > 0 {
          assert r[i] == r'[i - 1];
          if !SameKey(r[i].0, k) {
            var j :| 0 <= j < |d'| && r'[i - 1].0 == d'[j].0;
            assert r[i].0 == d[j + 1].0;
          }
        } else {
          assert r[i].0 == d[0].0;
        }
      }
    }
  }

  /** `d[k] = v` never creates two equal keys. */
  lemma {:induction false} PutKeepsUniqueKeys(d: Dict, k: Value, v: Value)
    requires UniqueKeys(d)
    ensures UniqueKeys(Put(d, k, v))
  {
    var r := Put(d, k, v);
    if |d| == 0 {
    } else if SameKey(d[0].0, k) {
      assert forall i :: 1 <= i < |r| ==> r[i] == d[i];
    } else {
      var d' := d[1..];
      assert UniqueKeys(d') by {
        assert forall i :: 0 <= i < |d'| ==> d'[i] == d[i + 1];
      }
      PutKeepsUniqueKeys(d', k, v);
      PutKeys(d', k, v);
      var r' := Put(d', k, v);
      assert r == [d[0]] + r';
      forall i, j | 0 <= i < j < |r| ensures !SameKey(r[i].0, r[j].0)
      {
        if i == 0 {
          assert r[j] == r'[j - 1];
          if SameKey(r'[j - 1].0, k) {
            assert !SameKey(d[0].0, k);
          } else {
            var m :| 0 <= m < |d'| && r'[j - 1].0 == d'[m].0;
            assert d'[m] == d[m + 1];
          }
        } else {
          assert r[i] == r'[i - 1] && r[j] == r'[j - 1];
        }
      }
    }
  }

  /** `obj.get(key, default)`: a dict lookup, or `AttributeError` on a non-dict. */
  function GetField(obj: Value, key: string, default: Value): (r: Result<Value>)
    ensures r.Err? <==> !obj.VDict?
  {
    match obj
    case VDict(e) =>
      (match Lookup(e, VStr(key))
       case Some(x) => Ok(x)
       case None => Ok(default))
    case _ => Err(NoAttributeError(obj, "get"))
  }

  /** The elements a Python `for` loop visits; scalars other than `str` raise. */
  function Iterate(v: Value): (r: Result<seq<Value>>)
    ensures r.Err? <==> v.VNone? || v.VBool? || v.VInt?
  {
    match v
    case VList(xs) => Ok(xs)
    case VStr(s) => Ok(seq(|s|, i requires 0 <= i < |s| => VStr([s[i]])))
    case VDict(e) => Ok(seq(|e|, i requires 0 <= i < |e| => e[i].0))
    case _ => Err("'" + TypeName(v) + "' object is not iterable")
  }

  /** Python's `repr(v)`; string escaping is not modelled. */
  function Repr(v: Value): string
    decreases v
  {
    match v
    case VNone => "None"
    case VBool(b) => if b then "True" else "False"
    case VInt(i) => IntToString(i)
    case VStr(s) => "'" + s + "'"
    case VList(xs) =>
      "[" + Join(", ", seq(|xs|, i requires 0 <= i < |xs| => Repr(xs[i]))) + "]"
    case VDict(e) =>
      "{" + Join(", ", seq(|e|, i requires 0 <= i < |e| => Repr(e[i].0) + ": " + Repr(e[i].1))) + "}"
  }

  /** Python's `str(v)`, which is what an f-string interpolates. */
  function Show(v: Value): string {
    if v.VStr? then v.s else Repr(v)
  }

  /** A dict literal with string keys. */
  function Record(fields: seq<(string, Value)>): Value {
    VDict(seq(|fields|, i requires 0 <= i < |fields| => (VStr(fields[i].0), fields[i].1)))
  }
}
